=== FILE: README.md ===
# agaip core, modelled in Dafny

This project models the core of agaip, an agent and task orchestration
framework. It covers:

- the life cycle of tasks;
- agent health and performance counters;
- user accounts and their login lock;
- the generic record and repository conventions of the ORM layer;
- the repositories of tasks, agents and users;
- the services for tasks and agents;
- the background jobs (one task run, the periodic agent health check, the
  periodic clean-up and retry);
- the plugin registry, the plugin service and the plugin base class;
- the dependency-injection container;
- the event bus's handler table and middleware chain;
- the fixed-window rate limiter.

A database table is a class `Table<R>` (`base_repository.dfy`) whose field
`rows: map<Uuid, R>` maps primary keys to stored rows. A loaded record (`Task`,
`Agent`, `User`) is an object built from a row. Its methods change its
fields, as the Python methods do, and `Save` writes `Row()` back under its
key. Each such method is proved against a pure transition function on the row
(the `*Record` modules). Every lemma about the life cycle is stated over those
functions.

Clock readings are integer seconds passed as a parameter `now`. Where one
operation reads the clock more than once (a cut-off and then the stamps the
records write), all its readings are taken as that one instant. Raised exceptions are values
`Exception(kind, message)` carried by `Result`/`Outcome`. The kind is the
Python class name. The following are inputs to the operations that use them:

- password checks;
- token generation;
- module imports;
- plugin predictions;
- `str(uuid)` and `isoformat()`;
- the UUID parser.

Python floats are exact reals, and Python ints are unbounded integers.

## Model

| member | source | states |
|---|---|---|
| TaskRecord.StartProcessing | agaip/database/models/task.py:89-96 | succeeds exactly from QUEUED; otherwise the ValidationError with the source's text; on success PROCESSING with `started_at` = now and no other field written |
| TaskRecord.CompleteSuccessfully | agaip/database/models/task.py:98-114 | succeeds exactly from PROCESSING, else the ValidationError; on success COMPLETED with the result, `completed_at` = now and the duration of `DurationAt`; nothing else written |
| TaskRecord.FailWithError | agaip/database/models/task.py:116-139 | succeeds exactly from PROCESSING or QUEUED; FAILED with message, type, `completed_at` and duration; other fields kept |
| TaskRecord.Cancel | agaip/database/models/task.py:141-158 | refused exactly from COMPLETED, FAILED and CANCELLED (so TIMEOUT can be cancelled); CANCELLED with `completed_at` and duration |
| TaskRecord.QueueForRetry | agaip/database/models/task.py:160-183 | exhaustion is checked first: `retry_count >= max_retries` answers False with the row unchanged whatever the status; otherwise non-FAILED raises; True exactly for a FAILED task with retries left, which becomes QUEUED with one more retry and both error fields cleared |
| TaskRecord.DurationAt | agaip/database/models/task.py:107-110 | the duration is `completed_at - started_at` when `started_at` is set and the previous value otherwise |
| TaskRecord.QueuePending | agaip/database/repositories/task.py:111-119 | defined exactly for PENDING; the row becomes QUEUED with `queued_at` stamped and nothing else changes |
| TaskRecord.StepFollowsEdge | agaip/database/models/task.py:89-183 | every transition that changes a row moves its status along an edge of the state machine |
| TaskRecord.CompletedAndCancelledAreFinal | agaip/database/models/task.py:98-158 | any sequence of operations leaves a COMPLETED or CANCELLED task exactly as it is |
| TaskRecord.RetriesAreBounded | agaip/database/models/task.py:160-183 | along any sequence of operations `retry_count` grows by the number of granted retries and never exceeds `max_retries` |
| TaskRecord.FreshTaskRetriesAtMostMax | agaip/database/models/task.py:160-183 | a task starting at retry count 0 is granted at most `max_retries` retries |
| TaskRecord.FinishedTasksDoNotRun | agaip/database/models/task.py:186-193 | a finished task (COMPLETED, FAILED, CANCELLED, TIMEOUT) cannot start, complete or fail; it can be cancelled only from TIMEOUT, and re-queued only from FAILED |
| TaskModel.Task.Save | agaip/database/models/task.py:96 | the object's row is written under its key, the other rows kept |
| TaskModel.Task.StartProcessing | agaip/database/models/task.py:89-96 | the object's row becomes the transition function's row (unchanged when it raises) and is saved only on success |
| TaskModel.Task.CompleteSuccessfully | agaip/database/models/task.py:98-114 | as above, for `complete_successfully` |
| TaskModel.Task.FailWithError | agaip/database/models/task.py:116-139 | as above, for `fail_with_error` |
| TaskModel.Task.Cancel | agaip/database/models/task.py:141-158 | as above, for `cancel` |
| TaskModel.Task.QueueForRetry | agaip/database/models/task.py:160-183 | the answer and the row are those of `QueueForRetry`; the table is written only when the answer is True |
| TaskModel.Load | agaip/database/models/base.py:55-60 | a fresh object carrying the stored row, or null exactly when the key is absent |
| AgentRecord.ParseAgentType | agaip/database/models/agent.py:29-34 | accepts exactly the four enumeration strings |
| AgentRecord.Activate | agaip/database/models/agent.py:86-93 | refused exactly for a disabled agent, with the source's message; otherwise ACTIVE with a fresh heartbeat and nothing else written |
| AgentRecord.Deactivate | agaip/database/models/agent.py:95-98 | INACTIVE, nothing else written |
| AgentRecord.SetBusy | agaip/database/models/agent.py:100-106 | succeeds exactly from ACTIVE and then only the status becomes BUSY |
| AgentRecord.SetError | agaip/database/models/agent.py:108-113 | ERROR, the message stored, `error_count` up by exactly one |
| AgentRecord.Heartbeat | agaip/database/models/agent.py:115-124 | the heartbeat is always refreshed; ERROR heals to ACTIVE only with `auto_restart`; any other status is kept |
| AgentRecord.RecordTaskCompletion | agaip/database/models/agent.py:126-145 | one more task, and exactly one of the success and failure counters goes up; the first time is recorded as is and later ones update the moving average over the new total, which is never 0 |
| AgentRecord.ResetMetrics | agaip/database/models/agent.py:147-157 | the three task counters and `error_count` are 0 and the average is None |
| AgentRecord.AddTag | agaip/database/models/agent.py:159-164 | the tag is present afterwards; an absent tag is appended, a present one changes nothing |
| AgentRecord.RemoveTag | agaip/database/models/agent.py:166-173 | True exactly when the tag was present, and then its first occurrence is removed |
| AgentRecord.CountersStayConsistent | agaip/database/models/agent.py:86-157 | every agent operation keeps total = successful + failed |
| AgentRecord.RecordKeepsMean | agaip/database/models/agent.py:136-141 | the moving average is the exact mean of all recorded processing times |
| AgentRecord.ResetForgetsTimes | agaip/database/models/agent.py:147-157 | after a reset no processing time is recorded |
| AgentRecord.RatesAreComplementary | agaip/database/models/agent.py:196-207 | both rates lie in [0, 1]; they are 0 before any task and sum to 1 afterwards |
| AgentRecord.TagsStayDistinct | agaip/database/models/agent.py:159-177 | `add_tag` never creates a duplicate, and `remove_tag` on a duplicate-free list removes the tag for good |
| AgentRecord.HealthNeedsRecentHeartbeat | agaip/database/models/agent.py:180-193 | a healthy agent is enabled, not ERROR or STOPPING, and has a heartbeat under 300 s old or none at all while ACTIVE; an enabled agent with a heartbeat at `now` is healthy |
| AgentRecord.ActivatedAgentIsHealthy | agaip/database/models/agent.py:86-93 | a successful activation makes the agent healthy at that instant |
| AgentModel.Agent.Save | agaip/database/models/agent.py:93 | the object's row is written under its key, the other rows kept |
| AgentModel.Agent.Activate | agaip/database/models/agent.py:86-93 | the object's row and the table follow `AgentRecord.Activate`; nothing is written when it raises |
| AgentModel.Agent.Deactivate | agaip/database/models/agent.py:95-98 | the row becomes `AgentRecord.Deactivate` of the old row and is saved |
| AgentModel.Agent.SetBusy | agaip/database/models/agent.py:100-106 | the row and the table follow `AgentRecord.SetBusy`; nothing is written when it raises |
| AgentModel.Agent.SetError | agaip/database/models/agent.py:108-113 | the row becomes `AgentRecord.SetError` of the old row and is saved |
| AgentModel.Agent.Heartbeat | agaip/database/models/agent.py:115-124 | the row becomes `AgentRecord.Heartbeat` of the old row and is saved |
| AgentModel.Agent.RecordTaskCompletion | agaip/database/models/agent.py:126-145 | the row becomes `AgentRecord.RecordTaskCompletion` of the old row and is saved |
| AgentModel.Agent.ResetMetrics | agaip/database/models/agent.py:147-157 | the row becomes `AgentRecord.ResetMetrics` of the old row and is saved |
| AgentModel.Agent.AddTag | agaip/database/models/agent.py:159-164 | the tags become `AgentRecord.AddTag` of the old tags; not saved |
| AgentModel.Agent.RemoveTag | agaip/database/models/agent.py:166-173 | the answer and the tags are those of `AgentRecord.RemoveTag`; not saved |
| AgentModel.Agent.SoftDelete | agaip/database/models/base.py:72-76 | the inherited soft delete: deleted, stamped, saved |
| AgentModel.Load | agaip/database/models/base.py:55-60 | a fresh object carrying the stored row, or null exactly when the key is absent |
| UserRecord.DisplayName | agaip/database/models/user.py:187-189 | the full name when it is a non-empty string, else the username |
| UserRecord.SetPassword | agaip/database/models/user.py:84-87 | the new hash and `password_changed_at` = now; nothing else |
| UserRecord.RecordLogin | agaip/database/models/user.py:93-98 | login stamped, `login_count` up by one, failed attempts reset to 0 |
| UserRecord.RecordFailedLogin | agaip/database/models/user.py:100-109 | one more failed attempt; from the fifth on `locked_until` = now + 30 min, otherwise the lock is kept |
| UserRecord.UnlockAccount | agaip/database/models/user.py:111-115 | no lock and no failed attempts, nothing else |
| UserRecord.Activate | agaip/database/models/user.py:117-121 | active and ACTIVE, nothing else |
| UserRecord.Deactivate | agaip/database/models/user.py:123-127 | inactive and INACTIVE, nothing else |
| UserRecord.Suspend | agaip/database/models/user.py:129-132 | only the status changes, to SUSPENDED |
| UserRecord.AddPermission | agaip/database/models/user.py:134-139 | the permission is present afterwards; appended only when absent |
| UserRecord.RemovePermission | agaip/database/models/user.py:141-148 | True exactly when present, and then its first occurrence is removed |
| UserRecord.HasAnyPermission | agaip/database/models/user.py:157-159 | true iff some listed permission is held |
| UserRecord.HasAllPermissions | agaip/database/models/user.py:161-163 | true iff every listed permission is held |
| UserRecord.FailuresLockAccount | agaip/database/models/user.py:100-109 | n failures raise the counter by n; once it reaches five the lock runs 30 minutes from the last failure, and before that the lock is untouched |
| UserRecord.FiveFailuresLock | agaip/database/models/user.py:100-109 | five failures in a row lock a fresh account for the next 30 minutes, and it cannot log in meanwhile |
| UserRecord.FourFailuresDoNotLock | agaip/database/models/user.py:100-109 | up to four failures never lock an unlocked account |
| UserRecord.StatusOperationsAndLogin | agaip/database/models/user.py:117-132 | after `activate` `can_login` is just "not locked"; after `deactivate` or `suspend` login is impossible; `unlock_account` leaves only the status and active checks |
| UserRecord.LockExpires | agaip/database/models/user.py:166-170 | a lock holding now held at every earlier instant, and has lapsed once `locked_until` is reached |
| UserRecord.PermissionsAddAndRemove | agaip/database/models/user.py:134-163 | an added permission is held and the list stays duplicate-free; other permissions are unaffected; a removed one is no longer held unless the user is ADMIN, who holds every permission |
| UserModel.Fields | agaip/database/models/user.py:38-73 | the columns `to_dict` walks, the user's own and the four inherited from the base model (`updated_at`, `is_deleted`, `deleted_at`, `metadata`), in `FieldNames` order, names distinct |
| UserModel.User.Save | agaip/database/models/user.py:98 | the object's row is written under its key, the other rows kept |
| UserModel.User.SetPassword | agaip/database/models/user.py:84-87 | the row becomes `UserRecord.SetPassword` of the old row; not saved |
| UserModel.User.RecordLogin | agaip/database/models/user.py:93-98 | the row becomes `UserRecord.RecordLogin` of the old row and is saved |
| UserModel.User.RecordFailedLogin | agaip/database/models/user.py:100-109 | the row becomes `UserRecord.RecordFailedLogin` of the old row and is saved |
| UserModel.User.UnlockAccount | agaip/database/models/user.py:111-115 | the row becomes `UserRecord.UnlockAccount` of the old row and is saved |
| UserModel.User.Activate | agaip/database/models/user.py:117-121 | the row becomes `UserRecord.Activate` of the old row and is saved |
| UserModel.User.Deactivate | agaip/database/models/user.py:123-127 | the row becomes `UserRecord.Deactivate` of the old row and is saved |
| UserModel.User.Suspend | agaip/database/models/user.py:129-132 | the row becomes `UserRecord.Suspend` of the old row and is saved |
| UserModel.User.AddPermission | agaip/database/models/user.py:134-139 | the permissions become `UserRecord.AddPermission` of the old list; not saved |
| UserModel.User.RemovePermission | agaip/database/models/user.py:141-148 | the answer and the list are those of `UserRecord.RemovePermission`; not saved |
| UserModel.User.ToDict | agaip/database/models/user.py:191-207 | the keys are exactly the columns not excluded (the password hash and API key count as excluded without `include_sensitive`) plus `is_locked`, `is_admin`, `can_login` and `display_name`; each column holds its rendered value and the computed entries the predicates' values; a non-empty caller list comes back extended with the two sensitive names when `include_sensitive` is false |
| UserModel.User.BaseDict | agaip/database/models/base.py:33-52 | the base conversion over the user's columns: exactly the columns not excluded, each rendered |
| UserModel.DictShape | agaip/database/models/user.py:194-207 | adding the computed entries to the base dictionary overrides no column, and the sensitive columns appear only when asked for |
| UserModel.Load | agaip/database/models/base.py:55-60 | a fresh object carrying the stored row, or null exactly when the key is absent |
| BaseModel.ToDict | agaip/database/models/base.py:33-52 | exactly the fields not excluded appear, each rendered (datetimes and UUIDs as text) |
| BaseModel.GetOrNoneById | agaip/database/models/base.py:55-60 | a row is returned exactly when stored and not soft-deleted, so it is never a deleted one |
| BaseModel.MetadataSet | agaip/database/models/base.py:84-88 | the key maps to the value; every other key is as before, and a None dictionary starts empty |
| BaseModel.MetadataGet | agaip/database/models/base.py:90-94 | the stored value, or the default for a missing key or None metadata |
| BaseModel.MetadataRemove | agaip/database/models/base.py:96-104 | True iff the key was present; the key is gone and the other entries kept; None metadata gives False |
| BaseModel.GetAfterSet | agaip/database/models/base.py:84-94 | after `set_metadata(k, v)`, `get_metadata(k)` is v and other keys read as before |
| BaseModel.GetAfterRemove | agaip/database/models/base.py:90-104 | after removal the key reads as the default, and a second removal answers False |
| BaseModel.BaseRecord.constructor | agaip/database/models/base.py:19-28 | a new record: not deleted, no deletion time, empty metadata, created now |
| BaseModel.BaseRecord.SoftDelete | agaip/database/models/base.py:72-76 | deleted at now, saved with `update_fields` so only the pair is written to the stored row, after which `get_or_none_by_id` finds nothing |
| BaseModel.BaseRecord.Restore | agaip/database/models/base.py:78-82 | the pair cleared and saved the same way, after which a stored record is found by id again |
| BaseModel.BaseRecord.SaveDeletion | agaip/database/models/base.py:76 | `save(update_fields=["is_deleted", "deleted_at"])`: the stored row of the key gets the object's pair, every other column and row kept; an unstored key changes nothing |
| BaseModel.SoftDeleteThenRestore | agaip/database/models/base.py:72-82 | soft deletion hides the record from `get_or_none_by_id` and no other; restoring brings it back with every other column as stored, and undoes a soft delete of a live record exactly |
| BaseModel.BaseRecord.SetMetadata | agaip/database/models/base.py:84-88 | the metadata becomes `MetadataSet` of the old dictionary |
| BaseModel.BaseRecord.RemoveMetadata | agaip/database/models/base.py:96-104 | the answer and dictionary are those of `MetadataRemove` |
| BaseRepository.TotalPages | agaip/database/repositories/base.py:186 | the integer ceiling of total over page size: enough pages for every row, none of them empty, and 0 only for no rows |
| BaseRepository.Window | agaip/database/repositories/base.py:184 | `offset(o).limit(l)`: the rows from position o on, at most l of them |
| BaseRepository.Table.GetById | agaip/database/repositories/base.py:34-41 | the stored row, or None exactly when absent |
| BaseRepository.Table.GetByIdOrRaise | agaip/database/repositories/base.py:43-48 | the stored row, or the DatabaseError naming the model and id exactly when absent |
| BaseRepository.Table.Update | agaip/database/repositories/base.py:85-98 | None without a change for a missing id; otherwise every given field is assigned in order and the row saved |
| BaseRepository.Table.Delete | agaip/database/repositories/base.py:100-110 | True iff the id was stored; the row is gone afterwards either way |
| BaseRepository.Table.SoftDelete | agaip/database/repositories/base.py:112-127 | False for a missing id; the model's own soft delete when it has one, otherwise a hard delete |
| BaseRepository.Table.Paginate | agaip/database/repositories/base.py:169-198 | succeeds iff page >= 1 and page size > 0; a negative offset or limit and a zero page size give the errors the ORM and `//` raise, wrapped in "Failed to paginate"; the matching rows are listed once each in the database's order, and a page's items are exactly the window at `(page-1)*size` of that listing, with the total, the page count and both neighbour flags |
| BaseRepository.LaterAssignmentWins | agaip/database/repositories/base.py:92-93 | the fields are assigned left to right: the last pair is applied last |
| BaseRepository.PagesCoverRows | agaip/database/repositories/base.py:177-195 | every page before the last is full, and every page up to the last is non-empty |
| BaseRepository.PageOfRow | agaip/database/repositories/base.py:177-195 | the matching row at position i is item `i % size` of page `i / size + 1`, a page within the page count, and no other page's window reaches it: the pages partition the listing |
| Tables.SelectKeys | agaip/database/repositories/base.py:71-76 | `filter`: exactly the keys whose rows match, each once, as many as the count |
| Tables.FindOne | agaip/database/repositories/base.py:78-83 | `filter(...).first()`: a matching key, or None only when no row matches |
| Tables.RowsAt | agaip/database/repositories/base.py:71-76 | the rows under the given keys, in order |
| Queries.Query | agaip/database/repositories/task.py:58-74 | `filter(...).order_by(...).limit(n)`: matching stored rows in key order, as many as the cap allows, no stored row twice when rows are stored under distinct keys; no omitted match sorts before a returned row; without a limit every match is returned |
| Ordering.LexLeTotal | agaip/database/repositories/task.py:65 | the database order on sort keys is total |
| Ordering.LexLeTransitive | agaip/database/repositories/task.py:65 | and transitive |
| Ordering.CharCodes | agaip/database/repositories/task.py:65 | strings compare by their character codes |
| Ordering.Insert | agaip/database/repositories/task.py:65 | inserting into a sorted list keeps it sorted and adds exactly the new row |
| Ordering.SortByKey | agaip/database/repositories/task.py:65 | a sorted permutation of the rows |
| Ordering.OrderedLimit | agaip/database/repositories/task.py:65 | `order_by(...).limit(n)`: the n smallest rows, sorted, drawn from the input |
| Averages.SumBounds | agaip/database/repositories/task.py:159-160 | a sum of bounded samples is bounded by the count times the bounds |
| Averages.MeanWithinBounds | agaip/database/repositories/task.py:157-160 | a mean lies between the sample bounds, and is 0 for no samples |
| TaskRepository.NewTask | agaip/database/repositories/task.py:24-56 | PENDING, zero retries, no timestamps but creation; a deadline exactly when the timeout is given and non-zero, at now + timeout |
| TaskRepository.NewTaskMustBeQueuedFirst | agaip/database/repositories/task.py:24-56 | a new task cannot start before it is queued, and queuing it succeeds |
| TaskRepository.CreateTask | agaip/database/repositories/task.py:24-56 | stores `NewTask` under its fresh key |
| TaskRepository.QueueTask | agaip/database/repositories/task.py:111-119 | True iff the task exists and is PENDING; then it becomes QUEUED with `queued_at`, otherwise nothing changes |
| TaskRepository.StoredRankIsStringOrder | agaip/database/repositories/task.py:65 | `-priority` sorts the stored strings, so "normal" > "low" > "high" > "critical" |
| TaskRepository.NormalBeforeCritical | agaip/database/repositories/task.py:58-65 | consequently a "normal" pending task is served before a "critical" one of the same creation time |
| TaskRepository.GetPendingTasks | agaip/database/repositories/task.py:58-65 | the first `limit` PENDING tasks (of the agent, if given) in ("-priority", "created_at") order, stored rows each, no task twice, none skipped |
| TaskRepository.GetQueuedTasks | agaip/database/repositories/task.py:67-74 | the same for QUEUED tasks in ("-priority", "queued_at") order: stored rows, no task twice, none skipped |
| TaskRepository.GetProcessingTasks | agaip/database/repositories/task.py:76-83 | every PROCESSING task of the agent, each once, by `started_at` |
| TaskRepository.GetFailedTasks | agaip/database/repositories/task.py:85-101 | the first `limit` FAILED tasks of the agent, stored rows each and no task twice, newest completion first, and no FAILED task left out completed later than one returned; asking for retryable ones only raises NameError (see Findings) |
| TaskRepository.GetTasksByUser | agaip/database/repositories/task.py:173-185 | the first `limit` stored tasks the user created (of the status, if given), each once, newest first, none skipped |
| TaskRepository.GetSubtasks | agaip/database/repositories/task.py:187-189 | every child of the parent, each once, oldest first |
| TaskRepository.GetTimedOutTasks | agaip/database/repositories/task.py:103-109 | exactly the PROCESSING tasks whose deadline has passed, each once |
| TaskRepository.TimedOutTasksCanBeFailed | agaip/database/repositories/task.py:103-109 | a timed-out task can still be failed or cancelled, and failing it records its duration |
| TaskRepository.CleanupOldTasks | agaip/database/repositories/task.py:191-205 | returns the number of COMPLETED, FAILED and CANCELLED tasks finished before the cutoff; the table left is `Cleaned`: exactly the tasks neither old nor below an old task through `parent_task` survive, unchanged |
| TaskRepository.CascadeDelete | agaip/database/models/task.py:72-74 | one `task.delete()`: the row and every stored task below it through `parent_task` (the `ON DELETE CASCADE`) go, every other row stays unchanged |
| TaskRepository.SubtreeExact | agaip/database/models/task.py:72-74 | the cascade's closure under children holds exactly the tasks whose `parent_task` chain reaches a deleted root |
| TaskRepository.PruneStep | agaip/database/repositories/task.py:202-203 | deleting one more old task, with its cascade, from the table pruned so far gives the table pruned at the larger set; a task a cascade already removed deletes nothing more |
| TaskRepository.CleanupSurvivors | agaip/database/repositories/task.py:191-205 | a stored task survives the clean-up iff it is not old and its parent, when stored, survives: the subtasks of an old task go whatever their status |
| TaskRepository.CleanupSparesTimeouts | agaip/database/repositories/task.py:191-205 | no survivor is old and survivors are unchanged; every task that is not old and below no old task survives, so a TIMEOUT root task always survives |
| TaskRepository.SuccessRate | agaip/database/repositories/task.py:148-149 | completed / (completed + failed) * 100, 0 with nothing finished, always within [0, 100] |
| TaskRepository.Durations | agaip/database/repositories/task.py:152-159 | one duration per task, 0 where none is recorded |
| TaskRepository.GetTaskStatistics | agaip/database/repositories/task.py:121-171 | each count is the count of tasks in scope with that status; the parts sum to at most the total; the success rate is `SuccessRate`; the average is the mean duration over exactly the completed tasks in scope that have one |
| TaskRepository.AverageDuration | agaip/database/repositories/task.py:157-160 | the loop computes the mean of the durations, 0 for none |
| TaskRepository.Count | agaip/database/repositories/base.py:129-137 | the number of matching rows |
| TaskRepository.CountAddsStatus | agaip/database/repositories/task.py:140-145 | counting one more status adds that status's count |
| TaskRepository.StatusCountsWithinTotal | agaip/database/repositories/task.py:140-145 | the five status counts are disjoint parts of the total |
| TaskRepository.AverageDurationWithinBounds | agaip/database/repositories/task.py:157-160 | the average lies between the shortest and longest durations, and is 0 with none |
| TaskRepository.RetryFailedTasksAsWritten | agaip/database/repositories/task.py:207-224 | as written, every call raises NameError for `models` |
| TaskRepository.RetryAsWrittenNeverRetries | agaip/database/repositories/task.py:207-224 | even a table with retryable tasks gets no retry from the code as written |
| TaskRepository.Requeued | agaip/database/repositories/task.py:220-222 | the table after re-queuing the selected tasks: same keys |
| TaskRepository.RetryFailedTasks | agaip/database/repositories/task.py:207-224 | as intended: up to `limit` FAILED tasks with retries left are re-queued by `queue_for_retry`, and the count is the number selected (each answers True) |
| TaskRepository.RetriedTasksAreQueued | agaip/database/repositories/task.py:207-224 | each retried task is QUEUED with one more retry and no error left |
| AgentRepository.NewAgent | agaip/database/repositories/agent.py:23-47 | INACTIVE, enabled, auto-restart, no heartbeat, zero counters, `plugin_config` or {} |
| AgentRepository.NewAgentStartsIdle | agaip/database/repositories/agent.py:23-47 | a new agent has consistent counters, is not healthy, and can be activated |
| AgentRepository.CreateAgent | agaip/database/repositories/agent.py:23-47 | stores `NewAgent` under its fresh key; names stay unique |
| AgentRepository.GetActiveAgents | agaip/database/repositories/agent.py:49-53 | exactly the enabled ACTIVE agents, each once, ordered by ("-priority", "name") |
| AgentRepository.GetAvailableAgents | agaip/database/repositories/agent.py:55-66 | exactly the enabled ACTIVE or BUSY agents of the type, if given, each once and as many as there are, in the same order |
| AgentRepository.GetUnhealthyAgents | agaip/database/repositories/agent.py:68-77 | exactly the ACTIVE or BUSY agents whose heartbeat is older than the timeout, each once |
| AgentRepository.StaleAgentsAreUnhealthy | agaip/database/repositories/agent.py:68-77 | with five minutes or more, a selected agent is unhealthy; agents without a heartbeat are never selected |
| AgentRepository.GetAgentsByPlugin | agaip/database/repositories/agent.py:79-81 | exactly the agents of that plugin |
| AgentRepository.GetAgentsWithTag | agaip/database/repositories/agent.py:83-85 | exactly the agents carrying the tag |
| AgentRepository.GetTopPerformingAgents | agaip/database/repositories/agent.py:179-187 | the first `limit` agents that processed a task, each once, by ("-successful_tasks", "-total_tasks_processed"); no agent left out comes before a returned one in that order |
| AgentRepository.UpdateAgentHeartbeat | agaip/database/repositories/agent.py:87-93 | False without a change for an unknown id; otherwise the row gets `heartbeat` |
| AgentRepository.SetAgentStatus | agaip/database/repositories/agent.py:95-102 | False for an unknown id; otherwise only the status is written |
| AgentRepository.RecordAgentError | agaip/database/repositories/agent.py:104-110 | False for an unknown id; otherwise the row gets `set_error` |
| AgentRepository.ResetAgentMetrics | agaip/database/repositories/agent.py:204-210 | False for an unknown id; otherwise the row gets `reset_metrics` |
| AgentRepository.HealthyCount | agaip/database/repositories/agent.py:147-148 | the number of healthy agents, at most all of them |
| AgentRepository.RecordedTimes | agaip/database/repositories/agent.py:137-141 | the recorded average times, only of agents that have one |
| AgentRepository.PerformanceMetrics | agaip/database/repositories/agent.py:112-177 | {} exactly for no agents; otherwise the sums of the counters, the healthy count (`HealthyCount`) and the unhealthy rest, the success rate (0 with no task processed, else successful * 100 / total), the mean of the recorded times, and the detail exactly for a single-agent query |
| AgentRepository.ConsistentCountersSum | agaip/database/repositories/agent.py:129-131 | with consistent agents, total processed = successful + failed in the report |
| AgentRepository.MetricsAreConsistent | agaip/database/repositories/agent.py:129-153 | healthy + unhealthy = all agents and the success rate lies in [0, 100] |
| AgentRepository.GetAgentPerformanceMetrics | agaip/database/repositories/agent.py:112-177 | the report over the one agent asked for, or over every stored agent; {} exactly when that agent is unknown or no agent is stored; the agent count is 1 or all of them, the healthy count is that of the agents reported, and the rate is 0 with no task processed |
| AgentRepository.LoadPercentage | agaip/database/repositories/agent.py:243-247 | processing / capacity * 100, or 0 without capacity; never negative, at most 100 when within capacity |
| AgentRepository.LoadOf | agaip/database/repositories/agent.py:231-258 | an agent's PROCESSING and QUEUED task counts (tasks matched by agent name) and its load percentage |
| AgentRepository.GetAgentLoadDistribution | agaip/database/repositories/agent.py:224-269 | one entry per enabled ACTIVE agent, each its `LoadOf`, and the average load is their mean (0 for none) |
| AgentRepository.AverageLoadIsAPercentage | agaip/database/repositories/agent.py:243-268 | when no active agent is over capacity, every load and the average lie in [0, 100] |
| AgentRepository.SoftDeleted | agaip/database/repositories/agent.py:199-200 | the table after soft-deleting the selected agents: same keys |
| AgentRepository.CleanupInactiveAgents | agaip/database/repositories/agent.py:189-202 | soft-deletes exactly the INACTIVE agents whose heartbeat is older than the cutoff, returning their count |
| AgentRepository.StatusSet | agaip/database/repositories/agent.py:214-220 | the table after the bulk status update: same keys |
| AgentRepository.BulkUpdateAgentStatus | agaip/database/repositories/agent.py:212-222 | every agent whose id is listed gets the status, the others are unchanged, and the count is the number matched |
| AgentRepository.BulkCountIsExistingIds | agaip/database/repositories/agent.py:212-222 | that count is the number of listed ids that are stored |
| UserRepository.NewUser | agaip/database/repositories/user.py:23-48 | ACTIVE when created active, otherwise PENDING; password stamped; no failures, lock or key |
| UserRepository.NewUserCanLoginIffActive | agaip/database/repositories/user.py:23-48 | a new account can log in exactly when it was created active |
| UserRepository.CreateUser | agaip/database/repositories/user.py:23-48 | stores `NewUser` under a fresh key; usernames and e-mails stay unique |
| UserRepository.AuthenticateRow | agaip/database/repositories/user.py:72-87 | success iff not locked, password right and `can_login`; locked: no change; wrong password: exactly one failure recorded; right password but no login: no change; success: `record_login` |
| UserRepository.LockedAccountIgnoresAttempts | agaip/database/repositories/user.py:72-74 | while locked, any attempt fails and records nothing |
| UserRepository.FifthWrongPasswordLocks | agaip/database/repositories/user.py:76-79 | the fifth consecutive wrong password locks the account for the next 30 minutes |
| UserRepository.LoginClearsFailures | agaip/database/repositories/user.py:82-87 | a successful login clears the failures and counts the login |
| UserRepository.Authenticate | agaip/database/repositories/user.py:62-87 | looks the login up by username, then by e-mail; None without a change when neither matches; otherwise the decision and the row written are those of `AuthenticateRow` |
| UserRepository.GenerateApiKey | agaip/database/repositories/user.py:112-126 | the DatabaseError exactly for an unknown id; otherwise the key "agaip_" + token with its expiry is stored and returned |
| UserRepository.RevokeApiKey | agaip/database/repositories/user.py:128-136 | True iff the user exists and has a key; then key and expiry are cleared, otherwise nothing changes |
| UserRepository.AddUserPermission | agaip/database/repositories/user.py:156-163 | False for an unknown id; otherwise the permission is added and saved |
| UserRepository.RemoveUserPermission | agaip/database/repositories/user.py:165-173 | True iff the user exists and held it; only then is the list saved |
| UserRepository.UnlockUser | agaip/database/repositories/user.py:175-181 | True iff the user exists and is locked now; then unlocked and saved |
| UserRepository.SuspendUser | agaip/database/repositories/user.py:183-189 | False for an unknown id; otherwise suspended and saved |
| UserRepository.ActivateUser | agaip/database/repositories/user.py:191-197 | False for an unknown id; otherwise activated and saved |
| UserRepository.ClearKeys | agaip/database/repositories/user.py:237-246 | the selected users lose key and expiry; the rest are unchanged |
| UserRepository.CleanupExpiredApiKeys | agaip/database/repositories/user.py:228-248 | clears key and expiry of exactly the users whose key is set and expired, returning their count |
| UserRepository.CleanupLeavesNoExpiredKey | agaip/database/repositories/user.py:228-248 | afterwards no user holds an expired key, and unexpired keys are kept |
| TaskService.AgentNotFound | agaip/services/task_service.py:41-43 | the TaskError for an unknown agent |
| TaskService.AgentDisabled | agaip/services/task_service.py:45-46 | the TaskError for a disabled agent, distinct from the unknown-agent one |
| TaskService.TimedOutFailed | agaip/services/task_service.py:194-203 | after the sweep no task is timed out; the timed-out ones are FAILED with "Task timed out", "TimeoutError" and `completed_at`; the rest are unchanged |
| TaskService.TaskService.CreateTask | agaip/services/task_service.py:27-63 | the TaskError for an unknown or a disabled agent, creating nothing; otherwise the task is stored already QUEUED and handed to the worker |
| TaskService.TaskService.QueueTask | agaip/services/task_service.py:65-82 | True iff the task exists and is PENDING; the hand-over happens only after the status change |
| TaskService.TaskService.ListTasks | agaip/services/task_service.py:88-114 | with a filter: the matching stored tasks sliced `[:limit]` as Python slices, so a negative limit drops that many from the end, offset ignored; without one: the window at the offset (a non-positive offset skips nothing), and a negative limit raises, re-raised as DatabaseError; each task at most once |
| TaskService.TaskService.CancelTask | agaip/services/task_service.py:116-136 | True iff the task exists, the requester (if any) created it and it is PENDING, QUEUED or PROCESSING; then cancelled, otherwise unchanged |
| TaskService.TaskService.RetryTask | agaip/services/task_service.py:138-165 | True iff the task exists, is the requester's, is FAILED and has retries left; then re-queued and handed over again, otherwise unchanged |
| TaskService.TaskService.HandleTimeoutTasks | agaip/services/task_service.py:194-203 | the table becomes `TimedOutFailed` and the count is the number of timed-out tasks |
| AgentService.ConfiguredAgent | agaip/services/agent_service.py:29-42 | name and plugin as given; the type parsed from the given text, "custom" when absent; one concurrent task, 300 s and {} config fill the missing entries; INACTIVE |
| AgentService.AutoRestarted | agaip/services/agent_service.py:167-169 | `set_error` then `activate`: ACTIVE with a fresh heartbeat, one more error and the message recorded |
| AgentService.Cycled | agaip/services/agent_service.py:119-120 | deactivate then activate: ACTIVE with a fresh heartbeat when enabled, INACTIVE otherwise |
| AgentService.Swept | agaip/services/agent_service.py:160-176 | the table after a sweep: same keys, stale auto-restart agents restarted |
| AgentService.ConfigError | agaip/services/agent_service.py:33-35 | a missing "name" raises KeyError, then a missing "plugin", then a type text that is not an agent type raises ValueError; none otherwise |
| AgentService.AgentService.RegisterAgentFromConfig | agaip/services/agent_service.py:29-42 | succeeds exactly when `ConfigError` is none, and then stores `ConfiguredAgent` under a fresh key; otherwise raises that error and stores nothing |
| AgentService.AgentService.ListAgents | agaip/services/agent_service.py:48-70 | exactly the agents matching type, status and (by default) enabled |
| AgentService.AgentService.ActivateAgent | agaip/services/agent_service.py:78-89 | False without change or event for an unknown id; the ValidationError for a disabled one; otherwise activated and AgentStarted published |
| AgentService.AgentService.DeactivateAgent | agaip/services/agent_service.py:91-102 | False without change or event for an unknown id; otherwise deactivated and AgentStopped published |
| AgentService.AgentService.RestartAgent | agaip/services/agent_service.py:104-122 | by name first, then by UUID; False exactly when neither finds an agent; otherwise the agent becomes `Cycled` (a disabled one raises after the deactivation) |
| AgentService.AgentService.Cycle | agaip/services/agent_service.py:119-120 | the found agent becomes `Cycled`; True when enabled, the activation error otherwise |
| AgentService.AgentService.HealthCheckAllAgents | agaip/services/agent_service.py:160-176 | succeeds iff no stale auto-restart agent is disabled; then the table is `Swept`, `unhealthy_agents` counts all stale agents and `restarted_agents` the auto-restarted ones; on the error, in the listing order of the stale agents, the auto-restart agents before the first disabled one are restarted, that one has the error recorded, every other agent is untouched, and the error is the one `activate` raises |
| AgentService.AgentService.AutoRestart | agaip/services/agent_service.py:167-170 | one stale agent: `AutoRestarted` when enabled; otherwise only `set_error` is saved and the activation error returned |
| AgentService.AgentService.RestartEach | agaip/services/agent_service.py:165-172 | the sweep's loop restarts exactly the listed auto-restart agents; when it stops at the first listed disabled auto-restart agent, the table is `Interrupted` at that position and the error is `activate`'s |
| AgentService.InterruptedIsRestarted | agaip/services/agent_service.py:165-170 | the loop's state at the raising `activate` (restarted set so far, plus the saved error on the failing agent) is the interrupted sweep |
| AgentService.SweepCounts | agaip/services/agent_service.py:165-175 | after a full pass the restarted set is exactly the stale auto-restart agents |
| AgentService.SweptIsRestarted | agaip/services/agent_service.py:160-176 | restarting that set gives the swept table |
| AgentService.RestartCountIsSize | agaip/services/agent_service.py:165-175 | the running count equals the number of agents restarted |
| WorkerTasks.NotFound | agaip/services/tasks.py:44-45 | the plain Exception raised when task or agent is missing |
| WorkerTasks.DurationOrZero | agaip/services/tasks.py:58-60 | `duration_seconds or 0` |
| WorkerTasks.AgentNamed | agaip/services/tasks.py:42 | the agent looked up by name, present exactly when one has the name |
| WorkerTasks.Worker.ProcessTask | agaip/services/tasks.py:32-100 | the tables, the events published and the ending are those of `Processed` |
| WorkerTasks.ExecuteKeepsKeys | agaip/services/tasks.py:32-100 | a run writes rows only under their own keys and keeps every agent's id and name |
| WorkerTasks.ProcessSucceeds | agaip/services/tasks.py:48-65 | a QUEUED task whose agent exists and whose plugin returns is COMPLETED with the result, times and duration; the agent counts one success with that duration; Started and Completed are published; nothing else changes |
| WorkerTasks.ProcessFailureEffects | agaip/services/tasks.py:78-100 | on an exception a failable task is FAILED with the text and type; the named agent counts one failure and is in ERROR; TaskFailed is published last; a retry in 60 s while retries remain, else the exception is raised again |
| WorkerTasks.UnstartableTaskRaisesUntouched | agaip/services/tasks.py:48-81 | a task neither QUEUED nor PROCESSING makes the handler's own `fail_with_error` raise: nothing written, no agent charged, no event |
| WorkerTasks.MissingTaskChargesAgent | agaip/services/tasks.py:44-85 | a missing task still charges an existing agent with a failure and ERROR |
| WorkerTasks.ProcessKeepsCounters | agaip/services/tasks.py:32-100 | a run keeps every agent's total = successful + failed |
| WorkerTasks.UpdatesKeepCounters | agaip/services/tasks.py:63-85 | both of the run's agent updates keep the counters consistent |
| WorkerTasks.Flagged | agaip/services/tasks.py:122-135 | the health check's table: same keys |
| WorkerTasks.HealthCheckNeverReactivates | agaip/services/tasks.py:129-131 | the check puts every stale auto-restart agent in ERROR with one more error, leaves the others unchanged and never makes an agent ACTIVE |
| WorkerTasks.Worker.HealthCheckAgents | agaip/services/tasks.py:122-135 | the table becomes `Flagged`; the report counts the stale agents and those flagged |
| WorkerTasks.Worker.FlagEach | agaip/services/tasks.py:127-132 | the loop flags exactly the listed auto-restart agents and counts them |
| WorkerTasks.MarkedIsFlagged | agaip/services/tasks.py:122-135 | flagging the selected set gives `Flagged` |
| WorkerTasks.Worker.CleanupOldTasks | agaip/services/tasks.py:109-113 | the repository clean-up with a 30-day horizon, cascade included |
| WorkerTasks.Worker.RetryFailedTasks | agaip/services/tasks.py:144-148 | over the corrected repository method, up to 50 retryable failed tasks are re-queued and counted |
| WorkerTasks.Worker.RetryFailedTasksAsWritten | agaip/services/tasks.py:144-148 | as written, every run of the retry job ends in the NameError of `retry_failed_tasks` and changes no task |
| Container.NotRegistered | agaip/core/container.py:137 | the ConfigurationError for an unregistered service |
| Container.Container.constructor | agaip/core/container.py:20-24 | the three registries and the alias map start empty |
| Container.Container.Target | agaip/core/container.py:114-116 | at most one alias hop |
| Container.Container.Cached | agaip/core/container.py:118-124 | the singleton first, then the plain service; something is cached only for a registered name |
| Container.Container.Register | agaip/core/container.py:26-64 | classes and callables go to the factories; other values to the singletons when `singleton`, else to the services; a non-empty alias points at the name; the name and the alias are registered afterwards |
| Container.Container.RegisterSingleton | agaip/core/container.py:66-73 | `register` with `singleton` set: factories or singletons, never the services |
| Container.Container.RegisterTransient | agaip/core/container.py:75-82 | `register` without it: factories or services, never the singletons |
| Container.Container.RegisterInstance | agaip/core/container.py:84-97 | the instance is the singleton and resolves to itself |
| Container.Container.Resolve | agaip/core/container.py:99-137 | the cached value if any; else a factory's product, which is then cached so later resolves return it; the ConfigurationError exactly for an unregistered name |
| Container.Container.Unregister | agaip/core/container.py:153-182 | drops the alias used and the entries of the name in all three maps; True iff it was registered |
| Container.Container.Clear | agaip/core/container.py:184-189 | all four maps empty and nothing registered |
| Events.HandlerOf | agaip/core/events.py:147-150 | an `EventHandler` object is stored as its bound `handle`, a callable as itself |
| Events.Listed | agaip/core/events.py:294 | the list under the name, or none |
| Events.EventBus.constructor | agaip/core/events.py:123-128 | no handlers, no middleware, not running, an empty queue |
| Events.EventBus.HandlerCount | agaip/core/events.py:291-294 | the list length, 0 for an unknown name |
| Events.EventBus.Subscribe | agaip/core/events.py:130-150 | appends the handler (duplicates allowed); the count goes up by one |
| Events.EventBus.Unsubscribe | agaip/core/events.py:152-174 | True iff the name has a list holding the handler; then one occurrence is removed and the count drops by one |
| Events.EventBus.AddMiddleware | agaip/core/events.py:176-183 | appended to the chain |
| Events.EventBus.Start | agaip/core/events.py:206-212 | running afterwards; a second start changes nothing |
| Events.EventBus.Stop | agaip/core/events.py:214-226 | not running afterwards; a no-op when stopped |
| Events.EventBus.Publish | agaip/core/events.py:185-195 | starts the bus if needed and enqueues the event |
| Events.EventBus.ClearHandlers | agaip/core/events.py:296-302 | None clears everything; a type clears only its name |
| Events.EventBus.RunMiddleware | agaip/core/events.py:242-249 | the loop computes the chain: each middleware in order, stopping at the first None |
| Events.ChainStops | agaip/core/events.py:246-249 | once a prefix of the chain stops an event, no later middleware sees it |
| Events.ChainAppend | agaip/core/events.py:242-249 | middleware are applied in order: running `ms + more` is running `ms` then `more` |
| PluginBase.InvalidConfiguration | agaip/plugins/base.py:105-106 | the ValueError raised for a bad configuration |
| PluginBase.BasePlugin.constructor | agaip/plugins/base.py:16-25 | `config or {}`, not loaded, named after the class |
| PluginBase.BasePlugin.HealthCheck | agaip/plugins/base.py:59-70 | "healthy" iff loaded, else "not_loaded" |
| PluginBase.BasePlugin.GetInfo | agaip/plugins/base.py:72-86 | undefined metadata takes "1.0.0", "No description available" and "Unknown" |
| PluginBase.BasePlugin.Initialize | agaip/plugins/base.py:98-109 | the ValueError when the config is invalid; otherwise `load_model`'s outcome; loaded exactly after success |
| PluginBase.BasePlugin.UnloadModel | agaip/plugins/base.py:50-57 | not loaded afterwards |
| PluginBase.BasePlugin.Shutdown | agaip/plugins/base.py:111-118 | not loaded afterwards, reported "not_loaded" |
| PluginLoader.NotAPlugin | agaip/plugins/loader.py:26-27 | the PluginError for a class not derived from `BasePlugin` |
| PluginLoader.NoPluginClass | agaip/plugins/loader.py:128-129 | the PluginError for a module without a plugin class |
| PluginLoader.LoadFailed | agaip/plugins/loader.py:136-137 | the wrapping PluginError |
| PluginLoader.PluginRegistry.constructor | agaip/plugins/loader.py:20-22 | no classes and no instances, so every instance belongs to a registered name |
| PluginLoader.PluginRegistry.GetPluginClass | agaip/plugins/loader.py:43-45 | the registered class, or None exactly when unregistered |
| PluginLoader.PluginRegistry.Register | agaip/plugins/loader.py:24-29 | the PluginError exactly for a non-plugin class, changing nothing; otherwise inserted or overwritten |
| PluginLoader.PluginRegistry.Unregister | agaip/plugins/loader.py:31-41 | True iff registered; class and cached instance both gone |
| PluginLoader.PluginRegistry.GetPluginInstance | agaip/plugins/loader.py:47-58 | the cached instance whatever the config; else a new, cached instance of the registered class; null exactly when unregistered |
| PluginLoader.PluginRegistry.ListPlugins | agaip/plugins/loader.py:60-62 | every registered name, once |
| PluginLoader.PluginRegistry.Clear | agaip/plugins/loader.py:68-71 | both maps empty |
| PluginLoader.LoadPlugin | agaip/plugins/loader.py:83-137 | a registered name returns its class without importing; the import's error, no class, or a non-plugin class each give "Failed to load plugin"; otherwise the class is registered |
| PluginLoader.CreatePluginInstance | agaip/plugins/loader.py:140-164 | loads an unregistered plugin first (its failure propagates), then the cached or a new instance |
| PluginLoader.UnloadPlugin | agaip/plugins/loader.py:205-216 | True iff registered; afterwards neither the class nor an instance remains |
| PluginService.Title | agaip/services/plugin_service.py:72 | `str.title()` on ASCII: upper case at the start of a word, lower case inside |
| PluginService.PluginClassIn | agaip/services/plugin_service.py:71-75 | `<Title>Plugin` first, then `Plugin`, else none |
| PluginService.Found | agaip/services/plugin_service.py:57-75 | no class when the import raised |
| PluginService.PluginService.constructor | agaip/services/plugin_service.py:20-22 | nothing loaded and nothing configured |
| PluginService.PluginService.LoadPlugin | agaip/services/plugin_service.py:51-89 | the cached class when loaded; otherwise the module's class stored and PluginLoaded published; a failed import or a missing class gives "Failed to load plugin" and changes nothing |
| PluginService.PluginService.UnloadPlugin | agaip/services/plugin_service.py:91-111 | False when not loaded; otherwise class and config gone and PluginUnloaded published |
| PluginService.PluginService.ReloadPlugin | agaip/services/plugin_service.py:113-124 | unload then load; True iff the load finds a class; the bus receives the unload event when the plugin was loaded and then the load event on success, and nothing else |
| PluginService.PluginService.GetPlugin | agaip/services/plugin_service.py:126-128 | the loaded class, or None exactly when not loaded |
| PluginService.PluginService.ListLoadedPlugins | agaip/services/plugin_service.py:130-132 | every loaded name, once |
| PluginService.PluginService.CheckForUpdates | agaip/services/plugin_service.py:138-152 | always empty, nothing changed |
| PluginService.PluginService.GetPluginConfig | agaip/services/plugin_service.py:173-175 | the stored config, {} for an unconfigured plugin |
| PluginService.PluginService.ConfigurePlugin | agaip/services/plugin_service.py:169-171 | the config reads back as given and other plugins' configs are unchanged |
| PluginService.PluginService.LoadBuiltinPlugins | agaip/services/plugin_service.py:154-167 | each built-in plugin whose module has a class is loaded, failures ignored, and loaded plugins are kept |
| RateLimit.ClientOf | agaip/api/middleware.py:98 | the client host, or "unknown" |
| RateLimit.Window | agaip/api/middleware.py:101-102 | the minute window holding the instant |
| RateLimit.Offset | agaip/api/middleware.py:120 | the offset into the minute, in [0, 60) |
| RateLimit.ResetIsNextWindow | agaip/api/middleware.py:120-125 | the reset header is the first second of the next window, strictly after now, and the retry delay separates them |
| RateLimit.Pruned | agaip/api/middleware.py:105-108 | only entries from the previous window on are kept, with their counts |
| RateLimit.Step | agaip/api/middleware.py:96-141 | a request at or over the limit is rejected without counting; an accepted one counts exactly once; remaining is max(0, limit - (count + 1)) |
| RateLimit.StepBounded | agaip/api/middleware.py:114-130 | every stored count stays between 1 and the limit |
| RateLimit.WindowMonotone | agaip/api/middleware.py:101-102 | later instants have later or equal windows |
| RateLimit.NoneAcceptedAfter | agaip/api/middleware.py:101-130 | requests from later windows never count against an earlier window |
| RateLimit.AtMostLimitPerWindow | agaip/api/middleware.py:114-130 | for requests in clock order, what is counted plus what is later accepted for a client and window never exceeds the limit |
| RateLimit.AtMostLimitFromStart | agaip/api/middleware.py:114-130 | from a fresh limiter at most `requests_per_minute` requests per client and window get through |
| RateLimit.RateLimitMiddleware.constructor | agaip/api/middleware.py:91-94 | the limit per minute as given, no request counted |
| RateLimit.RateLimitMiddleware.Dispatch | agaip/api/middleware.py:96-141 | the new counts and the answer are `Step`'s; rejection iff the window's count had reached the limit; the reset header is the next window |
| Lists.RemoveFirst | agaip/database/models/agent.py:171 | `list.remove`: the list with its first occurrence of the element cut out, so one occurrence fewer and nothing else |
| Lists.RemoveFirstFromDistinct | agaip/database/models/user.py:141-148 | in a duplicate-free list the removed element is gone for good |

## Left out

- Event dispatch is not modelled: the worker queue, `_process_event`'s handler collection and the concurrent `asyncio.gather`. Only the handler table, the flags, the queue and the middleware loop are. The handler collection at agaip/core/events.py:253-259 extends the stored list in place, and that is not captured.
- Event names for subclasses: `_get_event_name` is `RefName` over class names; base-class handler lookup is part of dispatch.
- Module imports and class discovery (`importlib`, `discover_plugins`, `inspect.getmembers`) are inputs: the exception the import raised or the class found.
- `Container._create_instance` and `inject` are foreign calls; what a factory builds is an input to `Resolve`. The "Failed to create instance" branch is not reachable as a separate outcome.
- `Container.Container.RegisterTransient`: the docstring promises a new instance per resolve, but the code caches every factory product in `_singletons`; the model follows the code.
- `RateLimit.RateLimitMiddleware.Dispatch`: `call_next`, the response body and header text are not modelled, and `time.time()` is an exact real without float rounding.
- `PluginService.Title`: only ASCII letters are cased; `str.title()` on other characters is not modelled.
- `round(..., 2)` in the statistics and metrics reports is not modelled; averages and rates are exact reals.
- Service methods that only delegate to a repository (`get_task`, `get_agent`, `get_agent_status`, `get_task_statistics`, …) are covered by the repository members they call.
- The health job's report is a count pair; its string formatting is left out.
- `UUID(task_id)` parsing and `str(uuid)` are parameters.
- Password hashing, `secrets.token_urlsafe` and `datetime.isoformat()` are inputs.
- `AgentRepository.CreateAgent`, `UserRepository.CreateUser` and `AgentService.AgentService.RegisterAgentFromConfig` require a fresh name (and e-mail), because the database's unique constraint refuses a duplicate. That refusal is not modelled as an error value. `RegisterAgentFromConfig` requires it only when a name is given, since a missing name raises KeyError first.
- The agent counters `total_tasks_processed`, `successful_tasks` and `failed_tasks` are natural numbers: the source only sets them to 0 and increments them.
- Several clock readings within one operation are merged into one instant `now`, so the model does not capture stamps that differ by the time the operation takes: `AgentService.AgentService.HealthCheckAllAgents` (cut-off, `set_error`, `activate`), `AgentRepository.CleanupInactiveAgents` (cut-off and `soft_delete`), `TaskService.TaskService.HandleTimeoutTasks` (timed-out query and `fail_with_error`), `TaskService.TaskService.CreateTask` (`timeout_at` and `created_at`) and `UserRepository.Authenticate` (`is_locked` and the login stamps).
- The user repository's read-only queries (`get_active_users`, `get_users_by_role`, `get_locked_users`, `get_user_statistics`, `get_recent_users`) and `change_password`/`update_user_role` are not part of this model.
- `BaseRepository.Table.Paginate`: the negative offset and limit messages are those of the ORM's query set, which is not part of this model.
- `BaseRepository.Table.Delete` and `BaseRepository.Table.SoftDelete` remove only the row itself. The `parent_task` cascade of deleting a task is modelled where the core deletes tasks, in `cleanup_old_tasks` (`TaskRepository.CascadeDelete`). The `SET NULL` on tasks' `created_by` when a user is deleted is not modelled.
- `WorkerTasks.Worker.RetryFailedTasks` is the retry job over the corrected `retry_failed_tasks`. As written the job raises NameError on every run, which `WorkerTasks.Worker.RetryFailedTasksAsWritten` states.
- `UserModel.User.Save` does not advance `updated_at`, an `auto_now` column the ORM sets from the clock on every save; the row keeps the value loaded. Task rows leave out all four inherited columns (`updated_at`, `is_deleted`, `deleted_at`, `metadata`), which none of the modelled task operations reads or writes. Agent rows keep `is_deleted` and `deleted_at`, which `AgentModel.Agent.SoftDelete` writes, and leave out `updated_at` and `metadata`.
- `UserModel.User.ToDict` takes an absent `exclude_fields` as the empty list, which the code treats the same way.
- Celery's own retry machinery is reduced to its decision: `retries` and `maxRetries` are inputs and a retry is the `RetryIn(60, e)` ending.

## Findings

| source | as written | input that shows it | evidently intended | confidence | as-written member | corrected member |
|---|---|---|---|---|---|---|
| agaip/database/repositories/task.py:207-224 | the filter uses `models.F("max_retries")`, but the module imports no name `models` (lines 8-15), so every call raises NameError before reading a row | any call, e.g. a table holding one FAILED task with `retry_count` 0 and `max_retries` 3, and `limit` 10 | re-queue up to `limit` FAILED tasks with retries left and return how many were re-queued | not executed | TaskRepository.RetryAsWrittenNeverRetries | TaskRepository.RetryFailedTasks |

The same NameError is raised by `get_failed_tasks` with `retryable_only`
(agaip/database/repositories/task.py:97-99); `TaskRepository.GetFailedTasks`
models that as written. As written, the periodic retry job therefore fails on every run
(`WorkerTasks.Worker.RetryFailedTasksAsWritten`). `WorkerTasks.Worker.RetryFailedTasks`
models the job over the corrected `TaskRepository.RetryFailedTasks`.

=== FILE: agent_model.dfy ===
/** A loaded `Agent` object (agaip/database/models/agent.py): the status
    and counter methods rewrite its fields and save it to the `agents`
    table; the tag methods change only the object in memory. */
module AgentModel {
  import opened Common
  import AgentRecord
  import Lists
  import opened BaseRepository
  import Tables

  /** Every stored row carries the key it is stored under. */
  ghost predicate Keyed(rows: map<Uuid, AgentRecord.AgentRow>)
  {
    forall k :: k in rows ==> rows[k].id == k
  }

  /** Rows that carry their keys are distinct rows. */
  lemma KeyedInjective(rows: map<Uuid, AgentRecord.AgentRow>)
    ensures Keyed(rows) ==> Tables.Injective(rows)
  {
    if Keyed(rows) {
      forall j, k | j in rows && k in rows && rows[j] == rows[k] ensures j == k {
        assert rows[j].id == j && rows[k].id == k;
      }
    }
  }

  class Agent {
    const id: Uuid
    var name: string
    var description: Option<string>
    var agentType: AgentRecord.AgentType
    var pluginName: string
    var pluginConfig: map<string, Json>
    var status: AgentRecord.AgentStatus
    var lastHeartbeat: Option<Time>
    var lastError: Option<string>
    var errorCount: int
    var totalTasksProcessed: nat
    var successfulTasks: nat
    var failedTasks: nat
    var averageProcessingTime: Option<real>
    var maxConcurrentTasks: int
    var timeoutSeconds: int
    var autoRestart: bool
    var enabled: bool
    var priority: int
    var tags: Option<seq<string>>
    var isDeleted: bool
    var deletedAt: Option<Time>
    var createdAt: Time

    /** The row this object would store. */
    function Row(): AgentRecord.AgentRow
      reads this
    {
      AgentRecord.AgentRow(id, name, description, agentType, pluginName, pluginConfig, status,
                           lastHeartbeat, lastError, errorCount, totalTasksProcessed, successfulTasks,
                           failedTasks, averageProcessingTime, maxConcurrentTasks, timeoutSeconds,
                           autoRestart, enabled, priority, tags, isDeleted, deletedAt, createdAt)
    }

    /** The object the ORM builds when it loads `r`. */
    constructor FromRow(r: AgentRecord.AgentRow)
      ensures Row() == r
    {
      id := r.id;
      name, description, agentType, pluginName, pluginConfig := r.name, r.description, r.agentType, r.pluginName, r.pluginConfig;
      status, lastHeartbeat, lastError, errorCount := r.status, r.lastHeartbeat, r.lastError, r.errorCount;
      totalTasksProcessed, successfulTasks, failedTasks := r.totalTasksProcessed, r.successfulTasks, r.failedTasks;
      averageProcessingTime, maxConcurrentTasks, timeoutSeconds := r.averageProcessingTime, r.maxConcurrentTasks, r.timeoutSeconds;
      autoRestart, enabled, priority, tags := r.autoRestart, r.enabled, r.priority, r.tags;
      isDeleted, deletedAt, createdAt := r.isDeleted, r.deletedAt, r.createdAt;
    }

    /** `save()`: the table now stores this object's row. */
    method Save(table: Table<AgentRecord.AgentRow>)
      modifies table
      ensures table.rows == old(table.rows)[id := Row()]
    {
      table.rows := table.rows[id := Row()];
    }

    /** `activate()`. */
    method Activate(now: Time, table: Table<AgentRecord.AgentRow>) returns (outcome: Outcome<Exception>)
      modifies this, table
      ensures var spec := AgentRecord.Activate(old(Row()), now);
        && (outcome.Pass? <==> spec.Ok?)
        && (spec.Ok? ==> Row() == spec.value && table.rows == old(table.rows)[id := Row()])
        && (spec.Err? ==> outcome.error == spec.error && Row() == old(Row()) && table.rows == old(table.rows))
    {
      if !enabled {
        return Fail(ValidationError("Cannot activate disabled agent"));
      }
      status := AgentRecord.Active;
      lastHeartbeat := Some(now);
      Save(table);
      return Pass;
    }

    /** `deactivate()`. */
    method Deactivate(table: Table<AgentRecord.AgentRow>)
      modifies this, table
      ensures Row() == AgentRecord.Deactivate(old(Row()))
      ensures table.rows == old(table.rows)[id := Row()]
    {
      status := AgentRecord.Inactive;
      Save(table);
    }

    /** `set_busy()`. */
    method SetBusy(table: Table<AgentRecord.AgentRow>) returns (outcome: Outcome<Exception>)
      modifies this, table
      ensures var spec := AgentRecord.SetBusy(old(Row()));
        && (outcome.Pass? <==> spec.Ok?)
        && (spec.Ok? ==> Row() == spec.value && table.rows == old(table.rows)[id := Row()])
        && (spec.Err? ==> outcome.error == spec.error && Row() == old(Row()) && table.rows == old(table.rows))
    {
      if status != AgentRecord.Active {
        return Fail(ValidationError("Agent must be active to become busy"));
      }
      status := AgentRecord.Busy;
      Save(table);
      return Pass;
    }

    /** `set_error(message)`. */
    method SetError(message: string, table: Table<AgentRecord.AgentRow>)
      modifies this, table
      ensures Row() == AgentRecord.SetError(old(Row()), message)
      ensures table.rows == old(table.rows)[id := Row()]
    {
      status := AgentRecord.Error;
      lastError := Some(message);
      errorCount := errorCount + 1;
      Save(table);
    }

    /** `heartbeat()`. */
    method Heartbeat(now: Time, table: Table<AgentRecord.AgentRow>)
      modifies this, table
      ensures Row() == AgentRecord.Heartbeat(old(Row()), now)
      ensures table.rows == old(table.rows)[id := Row()]
    {
      lastHeartbeat := Some(now);
      if status == AgentRecord.Error && autoRestart {
        status := AgentRecord.Active;
      }
      Save(table);
    }

    /** `record_task_completion(success, processing_time)`. */
    method RecordTaskCompletion(success: bool, time: real, table: Table<AgentRecord.AgentRow>)
      modifies this, table
      ensures Row() == AgentRecord.RecordTaskCompletion(old(Row()), success, time)
      ensures table.rows == old(table.rows)[id := Row()]
    {
      CountCompletion(success, time);
      Save(table);
    }

    /** The counter and average updates of `record_task_completion`. */
    method CountCompletion(success: bool, time: real)
      modifies this
      ensures Row() == AgentRecord.RecordTaskCompletion(old(Row()), success, time)
    {
      CountTask(success);
      UpdateAverage(time);
    }

    method CountTask(success: bool)
      modifies this
      ensures Row() == if success
        then old(Row()).(totalTasksProcessed := old(totalTasksProcessed) + 1, successfulTasks := old(successfulTasks) + 1)
        else old(Row()).(totalTasksProcessed := old(totalTasksProcessed) + 1, failedTasks := old(failedTasks) + 1)
    {
      totalTasksProcessed := totalTasksProcessed + 1;
      if success {
        successfulTasks := successfulTasks + 1;
      } else {
        failedTasks := failedTasks + 1;
      }
    }

    method UpdateAverage(time: real)
      requires totalTasksProcessed > 0
      modifies this
      ensures Row() == old(Row()).(averageProcessingTime :=
        Some(AgentRecord.MovingAverage(old(averageProcessingTime), old(totalTasksProcessed), time)))
    {
      averageProcessingTime := Some(AgentRecord.MovingAverage(averageProcessingTime, totalTasksProcessed, time));
    }

    /** `reset_metrics()`. */
    method ResetMetrics(table: Table<AgentRecord.AgentRow>)
      modifies this, table
      ensures Row() == AgentRecord.ResetMetrics(old(Row()))
      ensures table.rows == old(table.rows)[id := Row()]
    {
      ClearMetrics();
      Save(table);
    }

    /** The field writes of `reset_metrics`: the counters, then the
        average and the error count. */
    method ClearMetrics()
      modifies this
      ensures Row() == AgentRecord.ResetMetrics(old(Row()))
    {
      ghost var before := Row();
      ClearCounters();
      ClearAverage();
      assert Row() == before.(totalTasksProcessed := 0, successfulTasks := 0, failedTasks := 0)
                            .(averageProcessingTime := None, errorCount := 0);
    }

    method ClearCounters()
      modifies this
      ensures Row() == old(Row()).(totalTasksProcessed := 0, successfulTasks := 0, failedTasks := 0)
    {
      totalTasksProcessed, successfulTasks, failedTasks := 0, 0, 0;
    }

    method ClearAverage()
      modifies this
      ensures Row() == old(Row()).(averageProcessingTime := None, errorCount := 0)
    {
      averageProcessingTime, errorCount := None, 0;
    }

    /** The inherited `soft_delete()`. */
    method SoftDelete(now: Time, table: Table<AgentRecord.AgentRow>)
      modifies this, table
      ensures Row() == old(Row()).(isDeleted := true, deletedAt := Some(now))
      ensures table.rows == old(table.rows)[id := Row()]
    {
      isDeleted := true;
      deletedAt := Some(now);
      Save(table);
    }

    /** `add_tag(tag)`: in memory only. */
    method AddTag(tag: string)
      modifies this
      ensures tags == Some(AgentRecord.AddTag(old(tags), tag))
      ensures Row() == old(Row()).(tags := tags)
    {
      if tags.None? {
        tags := Some([]);
      }
      if tag !in tags.value {
        tags := Some(tags.value + [tag]);
      }
    }

    /** `remove_tag(tag)`: in memory only. */
    method RemoveTag(tag: string) returns (removed: bool)
      modifies this
      ensures (removed, tags) == AgentRecord.RemoveTag(old(tags), tag)
      ensures Row() == old(Row()).(tags := tags)
    {
      if tags.None? {
        return false;
      }
      if tag in tags.value {
        tags := Some(Lists.RemoveFirst(tags.value, tag));
        return true;
      }
      return false;
    }
  }

  /** Loads the row stored under `id` as a fresh object, or None. */
  method Load(table: Table<AgentRecord.AgentRow>, id: Uuid) returns (a: Agent?)
    ensures a == null <==> id !in table.rows
    ensures a != null ==> fresh(a) && a.Row() == table.rows[id]
    ensures a != null && Keyed(table.rows) ==> a.id == id
  {
    if id !in table.rows {
      return null;
    }
    a := new Agent.FromRow(table.rows[id]);
  }
}

=== FILE: agent_record.dfy ===
/** Agent status, health and performance counters
    (agaip/database/models/agent.py) as rules over one stored row. */
module AgentRecord {
  import opened Common
  import opened Lists
  import opened Averages

  datatype AgentStatus = Inactive | Starting | Active | Busy | Error | Stopping | Maintenance

  datatype AgentType = AiModel | Workflow | Custom | System

  /** `AgentType(value)`: the enumeration's value strings; any other string
      raises `ValueError`. */
  function ParseAgentType(s: string): (r: Option<AgentType>)
    ensures r.Some? <==> s in {"ai_model", "workflow", "custom", "system"}
    ensures r == Some(Custom) <==> s == "custom"
  {
    if s == "ai_model" then Some(AiModel)
    else if s == "workflow" then Some(Workflow)
    else if s == "custom" then Some(Custom)
    else if s == "system" then Some(System)
    else None
  }

  /** One row of the `agents` table. `averageProcessingTime` is a float in
      the source and a real here; `tags` may be None. The three task counters
      start at 0 and are only ever incremented or reset to 0, so they are
      natural numbers. */
  datatype AgentRow = AgentRow(
    id: Uuid,
    name: string,
    description: Option<string>,
    agentType: AgentType,
    pluginName: string,
    pluginConfig: map<string, Json>,
    status: AgentStatus,
    lastHeartbeat: Option<Time>,
    lastError: Option<string>,
    errorCount: int,
    totalTasksProcessed: nat,
    successfulTasks: nat,
    failedTasks: nat,
    averageProcessingTime: Option<real>,
    maxConcurrentTasks: int,
    timeoutSeconds: int,
    autoRestart: bool,
    enabled: bool,
    priority: int,
    tags: Option<seq<string>>,
    isDeleted: bool,
    deletedAt: Option<Time>,
    createdAt: Time)

  /** The invariant the counters keep: every processed task is a success
      or a failure. */
  predicate CountersConsistent(r: AgentRow)
  {
    r.totalTasksProcessed == r.successfulTasks + r.failedTasks
    && r.successfulTasks >= 0 && r.failedTasks >= 0
  }

  /** The age (seconds) below which a heartbeat counts as recent. */
  const HeartbeatWindow: int := 300

  /** `activate`. */
  function Activate(r: AgentRow, now: Time): (res: Result<AgentRow, Exception>)
    ensures res.Ok? <==> r.enabled
    ensures res.Err? ==> res.error == ValidationError("Cannot activate disabled agent")
    ensures res.Ok? ==> res.value == r.(status := Active, lastHeartbeat := Some(now))
  {
    if !r.enabled then Err(ValidationError("Cannot activate disabled agent"))
    else Ok(r.(status := Active, lastHeartbeat := Some(now)))
  }

  /** `deactivate`: always INACTIVE, nothing else written. */
  function Deactivate(r: AgentRow): (q: AgentRow)
    ensures q.status == Inactive && q.(status := r.status) == r
  {
    r.(status := Inactive)
  }

  /** `set_busy`. */
  function SetBusy(r: AgentRow): (res: Result<AgentRow, Exception>)
    ensures res.Ok? <==> r.status == Active
    ensures res.Err? ==> res.error == ValidationError("Agent must be active to become busy")
    ensures res.Ok? ==> res.value.status == Busy && res.value.(status := r.status) == r
  {
    if r.status != Active then Err(ValidationError("Agent must be active to become busy"))
    else Ok(r.(status := Busy))
  }

  /** `set_error(message)`. */
  function SetError(r: AgentRow, message: string): (q: AgentRow)
    ensures q.status == Error && q.lastError == Some(message)
    ensures q.errorCount == r.errorCount + 1
    ensures q.(status := r.status, lastError := r.lastError, errorCount := r.errorCount) == r
  {
    r.(status := Error, lastError := Some(message), errorCount := r.errorCount + 1)
  }

  /** `heartbeat`: a fresh heartbeat, and ERROR heals to ACTIVE only when
      the agent restarts automatically. */
  function Heartbeat(r: AgentRow, now: Time): (q: AgentRow)
    ensures q.lastHeartbeat == Some(now)
    ensures r.status == Error && r.autoRestart ==> q.status == Active
    ensures !(r.status == Error && r.autoRestart) ==> q.status == r.status
    ensures q.(lastHeartbeat := r.lastHeartbeat, status := r.status) == r
  {
    var beat := r.(lastHeartbeat := Some(now));
    if r.status == Error && r.autoRestart then beat.(status := Active) else beat
  }

  /** `record_task_completion(success, processing_time)`: one more task,
      counted as a success or a failure, folded into the running mean. */
  function RecordTaskCompletion(r: AgentRow, success: bool, time: real): (q: AgentRow)
    ensures q.totalTasksProcessed == r.totalTasksProcessed + 1
    ensures success ==> q.successfulTasks == r.successfulTasks + 1 && q.failedTasks == r.failedTasks
    ensures !success ==> q.failedTasks == r.failedTasks + 1 && q.successfulTasks == r.successfulTasks
    ensures q.averageProcessingTime.Some?
    ensures q.(totalTasksProcessed := r.totalTasksProcessed, successfulTasks := r.successfulTasks,
               failedTasks := r.failedTasks, averageProcessingTime := r.averageProcessingTime) == r
  {
    var total := r.totalTasksProcessed + 1;
    var counted := if success then r.(successfulTasks := r.successfulTasks + 1)
                   else r.(failedTasks := r.failedTasks + 1);
    counted.(totalTasksProcessed := total,
             averageProcessingTime := Some(MovingAverage(r.averageProcessingTime, total, time)))
  }

  /** The average after a new time, with `total` the incremented count:
      the first time itself, later `(avg * (total - 1) + time) / total`. */
  function MovingAverage(average: Option<real>, total: nat, time: real): real
    requires total > 0
  {
    match average
    case None => time
    case Some(a) => (a * (total - 1) as real + time) / total as real
  }

  /** `reset_metrics`. */
  function ResetMetrics(r: AgentRow): (q: AgentRow)
    ensures q.totalTasksProcessed == 0 && q.successfulTasks == 0 && q.failedTasks == 0
    ensures q.errorCount == 0 && q.averageProcessingTime == None
    ensures q.(totalTasksProcessed := r.totalTasksProcessed, successfulTasks := r.successfulTasks,
               failedTasks := r.failedTasks, averageProcessingTime := r.averageProcessingTime,
               errorCount := r.errorCount) == r
  {
    r.(totalTasksProcessed := 0, successfulTasks := 0, failedTasks := 0,
       averageProcessingTime := None, errorCount := 0)
  }

  /** `is_healthy`, with `now` the clock reading it takes. */
  predicate IsHealthy(r: AgentRow, now: Time)
  {
    if !r.enabled || r.status == Error || r.status == Stopping then false
    else if r.lastHeartbeat.Some? then now - r.lastHeartbeat.value < HeartbeatWindow
    else r.status == Active
  }

  /** `success_rate`: a fraction, 0 before any task. */
  function SuccessRate(r: AgentRow): real
  {
    if r.totalTasksProcessed == 0 then 0.0
    else r.successfulTasks as real / r.totalTasksProcessed as real
  }

  /** `failure_rate`: a fraction, 0 before any task. */
  function FailureRate(r: AgentRow): real
  {
    if r.totalTasksProcessed == 0 then 0.0
    else r.failedTasks as real / r.totalTasksProcessed as real
  }

  // ---------------------------------------------------------------------
  // Tags: a list held in place, None until the first tag is added.

  /** `add_tag`: appended unless already present. */
  function AddTag(tags: Option<seq<string>>, tag: string): (r: seq<string>)
    ensures tag in r
    ensures tags.Some? && tag in tags.value ==> r == tags.value
    ensures tags.Some? && tag !in tags.value ==> r == tags.value + [tag]
    ensures tags.None? ==> r == [tag]
  {
    var current := tags.GetOr([]);
    if tag in current then current else current + [tag]
  }

  /** `remove_tag`: whether the tag was present, and the list after. */
  function RemoveTag(tags: Option<seq<string>>, tag: string): (r: (bool, Option<seq<string>>))
    ensures r.0 <==> tags.Some? && tag in tags.value
    ensures !r.0 ==> r.1 == tags
    ensures r.0 ==> r.1 == Some(RemoveFirst(tags.value, tag))
  {
    match tags
    case None => (false, None)
    case Some(ts) => if tag in ts then (true, Some(RemoveFirst(ts, tag))) else (false, tags)
  }

  /** `has_tag`. */
  predicate HasTag(tags: Option<seq<string>>, tag: string)
  {
    tags.Some? && tag in tags.value
  }

  // ---------------------------------------------------------------------
  // Properties.

  /** Every status and counter change keeps total = successful + failed. */
  lemma CountersStayConsistent(r: AgentRow, success: bool, time: real, now: Time, message: string)
    requires CountersConsistent(r)
    ensures CountersConsistent(RecordTaskCompletion(r, success, time))
    ensures CountersConsistent(ResetMetrics(r))
    ensures CountersConsistent(SetError(r, message))
    ensures CountersConsistent(Heartbeat(r, now))
    ensures CountersConsistent(Deactivate(r))
    ensures Activate(r, now).Ok? ==> CountersConsistent(Activate(r, now).value)
    ensures SetBusy(r).Ok? ==> CountersConsistent(SetBusy(r).value)
  {
  }

  /** The stored average is the mean of the recorded processing times. */
  ghost predicate AverageOf(r: AgentRow, times: seq<real>)
  {
    && |times| == r.totalTasksProcessed
    && (times == [] ==> r.averageProcessingTime == None)
    && (times != [] ==> r.averageProcessingTime == Some(Sum(times) / |times| as real))
  }

  /** The moving average in `record_task_completion` is the exact mean of
      every time recorded since the last reset. */
  lemma {:induction false} RecordKeepsMean(r: AgentRow, times: seq<real>, success: bool, time: real)
    requires AverageOf(r, times)
    ensures AverageOf(RecordTaskCompletion(r, success, time), times + [time])
  {
    var all := times + [time];
    assert all[..|all| - 1] == times;
    assert Sum(all) == Sum(times) + time;
    var n := |times| as real;
    var m := MovingAverage(r.averageProcessingTime, |all|, time);
    if times != [] {
      var a := Sum(times) / n;
      assert a * n == Sum(times);
      assert m == (a * n + time) / (n + 1.0);
    } else {
      assert Sum(all) == time;
    }
    assert m == Sum(all) / |all| as real;
  }

  /** After `reset_metrics` no time has been recorded. */
  lemma ResetForgetsTimes(r: AgentRow)
    ensures AverageOf(ResetMetrics(r), [])
  {
  }

  /** The two rates split the processed tasks: both lie in [0, 1] and they
      add up to 1 once a task has been processed. */
  lemma RatesAreComplementary(r: AgentRow)
    requires CountersConsistent(r)
    ensures 0.0 <= SuccessRate(r) <= 1.0 && 0.0 <= FailureRate(r) <= 1.0
    ensures r.totalTasksProcessed > 0 ==> SuccessRate(r) + FailureRate(r) == 1.0
    ensures r.totalTasksProcessed == 0 ==> SuccessRate(r) == 0.0 && FailureRate(r) == 0.0
  {
    if r.totalTasksProcessed > 0 {
      var t := r.totalTasksProcessed as real;
      assert r.successfulTasks as real + r.failedTasks as real == t;
      assert r.successfulTasks as real / t + r.failedTasks as real / t == t / t;
    }
  }

  /** `add_tag` keeps a list without duplicates, and `remove_tag` then
      takes the tag out completely. */
  lemma {:induction false} TagsStayDistinct(tags: Option<seq<string>>, tag: string)
    requires tags.Some? ==> NoDuplicates(tags.value)
    ensures NoDuplicates(AddTag(tags, tag)) && HasTag(Some(AddTag(tags, tag)), tag)
    ensures tags.Some? && HasTag(tags, tag) ==> !HasTag(RemoveTag(tags, tag).1, tag)
  {
    if tags.Some? && tag in tags.value {
      RemoveFirstFromDistinct(tags.value, tag);
    }
  }

  /** A healthy agent is enabled and, once it has a heartbeat, one younger
      than five minutes; an agent in ERROR or STOPPING is never healthy. */
  lemma HealthNeedsRecentHeartbeat(r: AgentRow, now: Time)
    ensures IsHealthy(r, now) ==> r.enabled && r.status != Error && r.status != Stopping
    ensures IsHealthy(r, now) && r.lastHeartbeat.Some? ==> now - r.lastHeartbeat.value < 300
    ensures IsHealthy(r, now) && r.lastHeartbeat.None? ==> r.status == Active
    ensures r.enabled && r.status != Error && r.status != Stopping && r.lastHeartbeat == Some(now)
            ==> IsHealthy(r, now)
  {
  }

  /** A successful `activate` makes an agent healthy at that instant. */
  lemma ActivatedAgentIsHealthy(r: AgentRow, now: Time)
    requires Activate(r, now).Ok?
    ensures IsHealthy(Activate(r, now).value, now)
  {
  }
}

=== FILE: agent_repository.dfy ===
/** The agent repository (agaip/database/repositories/agent.py): creation,
    the health and availability queries, the per-id mutators, the
    performance and load reports and the bulk sweeps over the `agents`
    table. The filters do not exclude soft-deleted agents. */
module AgentRepository {
  import opened Common
  import opened Tables
  import opened Ordering
  import opened Queries
  import opened Averages
  import opened BaseRepository
  import opened AgentRecord
  import AgentModel
  import TaskRecord

  // ---------------------------------------------------------------------
  // Creation.

  /** The row `create_agent` stores: INACTIVE, `plugin_config` or `{}`,
      and the model's column defaults elsewhere. */
  function NewAgent(id: Uuid, name: string, pluginName: string, agentType: AgentType, description: Option<string>,
                    pluginConfig: Option<map<string, Json>>, maxConcurrent: int, timeout: int, now: Time)
    : (r: AgentRow)
    ensures r.id == id && r.name == name && r.pluginName == pluginName && r.agentType == agentType
    ensures r.status == Inactive && r.lastHeartbeat == None && r.enabled && r.autoRestart
    ensures r.pluginConfig == (if pluginConfig.Some? then pluginConfig.value else map[])
    ensures r.maxConcurrentTasks == maxConcurrent && r.timeoutSeconds == timeout
    ensures r.totalTasksProcessed == 0 && r.errorCount == 0 && r.averageProcessingTime == None
    ensures !r.isDeleted && r.createdAt == now
  {
    AgentRow(id, name, description, agentType, pluginName,
             if pluginConfig.Some? then pluginConfig.value else map[],
             Inactive, None, None, 0, 0, 0, 0, None, maxConcurrent, timeout, true, true, 0,
             Some([]), false, None, now)
  }

  /** A new agent has consistent counters, is not healthy until it is
      activated, and activating it succeeds. */
  lemma NewAgentStartsIdle(id: Uuid, name: string, pluginName: string, agentType: AgentType,
                           description: Option<string>, pluginConfig: Option<map<string, Json>>,
                           maxConcurrent: int, timeout: int, now: Time, later: Time)
    ensures var r := NewAgent(id, name, pluginName, agentType, description, pluginConfig, maxConcurrent, timeout, now);
      && CountersConsistent(r)
      && !IsHealthy(r, later)
      && Activate(r, later).Ok?
      && IsHealthy(Activate(r, later).value, later)
  {
  }

  /** Names are unique in the `agents` table. */
  ghost predicate UniqueNames(rows: map<Uuid, AgentRow>)
  {
    forall i, j :: i in rows && j in rows && rows[i].name == rows[j].name ==> i == j
  }

  /** `create_agent(...)`, stored under a fresh key; a taken name is refused
      by the database and not modelled. */
  method CreateAgent(table: Table<AgentRow>, id: Uuid, name: string, pluginName: string, agentType: AgentType,
                     description: Option<string>, pluginConfig: Option<map<string, Json>>,
                     maxConcurrent: int, timeout: int, now: Time)
    returns (agent: AgentRow)
    requires id !in table.rows && UniqueNames(table.rows)
    requires forall k :: k in table.rows ==> table.rows[k].name != name
    modifies table
    ensures agent == NewAgent(id, name, pluginName, agentType, description, pluginConfig, maxConcurrent, timeout, now)
    ensures table.rows == old(table.rows)[id := agent]
    ensures UniqueNames(table.rows)
  {
    agent := NewAgent(id, name, pluginName, agentType, description, pluginConfig, maxConcurrent, timeout, now);
    table.rows := table.rows[id := agent];
  }

  // ---------------------------------------------------------------------
  // Queries.

  /** `order_by("-priority", "name")`. */
  function PriorityThenName(r: AgentRow): seq<int>
  {
    [-r.priority] + CharCodes(r.name)
  }

  function ActiveEnabled(): AgentRow -> bool
  {
    (r: AgentRow) => r.status == Active && r.enabled
  }

  /** `get_active_agents()`: every enabled ACTIVE agent, highest priority
      first, then by name. */
  method GetActiveAgents(table: Table<AgentRow>) returns (agents: seq<AgentRow>)
    ensures forall a :: a in agents ==> a.status == Active && a.enabled && a in table.rows.Values
    ensures forall k :: k in table.rows && table.rows[k].status == Active && table.rows[k].enabled ==> table.rows[k] in agents
    ensures |agents| == CountWhere(table.rows, ActiveEnabled())
    ensures SortedBy(agents, PriorityThenName)
    ensures AgentModel.Keyed(table.rows) ==> Distinct(agents)
  {
    agents := Query(table.rows, ActiveEnabled(), PriorityThenName, None);
    AgentModel.KeyedInjective(table.rows);
  }

  function Available(agentType: Option<AgentType>): AgentRow -> bool
  {
    (r: AgentRow) => (r.status == Active || r.status == Busy) && r.enabled
                     && (agentType.None? || r.agentType == agentType.value)
  }

  /** `get_available_agents(agent_type)`: enabled agents that are ACTIVE or
      BUSY, optionally of one type. */
  method GetAvailableAgents(table: Table<AgentRow>, agentType: Option<AgentType>) returns (agents: seq<AgentRow>)
    ensures forall a :: a in agents ==> (a.status == Active || a.status == Busy) && a.enabled && a in table.rows.Values
    ensures forall a :: a in agents ==> agentType.None? || a.agentType == agentType.value
    ensures forall k :: k in table.rows && Available(agentType)(table.rows[k]) ==> table.rows[k] in agents
    ensures |agents| == CountWhere(table.rows, Available(agentType))
    ensures SortedBy(agents, PriorityThenName)
    ensures AgentModel.Keyed(table.rows) ==> Distinct(agents)
  {
    agents := Query(table.rows, Available(agentType), PriorityThenName, None);
    AgentModel.KeyedInjective(table.rows);
  }

  /** Selected by `get_unhealthy_agents(minutes)` at `now`: ACTIVE or BUSY
      with a heartbeat older than the cut-off. No heartbeat, no selection. */
  predicate Stale(r: AgentRow, minutes: int, now: Time)
  {
    (r.status == Active || r.status == Busy)
    && r.lastHeartbeat.Some? && r.lastHeartbeat.value < now - minutes * SecondsPerMinute
  }

  /** `get_unhealthy_agents(heartbeat_timeout_minutes)`. */
  method GetUnhealthyAgents(table: Table<AgentRow>, minutes: int, now: Time) returns (ids: seq<Uuid>)
    ensures forall k :: k in ids <==> k in table.rows && Stale(table.rows[k], minutes, now)
    ensures Distinct(ids)
    ensures |ids| == CountWhere(table.rows, StaleFor(minutes, now))
  {
    ids := SelectKeys(table.rows, StaleFor(minutes, now));
  }

  function StaleFor(minutes: int, now: Time): AgentRow -> bool
  {
    (r: AgentRow) => Stale(r, minutes, now)
  }

  /** With the default five minutes or more, every agent the query selects
      also fails `is_healthy`; an agent without a heartbeat is never
      selected, whatever its health. */
  lemma StaleAgentsAreUnhealthy(r: AgentRow, minutes: int, now: Time)
    requires minutes >= 5
    ensures Stale(r, minutes, now) ==> !IsHealthy(r, now)
    ensures r.lastHeartbeat.None? ==> !Stale(r, minutes, now)
  {
  }

  /** `get_agents_by_plugin(plugin_name)`. */
  method GetAgentsByPlugin(table: Table<AgentRow>, pluginName: string) returns (ids: seq<Uuid>)
    ensures forall k :: k in ids <==> k in table.rows && table.rows[k].pluginName == pluginName
    ensures Distinct(ids)
  {
    ids := SelectKeys(table.rows, (r: AgentRow) => r.pluginName == pluginName);
  }

  /** `get_agents_with_tag(tag)`: the tag list contains the tag. */
  method GetAgentsWithTag(table: Table<AgentRow>, tag: string) returns (ids: seq<Uuid>)
    ensures forall k :: k in ids <==> k in table.rows && HasTag(table.rows[k].tags, tag)
    ensures Distinct(ids)
  {
    ids := SelectKeys(table.rows, (r: AgentRow) => HasTag(r.tags, tag));
  }

  /** `order_by("-successful_tasks", "-total_tasks_processed")`. */
  function MostSuccessful(r: AgentRow): seq<int>
  {
    [-(r.successfulTasks as int), -(r.totalTasksProcessed as int)]
  }

  function HasProcessed(): AgentRow -> bool
  {
    (r: AgentRow) => r.totalTasksProcessed > 0
  }

  /** `get_top_performing_agents(limit)`: agents that processed a task,
      most successes first and, among equal successes, most tasks first; no
      agent left out comes before one returned in that order. */
  method GetTopPerformingAgents(table: Table<AgentRow>, limit: nat) returns (agents: seq<AgentRow>)
    ensures |agents| == Min(limit, CountWhere(table.rows, HasProcessed()))
    ensures forall a :: a in agents ==> a.totalTasksProcessed > 0 && a in table.rows.Values
    ensures SortedBy(agents, MostSuccessful)
    ensures forall a, k :: (a in agents && k in table.rows && table.rows[k].totalTasksProcessed > 0
                            && table.rows[k] !in agents) ==> LexLe(MostSuccessful(a), MostSuccessful(table.rows[k]))
    ensures forall a, k :: (a in agents && k in table.rows && table.rows[k].totalTasksProcessed > 0
                            && table.rows[k] !in agents) ==> table.rows[k].successfulTasks <= a.successfulTasks
    ensures AgentModel.Keyed(table.rows) ==> Distinct(agents)
  {
    agents := Query(table.rows, HasProcessed(), MostSuccessful, Some(limit));
    AgentModel.KeyedInjective(table.rows);
  }

  // ---------------------------------------------------------------------
  // Per-id mutators: False for an unknown id.

  /** `update_agent_heartbeat(agent_id)`. */
  method UpdateAgentHeartbeat(table: Table<AgentRow>, id: Uuid, now: Time) returns (found: bool)
    requires AgentModel.Keyed(table.rows)
    modifies table
    ensures found <==> id in old(table.rows)
    ensures found ==> table.rows == old(table.rows)[id := Heartbeat(old(table.rows)[id], now)]
    ensures !found ==> table.rows == old(table.rows)
  {
    var agent := AgentModel.Load(table, id);
    if agent == null {
      return false;
    }
    agent.Heartbeat(now, table);
    return true;
  }

  /** `set_agent_status(agent_id, status)`: only the status is written. */
  method SetAgentStatus(table: Table<AgentRow>, id: Uuid, status: AgentStatus) returns (found: bool)
    requires AgentModel.Keyed(table.rows)
    modifies table
    ensures found <==> id in old(table.rows)
    ensures found ==> table.rows == old(table.rows)[id := old(table.rows)[id].(status := status)]
    ensures !found ==> table.rows == old(table.rows)
  {
    var agent := AgentModel.Load(table, id);
    if agent == null {
      return false;
    }
    agent.status := status;
    agent.Save(table);
    return true;
  }

  /** `record_agent_error(agent_id, error_message)`. */
  method RecordAgentError(table: Table<AgentRow>, id: Uuid, message: string) returns (found: bool)
    requires AgentModel.Keyed(table.rows)
    modifies table
    ensures found <==> id in old(table.rows)
    ensures found ==> table.rows == old(table.rows)[id := SetError(old(table.rows)[id], message)]
    ensures !found ==> table.rows == old(table.rows)
  {
    var agent := AgentModel.Load(table, id);
    if agent == null {
      return false;
    }
    agent.SetError(message, table);
    return true;
  }

  /** `reset_agent_metrics(agent_id)`. */
  method ResetAgentMetrics(table: Table<AgentRow>, id: Uuid) returns (found: bool)
    requires AgentModel.Keyed(table.rows)
    modifies table
    ensures found <==> id in old(table.rows)
    ensures found ==> table.rows == old(table.rows)[id := ResetMetrics(old(table.rows)[id])]
    ensures !found ==> table.rows == old(table.rows)
  {
    var agent := AgentModel.Load(table, id);
    if agent == null {
      return false;
    }
    agent.ResetMetrics(table);
    return true;
  }

  // ---------------------------------------------------------------------
  // Performance metrics.

  datatype AgentMetrics = AgentMetrics(
    totalAgents: nat,
    healthyAgents: nat,
    unhealthyAgents: int,
    totalTasksProcessed: int,
    successfulTasks: int,
    failedTasks: int,
    overallSuccessRate: real,
    averageProcessingTime: real,
    detail: Option<AgentRow>)

  /** `sum(f(agent) for agent in agents)`. */
  function SumOf(agents: seq<AgentRow>, f: AgentRow -> int): int
  {
    if agents == [] then 0 else SumOf(agents[..|agents| - 1], f) + f(agents[|agents| - 1])
  }

  /** `sum(1 for agent in agents if agent.is_healthy)`. */
  function HealthyCount(agents: seq<AgentRow>, now: Time): (n: nat)
    ensures n <= |agents|
  {
    if agents == [] then 0
    else HealthyCount(agents[..|agents| - 1], now) + (if IsHealthy(agents[|agents| - 1], now) then 1 else 0)
  }

  /** The recorded average processing times, skipping agents with none. */
  function RecordedTimes(agents: seq<AgentRow>): (ts: seq<real>)
    ensures |ts| <= |agents|
    ensures forall t :: t in ts ==> exists a :: a in agents && a.averageProcessingTime == Some(t)
  {
    if agents == [] then []
    else
      var last := agents[|agents| - 1];
      var init := RecordedTimes(agents[..|agents| - 1]);
      assert forall a :: a in agents[..|agents| - 1] ==> a in agents;
      if last.averageProcessingTime.Some? then init + [last.averageProcessingTime.value] else init
  }

  function Processed(): AgentRow -> int { (r: AgentRow) => r.totalTasksProcessed }
  function Succeeded(): AgentRow -> int { (r: AgentRow) => r.successfulTasks }
  function FailedCount(): AgentRow -> int { (r: AgentRow) => r.failedTasks }

  /** The report `get_agent_performance_metrics` builds from the agents it
      read; None stands for the empty dictionary returned for no agents.
      `detailed` is whether a single agent id was asked for. */
  function PerformanceMetrics(agents: seq<AgentRow>, detailed: bool, now: Time): (m: Option<AgentMetrics>)
    ensures m.None? <==> agents == []
    ensures m.Some? ==> m.value.totalAgents == |agents|
                        && m.value.healthyAgents + m.value.unhealthyAgents == |agents|
                        && 0 <= m.value.unhealthyAgents
    ensures m.Some? ==> m.value.totalTasksProcessed == SumOf(agents, Processed())
                        && m.value.successfulTasks == SumOf(agents, Succeeded())
                        && m.value.failedTasks == SumOf(agents, FailedCount())
    ensures m.Some? ==> m.value.averageProcessingTime == Mean(RecordedTimes(agents))
    ensures m.Some? ==> (m.value.detail.Some? <==> detailed) && (detailed ==> m.value.detail == Some(agents[0]))
    ensures m.Some? ==> m.value.healthyAgents == HealthyCount(agents, now)
    ensures m.Some? && m.value.totalTasksProcessed == 0 ==> m.value.overallSuccessRate == 0.0
    ensures m.Some? && m.value.totalTasksProcessed > 0 ==>
      m.value.overallSuccessRate * (m.value.totalTasksProcessed as real) == (m.value.successfulTasks as real) * 100.0
  {
    if agents == [] then None
    else
      var total := SumOf(agents, Processed());
      var successful := SumOf(agents, Succeeded());
      var rate := if total > 0 then successful as real / total as real * 100.0 else 0.0;
      var healthy := HealthyCount(agents, now);
      Some(AgentMetrics(|agents|, healthy, |agents| - healthy, total, successful,
                        SumOf(agents, FailedCount()), rate, Mean(RecordedTimes(agents)),
                        if detailed then Some(agents[0]) else None))
  }

  /** With every agent's counters consistent, the report's totals are
      consistent too, and its success rate is a percentage. */
  lemma {:induction false} ConsistentCountersSum(agents: seq<AgentRow>)
    requires forall a :: a in agents ==> CountersConsistent(a)
    ensures SumOf(agents, Processed()) == SumOf(agents, Succeeded()) + SumOf(agents, FailedCount())
    ensures 0 <= SumOf(agents, Succeeded()) && 0 <= SumOf(agents, FailedCount())
    decreases |agents|
  {
    if agents != [] {
      var init := agents[..|agents| - 1];
      assert forall a :: a in init ==> a in agents;
      assert agents[|agents| - 1] in agents;
      ConsistentCountersSum(init);
    }
  }

  lemma MetricsAreConsistent(agents: seq<AgentRow>, detailed: bool, now: Time)
    requires forall a :: a in agents ==> CountersConsistent(a)
    requires agents != []
    ensures var m := PerformanceMetrics(agents, detailed, now).value;
      && m.totalTasksProcessed == m.successfulTasks + m.failedTasks
      && 0.0 <= m.overallSuccessRate <= 100.0
  {
    ConsistentCountersSum(agents);
    var total := SumOf(agents, Processed());
    var successful := SumOf(agents, Succeeded());
    if total > 0 {
      RatioInUnit(successful as real, total as real);
    }
  }

  lemma RatioInUnit(part: real, whole: real)
    requires 0.0 <= part <= whole && whole > 0.0
    ensures 0.0 <= part / whole <= 1.0
  {
    var q := part / whole;
    assert q * whole == part;
    assert (1.0 - q) * whole == whole - part;
  }

  /** `get_agent_performance_metrics(agent_id, ...)`: one agent when an id
      is given, otherwise every stored agent; `agents` holds them. */
  method GetAgentPerformanceMetrics(table: Table<AgentRow>, agentId: Option<Uuid>, now: Time)
    returns (m: Option<AgentMetrics>, ghost agents: seq<AgentRow>)
    requires AgentModel.Keyed(table.rows)
    ensures agentId.Some? ==> agents == (if agentId.value in table.rows then [table.rows[agentId.value]] else [])
    ensures agentId.None? ==> |agents| == |table.rows|
                              && (forall a :: a in agents ==> a in table.rows.Values)
                              && (forall k :: k in table.rows ==> table.rows[k] in agents)
    ensures m == PerformanceMetrics(agents, agentId.Some?, now)
    ensures m.None? <==> if agentId.Some? then agentId.value !in table.rows else table.rows == map[]
    ensures m.Some? ==> m.value.totalAgents == if agentId.Some? then 1 else |table.rows|
    ensures m.Some? ==> m.value.healthyAgents == HealthyCount(agents, now)
    ensures m.Some? && m.value.totalTasksProcessed == 0 ==> m.value.overallSuccessRate == 0.0
  {
    if agentId.Some? {
      var rows := if agentId.value in table.rows then [table.rows[agentId.value]] else [];
      agents := rows;
      m := PerformanceMetrics(rows, true, now);
    } else {
      var all := (r: AgentRow) => true;
      var rows := Query(table.rows, all, PriorityThenName, None);
      CountByKeys(table.rows, all, table.rows.Keys);
      assert table.rows.Keys * table.rows.Keys == table.rows.Keys;
      agents := rows;
      m := PerformanceMetrics(rows, false, now);
    }
  }

  // ---------------------------------------------------------------------
  // Load distribution.

  datatype AgentLoad = AgentLoad(
    agentId: Uuid,
    agentName: string,
    processingTasks: nat,
    queuedTasks: nat,
    maxConcurrentTasks: int,
    loadPercentage: real,
    status: AgentStatus)

  datatype LoadDistribution = LoadDistribution(agents: seq<AgentLoad>, totalAgents: nat, averageLoad: real)

  /** `processing / max_concurrent_tasks * 100`, or 0 without capacity. */
  function LoadPercentage(processing: nat, capacity: int): (p: real)
    ensures capacity <= 0 ==> p == 0.0
    ensures capacity > 0 ==> p * capacity as real == processing as real * 100.0
    ensures 0.0 <= p
    ensures capacity > 0 && processing <= capacity ==> p <= 100.0
  {
    if capacity > 0 then
      var q := processing as real / capacity as real;
      assert q * capacity as real == processing as real;
      q * 100.0
    else 0.0
  }

  function RunningOn(name: string, s: TaskRecord.TaskStatus): TaskRecord.TaskRow -> bool
  {
    (t: TaskRecord.TaskRow) => t.agentId == name && t.status == s
  }

  /** The entry for one agent: its PROCESSING and QUEUED tasks, matched by
      the agent's name. */
  function LoadOf(tasks: map<Uuid, TaskRecord.TaskRow>, a: AgentRow): (l: AgentLoad)
    ensures l.processingTasks == CountWhere(tasks, RunningOn(a.name, TaskRecord.Processing))
    ensures l.queuedTasks == CountWhere(tasks, RunningOn(a.name, TaskRecord.Queued))
    ensures l.loadPercentage == LoadPercentage(l.processingTasks, a.maxConcurrentTasks)
    ensures l.agentId == a.id && l.agentName == a.name && l.status == a.status
  {
    var processing := CountWhere(tasks, RunningOn(a.name, TaskRecord.Processing));
    AgentLoad(a.id, a.name, processing, CountWhere(tasks, RunningOn(a.name, TaskRecord.Queued)),
              a.maxConcurrentTasks, LoadPercentage(processing, a.maxConcurrentTasks), a.status)
  }

  function Percentages(loads: seq<AgentLoad>): (ps: seq<real>)
    ensures |ps| == |loads|
    ensures forall i :: 0 <= i < |loads| ==> ps[i] == loads[i].loadPercentage
  {
    seq(|loads|, i requires 0 <= i < |loads| => loads[i].loadPercentage)
  }

  /** `get_agent_load_distribution()`: one entry per active agent, in the
      order `get_active_agents` returns them, and the mean load. */
  method GetAgentLoadDistribution(table: Table<AgentRow>, tasks: Table<TaskRecord.TaskRow>)
    returns (d: LoadDistribution, ghost active: seq<AgentRow>)
    ensures forall a :: a in active ==> a.status == Active && a.enabled && a in table.rows.Values
    ensures |active| == CountWhere(table.rows, ActiveEnabled())
    ensures d.totalAgents == |active| && |d.agents| == |active|
    ensures forall i :: 0 <= i < |active| ==> d.agents[i] == LoadOf(tasks.rows, active[i])
    ensures d.averageLoad == Mean(Percentages(d.agents))
  {
    var agents := GetActiveAgents(table);
    active := agents;
    var loads: seq<AgentLoad> := [];
    var i := 0;
    while i < |agents|
      invariant 0 <= i <= |agents| && |loads| == i
      invariant forall j :: 0 <= j < i ==> loads[j] == LoadOf(tasks.rows, agents[j])
    {
      var load := AgentLoadOf(tasks, agents[i]);
      loads := loads + [load];
      i := i + 1;
    }
    var average := MeanLoad(loads);
    d := LoadDistribution(loads, |agents|, average);
  }

  /** One entry of the distribution: the agent's PROCESSING and QUEUED
      tasks counted, and the load against its capacity. */
  method AgentLoadOf(tasks: Table<TaskRecord.TaskRow>, a: AgentRow) returns (load: AgentLoad)
    ensures load == LoadOf(tasks.rows, a)
  {
    var processing := SelectKeys(tasks.rows, RunningOn(a.name, TaskRecord.Processing));
    var queued := SelectKeys(tasks.rows, RunningOn(a.name, TaskRecord.Queued));
    var percentage := LoadPercentage(|processing|, a.maxConcurrentTasks);
    load := AgentLoad(a.id, a.name, |processing|, |queued|, a.maxConcurrentTasks, percentage, a.status);
  }

  /** The mean load, summed in order; 0 for no entries. */
  method MeanLoad(loads: seq<AgentLoad>) returns (average: real)
    ensures average == Mean(Percentages(loads))
  {
    average := 0.0;
    if loads != [] {
      var sum := 0.0;
      var j := 0;
      while j < |loads|
        invariant 0 <= j <= |loads|
        invariant sum == Sum(Percentages(loads)[..j])
      {
        assert Percentages(loads)[..j + 1][..j] == Percentages(loads)[..j];
        sum := sum + loads[j].loadPercentage;
        j := j + 1;
      }
      assert Percentages(loads)[..j] == Percentages(loads);
      average := sum / |loads| as real;
    }
  }

  /** When no active agent is over capacity, every load and the average
      load lie between 0 and 100; with no active agent the average is 0. */
  lemma AverageLoadIsAPercentage(tasks: map<Uuid, TaskRecord.TaskRow>, active: seq<AgentRow>, loads: seq<AgentLoad>)
    requires |loads| == |active|
    requires forall i :: 0 <= i < |active| ==> loads[i] == LoadOf(tasks, active[i])
    requires forall i :: 0 <= i < |active| ==>
      loads[i].processingTasks <= active[i].maxConcurrentTasks || active[i].maxConcurrentTasks <= 0
    ensures forall i :: 0 <= i < |loads| ==> 0.0 <= loads[i].loadPercentage <= 100.0
    ensures 0.0 <= Mean(Percentages(loads)) <= 100.0
  {
    MeanWithinBounds(Percentages(loads), 0.0, 100.0);
  }

  // ---------------------------------------------------------------------
  // Bulk sweeps.

  /** Selected by `cleanup_inactive_agents(days_inactive)`: INACTIVE with a
      heartbeat before the cut-off. */
  predicate LongInactive(r: AgentRow, cutoff: Time)
  {
    r.status == Inactive && r.lastHeartbeat.Some? && r.lastHeartbeat.value < cutoff
  }

  function LongInactiveKeys(rows: map<Uuid, AgentRow>, cutoff: Time): set<Uuid>
  {
    set k | k in rows && LongInactive(rows[k], cutoff)
  }

  /** The table after soft-deleting the agents at `ks` at `now`. */
  function SoftDeleted(rows: map<Uuid, AgentRow>, ks: set<Uuid>, now: Time): (r: map<Uuid, AgentRow>)
    ensures r.Keys == rows.Keys
  {
    map k | k in rows :: if k in ks then rows[k].(isDeleted := true, deletedAt := Some(now)) else rows[k]
  }

  /** `cleanup_inactive_agents(days_inactive)`: soft-deletes each selected
      agent and returns how many there were. */
  method CleanupInactiveAgents(table: Table<AgentRow>, days: int, now: Time) returns (count: nat)
    requires AgentModel.Keyed(table.rows)
    modifies table
    ensures count == CountWhere(old(table.rows), (r: AgentRow) => LongInactive(r, now - days * SecondsPerDay))
    ensures table.rows == SoftDeleted(old(table.rows), LongInactiveKeys(old(table.rows), now - days * SecondsPerDay), now)
  {
    var cutoff := now - days * SecondsPerDay;
    var ks := SelectKeys(table.rows, (r: AgentRow) => LongInactive(r, cutoff));
    ghost var before := table.rows;
    ghost var done := SoftDeleteEach(table, ks, now);
    count := |ks|;
    forall k
      ensures k in done <==> k in LongInactiveKeys(before, cutoff)
    {
      assert k in ks <==> k in before && LongInactive(before[k], cutoff);
    }
    assert done == LongInactiveKeys(before, cutoff);
  }

  /** Loads and soft-deletes each listed agent in turn. */
  method SoftDeleteEach(table: Table<AgentRow>, ks: seq<Uuid>, now: Time) returns (ghost done: set<Uuid>)
    requires AgentModel.Keyed(table.rows) && Distinct(ks)
    requires forall k :: k in ks ==> k in table.rows
    modifies table
    ensures forall k :: k in done <==> k in ks
    ensures table.rows == SoftDeleted(old(table.rows), done, now)
  {
    ghost var before := table.rows;
    done := {};
    var i := 0;
    while i < |ks|
      invariant 0 <= i <= |ks|
      invariant forall k :: k in done <==> k in ks[..i]
      invariant table.rows == SoftDeleted(before, done, now)
      invariant AgentModel.Keyed(table.rows)
    {
      var k := ks[i];
      assert k !in ks[..i];
      SoftDeleteOne(table, k, now);
      assert ks[..i + 1] == ks[..i] + [k];
      assert SoftDeleted(before, done + {k}, now) == SoftDeleted(before, done, now)[k := before[k].(isDeleted := true, deletedAt := Some(now))];
      done := done + {k};
      i := i + 1;
    }
    assert ks[..i] == ks;
  }

  /** `agent.soft_delete()` on the agent stored under `k`. */
  method SoftDeleteOne(table: Table<AgentRow>, k: Uuid, now: Time)
    requires AgentModel.Keyed(table.rows) && k in table.rows
    modifies table
    ensures table.rows == old(table.rows)[k := old(table.rows)[k].(isDeleted := true, deletedAt := Some(now))]
    ensures AgentModel.Keyed(table.rows)
  {
    var agent := AgentModel.Load(table, k);
    agent.SoftDelete(now, table);
  }

  /** The table after `bulk_update_agent_status(ids, status)`. */
  function StatusSet(rows: map<Uuid, AgentRow>, ids: seq<Uuid>, status: AgentStatus): (r: map<Uuid, AgentRow>)
    ensures r.Keys == rows.Keys
  {
    map k | k in rows :: if rows[k].id in ids then rows[k].(status := status) else rows[k]
  }

  /** Setting the status of exactly the selected rows is `StatusSet`. */
  lemma StatusSetOfSelected(before: map<Uuid, AgentRow>, rows: map<Uuid, AgentRow>, ks: seq<Uuid>,
                            ids: seq<Uuid>, status: AgentStatus)
    requires forall k :: k in ks <==> k in before && InIds(ids)(before[k])
    requires rows.Keys == before.Keys
    requires forall k :: k in rows ==> rows[k] == if k in ks then before[k].(status := status) else before[k]
    ensures rows == StatusSet(before, ids, status)
  {
    forall k | k in before
      ensures rows[k] == StatusSet(before, ids, status)[k]
    {
      assert InIds(ids)(before[k]) == (before[k].id in ids);
    }
  }

  function InIds(ids: seq<Uuid>): AgentRow -> bool
  {
    (r: AgentRow) => r.id in ids
  }

  /** `bulk_update_agent_status(agent_ids, status)`: every agent whose id
      is listed gets the status; the count of matched agents is returned. */
  method BulkUpdateAgentStatus(table: Table<AgentRow>, ids: seq<Uuid>, status: AgentStatus) returns (count: nat)
    modifies table
    ensures count == CountWhere(old(table.rows), InIds(ids))
    ensures table.rows == StatusSet(old(table.rows), ids, status)
  {
    var ks := SelectKeys(table.rows, InIds(ids));
    ghost var before := table.rows;
    var rows := table.rows;
    var i := 0;
    while i < |ks|
      invariant 0 <= i <= |ks| && rows.Keys == before.Keys
      invariant forall k :: k in rows ==>
        rows[k] == if k in ks[..i] then before[k].(status := status) else before[k]
    {
      rows := rows[ks[i] := rows[ks[i]].(status := status)];
      i := i + 1;
    }
    assert ks[..i] == ks;
    StatusSetOfSelected(before, rows, ks, ids, status);
    table.rows := rows;
    count := |ks|;
  }

  /** With rows stored under their own ids, the count is the number of
      distinct listed ids that exist. */
  lemma BulkCountIsExistingIds(rows: map<Uuid, AgentRow>, ids: seq<Uuid>)
    requires AgentModel.Keyed(rows)
    ensures CountWhere(rows, InIds(ids)) == |set k | k in rows && k in ids|
  {
    var listed := set i | 0 <= i < |ids| :: ids[i];
    forall k | k in rows
      ensures InIds(ids)(rows[k]) <==> k in listed
    {
      if k in ids {
        var i :| 0 <= i < |ids| && ids[i] == k;
      }
    }
    CountByKeys(rows, InIds(ids), listed);
    assert rows.Keys * listed == set k | k in rows && k in ids;
  }
}

=== FILE: agent_service.dfy ===
/** The agent service (agaip/services/agent_service.py): registration from
    configuration, listing, activation, restart and the health sweep over
    the `agents` table. The events it publishes are kept, in order, in
    `published`. */
module AgentService {
  import opened Common
  import opened Tables
  import opened BaseRepository
  import opened AgentRecord
  import AgentModel
  import AgentRepository

  /** `AgentStartedEvent` / `AgentStoppedEvent`. */
  datatype AgentEvent = AgentStarted(agentId: Uuid) | AgentStopped(agentId: Uuid)

  /** The entries of an agent configuration; `None` is a missing key. The
      type is the text `AgentType(...)` is called with. */
  datatype AgentConfig = AgentConfig(
    name: Option<string>,
    plugin: Option<string>,
    agentType: Option<string>,
    description: Option<string>,
    config: Option<map<string, Json>>,
    maxConcurrentTasks: Option<int>,
    timeoutSeconds: Option<int>)

  /** The defaults `register_agent_from_config` fills in. */
  const DefaultMaxConcurrentTasks: int := 1
  const DefaultTimeoutSeconds: int := 300
  const DefaultAgentType: string := "custom"

  /** `config["name"]` or `config["plugin"]` on a missing key. */
  function MissingKey(key: string): Exception
  {
    Exception("KeyError", "'" + key + "'")
  }

  /** `AgentType(value)` on a text that is no value of the enumeration. */
  function UnknownAgentType(value: string): Exception
  {
    Exception("ValueError", "'" + value + "' is not a valid AgentType")
  }

  /** The type text the configuration names, "custom" when it names none. */
  function TypeText(c: AgentConfig): string
  {
    c.agentType.GetOr(DefaultAgentType)
  }

  /** The arguments are evaluated in order: the name, the plugin, then the
      type, and the first that fails raises. */
  function ConfigError(c: AgentConfig): (e: Option<Exception>)
    ensures e.None? <==> c.name.Some? && c.plugin.Some? && ParseAgentType(TypeText(c)).Some?
    ensures c.name.None? ==> e == Some(MissingKey("name"))
    ensures c.name.Some? && c.plugin.None? ==> e == Some(MissingKey("plugin"))
    ensures c.name.Some? && c.plugin.Some? && ParseAgentType(TypeText(c)).None? ==>
      e == Some(UnknownAgentType(TypeText(c)))
  {
    if c.name.None? then Some(MissingKey("name"))
    else if c.plugin.None? then Some(MissingKey("plugin"))
    else if ParseAgentType(TypeText(c)).None? then Some(UnknownAgentType(TypeText(c)))
    else None
  }

  /** The row `register_agent_from_config(config)` stores when no argument
      raises. */
  function ConfiguredAgent(id: Uuid, c: AgentConfig, now: Time): (r: AgentRow)
    requires ConfigError(c).None?
    ensures Some(r.agentType) == ParseAgentType(TypeText(c))
    ensures c.agentType.None? ==> r.agentType == Custom
    ensures r.maxConcurrentTasks == c.maxConcurrentTasks.GetOr(DefaultMaxConcurrentTasks)
    ensures r.timeoutSeconds == c.timeoutSeconds.GetOr(DefaultTimeoutSeconds)
    ensures r.pluginConfig == c.config.GetOr(map[])
    ensures Some(r.name) == c.name && Some(r.pluginName) == c.plugin && r.status == Inactive
  {
    AgentRepository.NewAgent(id, c.name.value, c.plugin.value, ParseAgentType(TypeText(c)).value, c.description,
                             Some(c.config.GetOr(map[])), c.maxConcurrentTasks.GetOr(DefaultMaxConcurrentTasks),
                             c.timeoutSeconds.GetOr(DefaultTimeoutSeconds), now)
  }

  /** The filters `list_agents` builds. */
  function ListedAgent(agentType: Option<AgentType>, status: Option<AgentStatus>, enabledOnly: bool): AgentRow -> bool
  {
    (r: AgentRow) => (agentType.None? || r.agentType == agentType.value)
                     && (status.None? || r.status == status.value)
                     && (!enabledOnly || r.enabled)
  }

  /** The message the health sweep records before reactivating. */
  const AutoRestartMessage: string := "Health check failed - auto restarting"

  /** An agent after the sweep's `set_error(...)` and `activate()`. */
  function AutoRestarted(r: AgentRow, now: Time): (q: AgentRow)
    requires r.enabled
    ensures q.status == Active && q.lastHeartbeat == Some(now)
    ensures q.errorCount == r.errorCount + 1 && q.lastError == Some(AutoRestartMessage)
    ensures q.(status := r.status, lastHeartbeat := r.lastHeartbeat, errorCount := r.errorCount,
               lastError := r.lastError) == r
  {
    Activate(SetError(r, AutoRestartMessage), now).value
  }

  /** An agent after `restart_agent`: active with a fresh heartbeat when
      enabled, otherwise INACTIVE and untouched besides. */
  function Cycled(r: AgentRow, now: Time): (q: AgentRow)
    ensures q.status == (if r.enabled then Active else Inactive)
    ensures q.lastHeartbeat == (if r.enabled then Some(now) else r.lastHeartbeat)
    ensures q.(status := r.status, lastHeartbeat := r.lastHeartbeat) == r
  {
    if r.enabled then Activate(Deactivate(r), now).value else Deactivate(r)
  }

  /** Stale at `now` by the sweep's default of five minutes. */
  predicate StaleNow(r: AgentRow, now: Time)
  {
    AgentRepository.Stale(r, 5, now)
  }

  function RestartableAt(now: Time): AgentRow -> bool
  {
    (r: AgentRow) => StaleNow(r, now) && r.autoRestart
  }

  /** The table after a sweep that met no disabled agent. */
  function Swept(rows: map<Uuid, AgentRow>, now: Time): (swept: map<Uuid, AgentRow>)
    requires forall k :: k in rows && StaleNow(rows[k], now) && rows[k].autoRestart ==> rows[k].enabled
    ensures swept.Keys == rows.Keys
  {
    map k | k in rows :: if StaleNow(rows[k], now) && rows[k].autoRestart then AutoRestarted(rows[k], now) else rows[k]
  }

  /** What `health_check_all_agents` reports. */
  datatype HealthReport = HealthReport(unhealthyAgents: nat, restartedAgents: nat, timestamp: Time)

  class AgentService {
    const agents: Table<AgentRow>
    /** The events published so far, oldest first. */
    var published: seq<AgentEvent>

    constructor(agents: Table<AgentRow>)
      ensures this.agents == agents && published == []
    {
      this.agents := agents;
      published := [];
    }

    ghost predicate Valid()
      reads this, agents
    {
      AgentModel.Keyed(agents.rows) && AgentRepository.UniqueNames(agents.rows)
    }

    /** `register_agent_from_config(config)`: a missing name or plugin
        raises KeyError and an unknown type ValueError, before anything is
        stored; otherwise the configured agent is created. */
    method RegisterAgentFromConfig(id: Uuid, c: AgentConfig, now: Time) returns (res: Result<AgentRow, Exception>)
      requires Valid() && id !in agents.rows
      requires c.name.Some? ==> forall k :: k in agents.rows ==> agents.rows[k].name != c.name.value
      modifies agents
      ensures Valid()
      ensures res.Ok? <==> ConfigError(c).None?
      ensures res.Err? ==> Some(res.error) == ConfigError(c) && agents.rows == old(agents.rows)
      ensures res.Ok? ==> res.value == ConfiguredAgent(id, c, now) && agents.rows == old(agents.rows)[id := res.value]
    {
      var name, plugin, typeText := c.name, c.plugin, TypeText(c);
      if name.None? {
        return Err(MissingKey("name"));
      }
      if plugin.None? {
        return Err(MissingKey("plugin"));
      }
      var agentType := ParseAgentType(typeText);
      if agentType.None? {
        return Err(UnknownAgentType(typeText));
      }
      var agent := AgentRepository.CreateAgent(agents, id, name.value, plugin.value, agentType.value, c.description,
                                               Some(c.config.GetOr(map[])), c.maxConcurrentTasks.GetOr(DefaultMaxConcurrentTasks),
                                               c.timeoutSeconds.GetOr(DefaultTimeoutSeconds), now);
      return Ok(agent);
    }

    /** `list_agents(agent_type, status, enabled_only)`: every agent that
        passes the filters given, each once; only enabled ones by default. */
    method ListAgents(agentType: Option<AgentType>, status: Option<AgentStatus>, enabledOnly: bool)
      returns (listed: seq<AgentRow>)
      ensures forall a :: a in listed ==> a in agents.rows.Values && ListedAgent(agentType, status, enabledOnly)(a)
      ensures forall a :: a in listed && enabledOnly ==> a.enabled
      ensures forall k :: k in agents.rows && ListedAgent(agentType, status, enabledOnly)(agents.rows[k]) ==> agents.rows[k] in listed
      ensures |listed| == CountWhere(agents.rows, ListedAgent(agentType, status, enabledOnly))
    {
      var ks := SelectKeys(agents.rows, ListedAgent(agentType, status, enabledOnly));
      listed := RowsAt(agents.rows, ks);
      forall a | a in listed
        ensures a in agents.rows.Values && ListedAgent(agentType, status, enabledOnly)(a)
      {
        var i :| 0 <= i < |listed| && listed[i] == a;
        assert ks[i] in ks;
      }
      forall k | k in agents.rows && ListedAgent(agentType, status, enabledOnly)(agents.rows[k])
        ensures agents.rows[k] in listed
      {
        var i :| 0 <= i < |ks| && ks[i] == k;
        assert listed[i] == agents.rows[k];
      }
    }

    /** `activate_agent(agent_id)`: False for an unknown id; a disabled
        agent raises and nothing is published. */
    method ActivateAgent(id: Uuid, now: Time) returns (res: Result<bool, Exception>)
      requires Valid()
      modifies this, agents
      ensures Valid()
      ensures res == Ok(false) <==> id !in old(agents.rows)
      ensures res.Err? <==> id in old(agents.rows) && !old(agents.rows)[id].enabled
      ensures res.Err? ==> res.error == Activate(old(agents.rows)[id], now).error
      ensures res == Ok(true) ==>
        && agents.rows == old(agents.rows)[id := Activate(old(agents.rows)[id], now).value]
        && published == old(published) + [AgentStarted(id)]
      ensures res != Ok(true) ==> agents.rows == old(agents.rows) && published == old(published)
    {
      var agent := AgentModel.Load(agents, id);
      if agent == null {
        return Ok(false);
      }
      var outcome := agent.Activate(now, agents);
      if outcome.Fail? {
        return Err(outcome.error);
      }
      published := published + [AgentStarted(id)];
      return Ok(true);
    }

    /** `deactivate_agent(agent_id)`: False for an unknown id. */
    method DeactivateAgent(id: Uuid) returns (done: bool)
      requires Valid()
      modifies this, agents
      ensures Valid()
      ensures done <==> id in old(agents.rows)
      ensures done ==> agents.rows == old(agents.rows)[id := Deactivate(old(agents.rows)[id])]
                       && published == old(published) + [AgentStopped(id)]
      ensures !done ==> agents.rows == old(agents.rows) && published == old(published)
    {
      var agent := AgentModel.Load(agents, id);
      if agent == null {
        return false;
      }
      agent.Deactivate(agents);
      published := published + [AgentStopped(id)];
      return true;
    }

    /** `restart_agent(agent_id)`: the agent named so, else the one whose
        id the text parses to (`parse` stands for `UUID(...)`, None where
        it raises), is cycled; False when neither exists. */
    method RestartAgent(ref: string, parse: string -> Option<Uuid>, now: Time) returns (res: Result<bool, Exception>)
      requires Valid()
      modifies agents
      ensures Valid()
      ensures res == Ok(false) <==>
        && (forall k :: k in old(agents.rows) ==> old(agents.rows)[k].name != ref)
        && (parse(ref).None? || parse(ref).value !in old(agents.rows))
      ensures res == Ok(false) ==> agents.rows == old(agents.rows)
      ensures res != Ok(false) ==>
        exists k :: (&& k in old(agents.rows)
                     && (old(agents.rows)[k].name == ref || parse(ref) == Some(k))
                     && (res == Ok(true) <==> old(agents.rows)[k].enabled)
                     && agents.rows == old(agents.rows)[k := Cycled(old(agents.rows)[k], now)])
    {
      var byName := FindOne(agents.rows, (r: AgentRow) => r.name == ref);
      var key: Uuid;
      if byName.Some? {
        key := byName.value;
      } else {
        var parsed := parse(ref);
        if parsed.None? || parsed.value !in agents.rows {
          return Ok(false);
        }
        key := parsed.value;
      }
      res := Cycle(key, now);
    }

    /** The body of `restart_agent` once the agent is found: `deactivate()`
        then `activate()`, which raises for a disabled agent and leaves it
        INACTIVE. */
    method Cycle(key: Uuid, now: Time) returns (res: Result<bool, Exception>)
      requires Valid() && key in agents.rows
      modifies agents
      ensures Valid()
      ensures res != Ok(false)
      ensures res == Ok(true) <==> old(agents.rows)[key].enabled
      ensures res.Err? ==> res.error == ValidationError("Cannot activate disabled agent")
      ensures agents.rows == old(agents.rows)[key := Cycled(old(agents.rows)[key], now)]
    {
      var agent := AgentModel.Load(agents, key);
      agent.Deactivate(agents);
      var outcome := agent.Activate(now, agents);
      if outcome.Fail? {
        return Err(outcome.error);
      }
      return Ok(true);
    }

    /** `health_check_all_agents()`: every agent stale for five minutes
        with `auto_restart` gets an error recorded and is reactivated;
        the others are left alone. A disabled one makes `activate` raise,
        which ends the sweep with the error. */
    method HealthCheckAllAgents(now: Time)
      returns (res: Result<HealthReport, Exception>, ghost listed: seq<Uuid>, ghost stop: nat)
      requires Valid()
      modifies agents
      ensures Valid()
      ensures Distinct(listed)
      ensures forall k :: k in listed <==> k in old(agents.rows) && StaleNow(old(agents.rows)[k], now)
      ensures res.Ok? <==> forall k :: (k in old(agents.rows) && StaleNow(old(agents.rows)[k], now)
                                        && old(agents.rows)[k].autoRestart) ==> old(agents.rows)[k].enabled
      ensures res.Ok? ==>
        && agents.rows == Swept(old(agents.rows), now)
        && res.value.unhealthyAgents == CountWhere(old(agents.rows), AgentRepository.StaleFor(5, now))
        && res.value.restartedAgents == CountWhere(old(agents.rows), RestartableAt(now))
        && res.value.timestamp == now
      ensures res.Err? ==>
        && StoppedAt(old(agents.rows), listed, stop, agents.rows, now)
        && res.error == ValidationError("Cannot activate disabled agent")
    {
      var ks := AgentRepository.GetUnhealthyAgents(agents, 5, now);
      listed := ks;
      ghost var before := agents.rows;
      var outcome, restarted;
      ghost var done;
      outcome, restarted, done, stop := RestartEach(ks, now);
      SameAgentsValid(before, agents.rows);
      forall k | k in before
        ensures k in ks <==> StaleNow(before[k], now)
      {
        assert AgentRepository.StaleFor(5, now)(before[k]) == StaleNow(before[k], now);
      }
      if outcome.Fail? {
        res := Err(outcome.error);
        return;
      }
      RestartableInListed(before, ks);
      SweepCounts(before, ks, done, now);
      SweptIsRestarted(before, done, now);
      CountByKeys(before, RestartableAt(now), done);
      assert before.Keys * done == done;
      res := Ok(HealthReport(|ks|, restarted, now));
    }

    /** The sweep's loop over the listed agents, in order; it stops at the
        first `activate` that raises. */
    method RestartEach(ks: seq<Uuid>, now: Time)
      returns (outcome: Outcome<Exception>, restarted: nat, ghost done: set<Uuid>, ghost stop: nat)
      requires AgentModel.Keyed(agents.rows) && Distinct(ks)
      requires forall k :: k in ks ==> k in agents.rows
      modifies agents
      ensures SameAgents(old(agents.rows), agents.rows)
      ensures outcome.Pass? <==> forall k :: k in ks && old(agents.rows)[k].autoRestart ==> old(agents.rows)[k].enabled
      ensures outcome.Pass? ==>
        && done == RestartableIn(old(agents.rows), ks)
        && restarted == |done|
        && (forall k :: k in done ==> k in old(agents.rows) && old(agents.rows)[k].enabled)
        && agents.rows == Restarted(old(agents.rows), done, now)
      ensures outcome.Fail? ==>
        && StoppedAt(old(agents.rows), ks, stop, agents.rows, now)
        && outcome.error == ValidationError("Cannot activate disabled agent")
    {
      ghost var before := agents.rows;
      restarted := 0;
      done := {};
      stop := 0;
      var i := 0;
      while i < |ks|
        invariant 0 <= i <= |ks|
        invariant SweepInvariant(before, ks, i, done, restarted, agents.rows, now)
      {
        var step;
        outcome, step := SweepStep(ks, i, now, before, done, restarted);
        if outcome.Fail? {
          stop := i;
          return;
        }
        if step {
          done := done + {ks[i]};
          restarted := restarted + 1;
        }
        i := i + 1;
      }
      SweepComplete(before, ks, done, restarted, agents.rows, now);
      outcome := Pass;
    }

    /** The loop body at position `i`, with the invariant carried across. */
    method SweepStep(ks: seq<Uuid>, i: nat, now: Time, ghost before: map<Uuid, AgentRow>, ghost done: set<Uuid>,
                     ghost restarted: nat)
      returns (outcome: Outcome<Exception>, step: bool)
      requires AgentModel.Keyed(before) && Distinct(ks) && i < |ks|
      requires forall k :: k in ks ==> k in before
      requires SweepInvariant(before, ks, i, done, restarted, agents.rows, now)
      modifies agents
      ensures SameAgents(before, agents.rows)
      ensures outcome.Pass? ==>
        SweepInvariant(before, ks, i + 1, if step then done + {ks[i]} else done,
                       if step then restarted + 1 else restarted, agents.rows, now)
      ensures outcome.Fail? ==>
        && StoppedAt(before, ks, i, agents.rows, now)
        && !(forall k :: k in ks && before[k].autoRestart ==> before[k].enabled)
        && outcome.error == ValidationError("Cannot activate disabled agent")
    {
      ghost var current := agents.rows;
      SweepReady(before, ks, i, done, restarted, agents.rows, now);
      outcome, step := SweepOne(ks[i], now, before, done);
      if outcome.Fail? {
        StopHere(before, ks, i, done, agents.rows, now);
        return;
      }
      SweepAdvance(before, ks, i, done, restarted, step, current, agents.rows, now);
    }

    /** One iteration of the sweep on the agent at `k`, which it has not
        met before: a restart when `auto_restart` is set. */
    method SweepOne(k: Uuid, now: Time, ghost before: map<Uuid, AgentRow>, ghost done: set<Uuid>)
      returns (outcome: Outcome<Exception>, restarted: bool)
      requires k in before && k !in done && AgentModel.Keyed(before)
      requires forall j :: j in done && j in before ==> before[j].enabled
      requires agents.rows == Restarted(before, done, now)
      modifies agents
      ensures SameAgents(before, agents.rows)
      ensures restarted <==> outcome.Pass? && before[k].autoRestart
      ensures outcome.Fail? <==> before[k].autoRestart && !before[k].enabled
      ensures outcome.Pass? ==> agents.rows == Restarted(before, if restarted then done + {k} else done, now)
      ensures outcome.Fail? ==>
        && agents.rows == Restarted(before, done, now)[k := SetError(before[k], AutoRestartMessage)]
        && outcome.error == ValidationError("Cannot activate disabled agent")
    {
      RestartKeepsKeys(before, done, now);
      RestartedSame(before, done, now);
      if !agents.rows[k].autoRestart {
        return Pass, false;
      }
      outcome := AutoRestart(k, now);
      SameAgentsTrans(before, old(agents.rows), agents.rows);
      if outcome.Pass? {
        RestartedStep(before, done, k, now);
      }
      restarted := outcome.Pass?;
    }

    /** One restart of the sweep: `set_error(...)` then `activate()`, which
        raises for a disabled agent after the error was saved. */
    method AutoRestart(k: Uuid, now: Time) returns (outcome: Outcome<Exception>)
      requires AgentModel.Keyed(agents.rows) && k in agents.rows
      modifies agents
      ensures SameAgents(old(agents.rows), agents.rows)
      ensures outcome.Pass? <==> old(agents.rows)[k].enabled
      ensures outcome.Pass? ==> agents.rows == old(agents.rows)[k := AutoRestarted(old(agents.rows)[k], now)]
      ensures outcome.Fail? ==> agents.rows == old(agents.rows)[k := SetError(old(agents.rows)[k], AutoRestartMessage)]
      ensures outcome.Fail? ==> outcome.error == ValidationError("Cannot activate disabled agent")
    {
      var agent := AgentModel.Load(agents, k);
      agent.SetError(AutoRestartMessage, agents);
      outcome := agent.Activate(now, agents);
    }
  }

  /** After a full pass, the restarted set is exactly the restartable
      agents, and the table is the swept one. */
  lemma SweepCounts(before: map<Uuid, AgentRow>, ks: seq<Uuid>, done: set<Uuid>, now: Time)
    requires forall k :: k in ks <==> k in before && StaleNow(before[k], now)
    requires forall k :: k in done <==> k in before && k in ks && before[k].autoRestart
    requires forall k :: k in done ==> before[k].enabled
    ensures forall k :: k in before ==> (RestartableAt(now)(before[k]) <==> k in done)
    ensures done <= before.Keys
    ensures forall k :: k in before && StaleNow(before[k], now) && before[k].autoRestart ==> before[k].enabled
  {
    forall k | k in done
      ensures k in before.Keys
    {
    }
    forall k | k in before
      ensures RestartableAt(now)(before[k]) <==> k in done
    {
      assert RestartableAt(now)(before[k]) == (StaleNow(before[k], now) && before[k].autoRestart);
    }
  }

  /** The table with the agents at `done` restarted. */
  function Restarted(rows: map<Uuid, AgentRow>, done: set<Uuid>, now: Time): (r: map<Uuid, AgentRow>)
    requires forall k :: k in done && k in rows ==> rows[k].enabled
    ensures r.Keys == rows.Keys
  {
    map k | k in rows :: if k in done then AutoRestarted(rows[k], now) else rows[k]
  }

  lemma RestartedStep(rows: map<Uuid, AgentRow>, done: set<Uuid>, k: Uuid, now: Time)
    requires forall j :: j in done && j in rows ==> rows[j].enabled
    requires k in rows && rows[k].enabled && k !in done
    ensures Restarted(rows, done, now)[k := AutoRestarted(rows[k], now)] == Restarted(rows, done + {k}, now)
  {
  }

  lemma SweptIsRestarted(before: map<Uuid, AgentRow>, done: set<Uuid>, now: Time)
    requires forall k :: k in before ==> (RestartableAt(now)(before[k]) <==> k in done)
    requires forall k :: k in before && StaleNow(before[k], now) && before[k].autoRestart ==> before[k].enabled
    requires forall k :: k in done && k in before ==> before[k].enabled
    ensures Restarted(before, done, now) == Swept(before, now)
  {
    var expected := Swept(before, now);
    var actual := Restarted(before, done, now);
    forall k | k in before
      ensures actual[k] == expected[k]
    {
      assert RestartableAt(now)(before[k]) == (StaleNow(before[k], now) && before[k].autoRestart);
    }
  }

  /** An agent whose restart `activate` refuses: `auto_restart` set on a
      disabled agent. */
  predicate RestartBlocked(rows: map<Uuid, AgentRow>, k: Uuid)
  {
    k in rows && rows[k].autoRestart && !rows[k].enabled
  }

  /** The sweep over `listed` stopped at position `stop`: that agent is
      the first listed one whose restart `activate` refuses, and `after` is
      the table it leaves. */
  ghost predicate StoppedAt(before: map<Uuid, AgentRow>, listed: seq<Uuid>, stop: nat,
                            after: map<Uuid, AgentRow>, now: Time)
  {
    && stop < |listed|
    && RestartBlocked(before, listed[stop])
    && (forall j :: 0 <= j < stop ==> !RestartBlocked(before, listed[j]))
    && after == Interrupted(before, listed, stop, now)
  }

  /** The table after a sweep over `listed` that `activate` stopped at
      position `stop`: the auto-restart agents listed before it restarted,
      the agent at `stop` with the error recorded and still as it was
      otherwise, every other agent untouched. */
  function Interrupted(rows: map<Uuid, AgentRow>, listed: seq<Uuid>, stop: nat, now: Time): (r: map<Uuid, AgentRow>)
    requires stop < |listed|
    ensures r.Keys == rows.Keys
  {
    map k | k in rows ::
      if k == listed[stop] then SetError(rows[k], AutoRestartMessage)
      else if k in listed[..stop] && rows[k].autoRestart && rows[k].enabled then AutoRestarted(rows[k], now)
      else rows[k]
  }

  /** The sweep's state after the first `i` listed agents: the
      auto-restart ones among them restarted and counted, none of them
      refused. */
  ghost predicate SweepInvariant(before: map<Uuid, AgentRow>, ks: seq<Uuid>, i: nat, done: set<Uuid>,
                                 restarted: nat, rows: map<Uuid, AgentRow>, now: Time)
  {
    && i <= |ks|
    && done == RestartableIn(before, ks[..i])
    && restarted == RestartCount(before, ks[..i])
    && (forall j :: j in done ==> j in before && before[j].enabled)
    && (forall j :: 0 <= j < i ==> !RestartBlocked(before, ks[j]))
    && rows == Restarted(before, done, now)
  }

  /** The next listed agent has not been met yet. */
  lemma SweepReady(before: map<Uuid, AgentRow>, ks: seq<Uuid>, i: nat, done: set<Uuid>,
                   restarted: nat, rows: map<Uuid, AgentRow>, now: Time)
    requires i < |ks| && Distinct(ks) && SweepInvariant(before, ks, i, done, restarted, rows, now)
    ensures ks[i] !in done
    ensures forall j :: j in done && j in before ==> before[j].enabled
    ensures rows == Restarted(before, done, now)
  {
    assert ks[i] !in ks[..i];
    InRestartable(before, ks[..i], ks[i]);
  }

  /** One iteration that `activate` did not stop keeps the invariant. */
  lemma SweepAdvance(before: map<Uuid, AgentRow>, ks: seq<Uuid>, i: nat, done: set<Uuid>,
                     restarted: nat, step: bool, current: map<Uuid, AgentRow>, rows: map<Uuid, AgentRow>,
                     now: Time)
    requires i < |ks| && ks[i] in before
    requires SweepInvariant(before, ks, i, done, restarted, current, now)
    requires !(before[ks[i]].autoRestart && !before[ks[i]].enabled)
    requires step <==> before[ks[i]].autoRestart
    requires rows == Restarted(before, if step then done + {ks[i]} else done, now)
    ensures SweepInvariant(before, ks, i + 1, if step then done + {ks[i]} else done,
                           if step then restarted + 1 else restarted, rows, now)
  {
    NextListed(before, ks, i);
  }

  /** After the whole list, the loop's state is the one promised. */
  lemma SweepComplete(before: map<Uuid, AgentRow>, ks: seq<Uuid>, done: set<Uuid>,
                      restarted: nat, rows: map<Uuid, AgentRow>, now: Time)
    requires Distinct(ks) && (forall k :: k in ks ==> k in before)
    requires SweepInvariant(before, ks, |ks|, done, restarted, rows, now)
    ensures SameAgents(before, rows)
    ensures forall k :: k in ks && before[k].autoRestart ==> before[k].enabled
    ensures done == RestartableIn(before, ks) && restarted == |done|
    ensures forall k :: k in done ==> k in before && before[k].enabled
    ensures rows == Restarted(before, done, now)
  {
    assert ks[..|ks|] == ks;
    RestartedSame(before, done, now);
    RestartCountIsSize(before, ks);
    forall k | k in ks && before[k].autoRestart
      ensures before[k].enabled
    {
      var j :| 0 <= j < |ks| && ks[j] == k;
      assert !RestartBlocked(before, ks[j]);
    }
  }

  /** The loop's state when `activate` raises at position `i`. */
  lemma StopHere(before: map<Uuid, AgentRow>, ks: seq<Uuid>, i: nat, done: set<Uuid>,
                 after: map<Uuid, AgentRow>, now: Time)
    requires i < |ks| && Distinct(ks) && ks[i] in before && forall k :: k in ks ==> k in before
    requires done == RestartableIn(before, ks[..i])
    requires forall k :: k in done ==> k in before && before[k].enabled
    requires forall j :: 0 <= j < i ==> !RestartBlocked(before, ks[j])
    requires before[ks[i]].autoRestart && !before[ks[i]].enabled
    requires after == Restarted(before, done, now)[ks[i] := SetError(before[ks[i]], AutoRestartMessage)]
    ensures StoppedAt(before, ks, i, after, now)
    ensures !(forall k :: k in ks && before[k].autoRestart ==> before[k].enabled)
  {
    InterruptedIsRestarted(before, ks, i, done, now);
    assert ks[i] in ks;
  }

  /** The loop's state when `activate` raises is the interrupted sweep. */
  lemma InterruptedIsRestarted(rows: map<Uuid, AgentRow>, ks: seq<Uuid>, stop: nat, done: set<Uuid>, now: Time)
    requires stop < |ks| && Distinct(ks) && ks[stop] in rows
    requires done == RestartableIn(rows, ks[..stop])
    requires forall k :: k in done ==> k in rows && rows[k].enabled
    ensures Restarted(rows, done, now)[ks[stop] := SetError(rows[ks[stop]], AutoRestartMessage)]
            == Interrupted(rows, ks, stop, now)
  {
    RestartableInListed(rows, ks[..stop]);
    assert ks[stop] !in ks[..stop];
  }

  /** The listed agents that restart automatically. */
  function RestartableIn(before: map<Uuid, AgentRow>, s: seq<Uuid>): set<Uuid>
  {
    if s == [] then {}
    else
      var last := s[|s| - 1];
      RestartableIn(before, s[..|s| - 1]) + (if last in before && before[last].autoRestart then {last} else {})
  }

  /** How many listed agents restart automatically, counted in order. */
  function RestartCount(before: map<Uuid, AgentRow>, s: seq<Uuid>): nat
  {
    if s == [] then 0
    else
      var last := s[|s| - 1];
      RestartCount(before, s[..|s| - 1]) + (if last in before && before[last].autoRestart then 1 else 0)
  }

  lemma NextListed(before: map<Uuid, AgentRow>, ks: seq<Uuid>, i: nat)
    requires i < |ks|
    ensures RestartableIn(before, ks[..i + 1])
            == RestartableIn(before, ks[..i]) + (if ks[i] in before && before[ks[i]].autoRestart then {ks[i]} else {})
    ensures RestartCount(before, ks[..i + 1])
            == RestartCount(before, ks[..i]) + (if ks[i] in before && before[ks[i]].autoRestart then 1 else 0)
  {
    assert ks[..i + 1][..i] == ks[..i];
  }

  lemma {:induction false} InRestartable(before: map<Uuid, AgentRow>, s: seq<Uuid>, k: Uuid)
    ensures k in RestartableIn(before, s) <==> k in before && k in s && before[k].autoRestart
    decreases |s|
  {
    if s != [] {
      InRestartable(before, s[..|s| - 1], k);
      assert k in s <==> k in s[..|s| - 1] || k == s[|s| - 1];
    }
  }

  lemma RestartableInListed(before: map<Uuid, AgentRow>, s: seq<Uuid>)
    ensures forall k :: k in RestartableIn(before, s) <==> k in before && k in s && before[k].autoRestart
  {
    forall k
      ensures k in RestartableIn(before, s) <==> k in before && k in s && before[k].autoRestart
    {
      InRestartable(before, s, k);
    }
  }

  /** With the list free of repeats, the count is the size of the set. */
  lemma {:induction false} RestartCountIsSize(before: map<Uuid, AgentRow>, s: seq<Uuid>)
    requires Distinct(s)
    ensures RestartCount(before, s) == |RestartableIn(before, s)|
    decreases |s|
  {
    if s != [] {
      var init := s[..|s| - 1];
      RestartCountIsSize(before, init);
      InRestartable(before, init, s[|s| - 1]);
      assert s[|s| - 1] !in init;
    }
  }

  /** Two states of the table hold the same agents under the same keys,
      with the same ids and names. */
  ghost predicate SameAgents(a: map<Uuid, AgentRow>, b: map<Uuid, AgentRow>)
  {
    a.Keys == b.Keys && forall k :: k in a ==> b[k].id == a[k].id && b[k].name == a[k].name
  }

  lemma SameAgentsTrans(a: map<Uuid, AgentRow>, b: map<Uuid, AgentRow>, c: map<Uuid, AgentRow>)
    requires SameAgents(a, b) && SameAgents(b, c)
    ensures SameAgents(a, c)
  {
  }

  /** Keeping ids and names keeps the table's invariant. */
  lemma SameAgentsValid(a: map<Uuid, AgentRow>, b: map<Uuid, AgentRow>)
    requires SameAgents(a, b)
    requires AgentModel.Keyed(a) && AgentRepository.UniqueNames(a)
    ensures AgentModel.Keyed(b) && AgentRepository.UniqueNames(b)
  {
  }

  /** Restarting writes neither names nor ids. */
  lemma RestartedSame(rows: map<Uuid, AgentRow>, done: set<Uuid>, now: Time)
    requires forall k :: k in done && k in rows ==> rows[k].enabled
    ensures SameAgents(rows, Restarted(rows, done, now))
  {
  }

  lemma RestartKeepsKeys(rows: map<Uuid, AgentRow>, done: set<Uuid>, now: Time)
    requires forall k :: k in done && k in rows ==> rows[k].enabled
    requires AgentModel.Keyed(rows)
    ensures AgentModel.Keyed(Restarted(rows, done, now))
  {
  }
}

=== FILE: averages.dfy ===
/** Sums and means of real-valued samples, as the statistics of the
    repositories compute them with `sum(xs) / len(xs)`. */
module Averages {

  /** `sum(s)`, adding from the left. */
  function Sum(s: seq<real>): real
  {
    if s == [] then 0.0 else Sum(s[..|s| - 1]) + s[|s| - 1]
  }

  /** `sum(s) / len(s)`, or 0 for no samples. */
  function Mean(s: seq<real>): real
  {
    if s == [] then 0.0 else Sum(s) / |s| as real
  }

  /** A sum of samples bounded above and below is bounded by the count. */
  lemma {:induction false} SumBounds(s: seq<real>, lo: real, hi: real)
    requires forall i :: 0 <= i < |s| ==> lo <= s[i] <= hi
    ensures |s| as real * lo <= Sum(s) <= |s| as real * hi
    decreases |s|
  {
    if s != [] {
      SumBounds(s[..|s| - 1], lo, hi);
    }
  }

  /** The mean of samples lies between their bounds; with no samples it is 0. */
  lemma MeanWithinBounds(s: seq<real>, lo: real, hi: real)
    requires forall i :: 0 <= i < |s| ==> lo <= s[i] <= hi
    ensures s != [] ==> lo <= Mean(s) <= hi
    ensures s == [] ==> Mean(s) == 0.0
  {
    if s != [] {
      SumBounds(s, lo, hi);
      var n := |s| as real;
      assert n * lo <= Sum(s) <= n * hi;
      assert Mean(s) * n == Sum(s);
    }
  }
}

=== FILE: base_model.dfy ===
/** The common part of every stored record (agaip/database/models/base.py):
    soft deletion, the free-form metadata dictionary, conversion to a
    dictionary and lookup that hides soft-deleted rows. */
module BaseModel {
  import opened Common
  import Tables
  import opened BaseRepository

  /** A field value as `to_dict` sees it: datetimes and UUIDs are rendered
      as strings, every other value is copied. */
  datatype FieldValue = DateTimeValue(t: Time) | UuidValue(u: Uuid) | PlainValue(j: Json)

  /** The columns every model inherits besides `id` and `created_at`:
      `updated_at`, the soft-deletion pair and the metadata dictionary. */
  datatype BaseColumns = BaseColumns(updatedAt: Time, isDeleted: bool, deletedAt: Option<Time>, metadata: Json)

  /** `datetime.isoformat()` and `str(uuid)` are foreign calls; the model
      takes them as parameters. */
  function Render(v: FieldValue, iso: Time -> string, uuidText: Uuid -> string): Json
  {
    match v
    case DateTimeValue(t) => JStr(iso(t))
    case UuidValue(u) => JStr(uuidText(u))
    case PlainValue(j) => j
  }

  ghost predicate DistinctNames(fields: seq<(string, FieldValue)>)
  {
    forall i, j :: 0 <= i < j < |fields| ==> fields[i].0 != fields[j].0
  }

  /** `to_dict`: one entry per field that is not excluded. */
  method ToDict(fields: seq<(string, FieldValue)>, exclude: seq<string>,
                iso: Time -> string, uuidText: Uuid -> string)
    returns (data: map<string, Json>)
    requires DistinctNames(fields)
    ensures forall name :: name in data <==>
      name !in exclude && exists i :: 0 <= i < |fields| && fields[i].0 == name
    ensures forall i :: 0 <= i < |fields| && fields[i].0 !in exclude ==>
      data[fields[i].0] == Render(fields[i].1, iso, uuidText)
  {
    data := map[];
    var n := 0;
    while n < |fields|
      invariant 0 <= n <= |fields|
      invariant forall name :: name in data <==>
        name !in exclude && exists i :: 0 <= i < n && fields[i].0 == name
      invariant forall i :: 0 <= i < n && fields[i].0 !in exclude ==>
        data[fields[i].0] == Render(fields[i].1, iso, uuidText)
    {
      var (name, value) := fields[n];
      if name !in exclude {
        data := data[name := Render(value, iso, uuidText)];
      }
      n := n + 1;
    }
  }

  /** `get_or_none_by_id`: `get(id=id, is_deleted=False)`, None when absent. */
  function GetOrNoneById<R>(table: map<Uuid, R>, isDeleted: R -> bool, id: Uuid): (r: Option<R>)
    ensures r.Some? <==> id in table && !isDeleted(table[id])
    ensures r.Some? ==> r.value == table[id]
    ensures r.Some? ==> !isDeleted(r.value)
  {
    if id in table && !isDeleted(table[id]) then Some(table[id]) else None
  }

  /** The dictionary after `set_metadata(key, value)`; a None dictionary is
      replaced by an empty one first. */
  function MetadataSet(md: Option<map<string, Json>>, key: string, value: Json): (r: Option<map<string, Json>>)
    ensures r.Some? && key in r.value && r.value[key] == value
    ensures forall k :: k != key ==> (k in r.value <==> md.Some? && k in md.value)
    ensures forall k :: k != key && md.Some? && k in md.value ==> r.value[k] == md.value[k]
  {
    Some(md.GetOr(map[])[key := value])
  }

  /** `get_metadata(key, default)`. */
  function MetadataGet(md: Option<map<string, Json>>, key: string, default: Json): (v: Json)
    ensures md.None? || key !in md.value ==> v == default
    ensures md.Some? && key in md.value ==> v == md.value[key]
  {
    match md
    case None => default
    case Some(m) => if key in m then m[key] else default
  }

  /** `remove_metadata(key)`: whether the key was present, and the dictionary after. */
  function MetadataRemove(md: Option<map<string, Json>>, key: string): (r: (bool, Option<map<string, Json>>))
    ensures r.0 <==> md.Some? && key in md.value
    ensures md.None? ==> r.1 == None
    ensures md.Some? ==> r.1.Some? && r.1.value.Keys == md.value.Keys - {key}
    ensures md.Some? ==> forall k :: k in r.1.value ==> r.1.value[k] == md.value[k]
  {
    match md
    case None => (false, None)
    case Some(m) => if key in m then (true, Some(m - {key})) else (false, md)
  }

  lemma GetAfterSet(md: Option<map<string, Json>>, key: string, other: string, value: Json, default: Json)
    ensures MetadataGet(MetadataSet(md, key, value), key, default) == value
    ensures other != key ==>
      MetadataGet(MetadataSet(md, key, value), other, default) == MetadataGet(md, other, default)
  {
  }

  lemma GetAfterRemove(md: Option<map<string, Json>>, key: string, default: Json)
    ensures MetadataGet(MetadataRemove(md, key).1, key, default) == default
    ensures !MetadataRemove(MetadataRemove(md, key).1, key).0
  {
  }

  /** The stored row of a bare `BaseModel`: its key, creation time,
      soft-deletion pair and metadata. */
  datatype BaseRow = BaseRow(id: Uuid, createdAt: Time, isDeleted: bool, deletedAt: Option<Time>,
                             metadata: Option<map<string, Json>>)

  function Deleted(r: BaseRow): bool { r.isDeleted }

  /** The table after `save(update_fields=["is_deleted", "deleted_at"])` of
      the record `id`: only those two columns of the stored row are written.
      An UPDATE of a key that is not stored matches no row and changes
      nothing. */
  function SavedDeletion(rows: map<Uuid, BaseRow>, id: Uuid, isDeleted: bool, deletedAt: Option<Time>)
    : (r: map<Uuid, BaseRow>)
    ensures r.Keys == rows.Keys
    ensures id in rows ==> r[id] == rows[id].(isDeleted := isDeleted, deletedAt := deletedAt)
    ensures forall k :: k in rows && k != id ==> r[k] == rows[k]
  {
    if id in rows then rows[id := rows[id].(isDeleted := isDeleted, deletedAt := deletedAt)] else rows
  }

  /** `soft_delete` hides the stored record from `get_or_none_by_id`;
      `restore` brings it back with the deletion pair cleared and every
      other column as stored; restoring a record that was live and never
      deleted gives back the table it started from. */
  lemma SoftDeleteThenRestore(rows: map<Uuid, BaseRow>, id: Uuid, now: Time)
    ensures GetOrNoneById(SavedDeletion(rows, id, true, Some(now)), Deleted, id) == None
    ensures var back := SavedDeletion(SavedDeletion(rows, id, true, Some(now)), id, false, None);
      GetOrNoneById(back, Deleted, id)
        == if id in rows then Some(rows[id].(isDeleted := false, deletedAt := None)) else None
    ensures id in rows && !rows[id].isDeleted && rows[id].deletedAt == None ==>
      SavedDeletion(SavedDeletion(rows, id, true, Some(now)), id, false, None) == rows
    ensures forall k :: k != id ==>
      GetOrNoneById(SavedDeletion(rows, id, true, Some(now)), Deleted, k) == GetOrNoneById(rows, Deleted, k)
  {
  }

  /** The fields every model inherits from `BaseModel`. */
  class BaseRecord {
    const id: Uuid
    const createdAt: Time
    var isDeleted: bool
    var deletedAt: Option<Time>
    var metadata: Option<map<string, Json>>

    /** A new record: not deleted, with an empty metadata dictionary. */
    constructor (id: Uuid, now: Time)
      ensures this.id == id && createdAt == now
      ensures !isDeleted && deletedAt == None && metadata == Some(map[])
    {
      this.id := id;
      createdAt := now;
      isDeleted := false;
      deletedAt := None;
      metadata := Some(map[]);
    }

    /** The row this object would store. */
    function Row(): BaseRow
      reads this
    {
      BaseRow(id, createdAt, isDeleted, deletedAt, metadata)
    }

    /** `save(update_fields=["is_deleted", "deleted_at"])`. */
    method SaveDeletion(table: Table<BaseRow>)
      modifies table
      ensures table.rows == SavedDeletion(old(table.rows), id, isDeleted, deletedAt)
    {
      if id in table.rows {
        table.rows := table.rows[id := table.rows[id].(isDeleted := isDeleted, deletedAt := deletedAt)];
      }
    }

    /** `soft_delete()`: marks the object deleted at `now` and saves the
        pair, so the stored record is no longer found by id. */
    method SoftDelete(now: Time, table: Table<BaseRow>)
      modifies this, table
      ensures Row() == old(Row()).(isDeleted := true, deletedAt := Some(now))
      ensures table.rows == SavedDeletion(old(table.rows), id, true, Some(now))
      ensures GetOrNoneById(table.rows, Deleted, id) == None
    {
      isDeleted := true;
      deletedAt := Some(now);
      SaveDeletion(table);
    }

    /** `restore()`: clears the pair and saves it, so a stored record is
        found by id again. */
    method Restore(table: Table<BaseRow>)
      modifies this, table
      ensures Row() == old(Row()).(isDeleted := false, deletedAt := None)
      ensures table.rows == SavedDeletion(old(table.rows), id, false, None)
      ensures id in table.rows ==> GetOrNoneById(table.rows, Deleted, id) == Some(table.rows[id])
    {
      isDeleted := false;
      deletedAt := None;
      SaveDeletion(table);
    }

    method SetMetadata(key: string, value: Json)
      modifies this
      ensures metadata == MetadataSet(old(metadata), key, value)
      ensures isDeleted == old(isDeleted) && deletedAt == old(deletedAt)
    {
      if metadata.None? {
        metadata := Some(map[]);
      }
      metadata := Some(metadata.value[key := value]);
    }

    function GetMetadata(key: string, default: Json): Json
      reads this
    {
      MetadataGet(metadata, key, default)
    }

    method RemoveMetadata(key: string) returns (removed: bool)
      modifies this
      ensures (removed, metadata) == MetadataRemove(old(metadata), key)
      ensures isDeleted == old(isDeleted) && deletedAt == old(deletedAt)
    {
      if metadata.None? {
        return false;
      }
      if key in metadata.value {
        metadata := Some(metadata.value - {key});
        return true;
      }
      return false;
    }
  }
}

=== FILE: base_repository.dfy ===
/** The generic repository (agaip/database/repositories/base.py): CRUD over
    one table, seen as a map from primary key to stored row, plus the
    pagination arithmetic. Every model and repository of the system reads
    and writes its rows through a `Table`. */
module BaseRepository {
  import opened Common
  import opened Tables

  /** The page returned by `paginate`. */
  datatype Page<R> = Page(
    items: seq<R>,
    totalCount: nat,
    page: int,
    pageSize: int,
    totalPages: int,
    hasNext: bool,
    hasPrevious: bool)

  /** `(total_count + page_size - 1) // page_size`: the number of pages of
      `pageSize` rows that hold `total` rows. */
  function TotalPages(total: nat, pageSize: int): (n: nat)
    requires pageSize > 0
    ensures n * pageSize >= total
    ensures (n - 1) * pageSize < total || n == 0
    ensures total == 0 <==> n == 0
  {
    var n := (total + pageSize - 1) / pageSize;
    assert n * pageSize <= total + pageSize - 1 < (n + 1) * pageSize;
    n
  }

  /** The slice `offset(offset).limit(limit)` takes from `s`. */
  function Window<T>(s: seq<T>, offset: nat, limit: nat): (w: seq<T>)
    ensures |w| == Max(0, Min(limit, |s| - offset))
    ensures forall i :: 0 <= i < |w| ==> w[i] == s[offset + i]
  {
    if offset >= |s| then [] else s[offset..Min(offset + limit, |s|)]
  }

  /** `str(e)` of the `ZeroDivisionError` raised by `//` with a zero divisor. */
  const ZeroDivisionText: string := "integer division or modulo by zero"

  /** What the ORM's query set raises for `offset(n)` and `limit(n)` with
      a negative `n`. */
  const NegativeOffsetText: string := "Offset should be non-negative number"
  const NegativeLimitText: string := "Limit should be non-negative number"

  /** One table and the repository bound to its model class. */
  class Table<R(==)> {
    /** `model_class.__name__`, used in error messages. */
    const modelName: string
    var rows: map<Uuid, R>

    constructor (modelName: string)
      ensures this.modelName == modelName && rows == map[]
    {
      this.modelName := modelName;
      rows := map[];
    }

    /** `get_by_id`: the stored row, or None. */
    function GetById(id: Uuid): (r: Option<R>)
      reads this
      ensures r.Some? <==> id in rows
      ensures r.Some? ==> r.value == rows[id]
    {
      if id in rows then Some(rows[id]) else None
    }

    /** `get_by_id_or_raise`: a missing row raises `DatabaseError`. */
    function GetByIdOrRaise(id: Uuid, uuidText: Uuid -> string): (r: Result<R, Exception>)
      reads this
      ensures r.Ok? <==> id in rows
      ensures r.Ok? ==> r.value == rows[id]
      ensures r.Err? ==> r.error == DatabaseError(modelName + " with ID " + uuidText(id) + " not found")
    {
      match GetById(id)
      case Some(row) => Ok(row)
      case None => Err(DatabaseError(modelName + " with ID " + uuidText(id) + " not found"))
    }

    /** `update(id, **fields)`: each `(name, value)` pair is assigned in turn
        with `setattr` (modelled by `assign`), then the whole row is saved.
        Returns the updated row, or None for a missing id. */
    method Update(id: Uuid, fields: seq<(string, Json)>, assign: (R, string, Json) -> R)
      returns (r: Option<R>)
      modifies this
      ensures r.Some? <==> id in old(rows)
      ensures r.None? ==> rows == old(rows)
      ensures r.Some? ==> r.value == AssignAll(old(rows)[id], fields, assign)
                          && rows == old(rows)[id := r.value]
    {
      if id !in rows {
        return None;
      }
      var row := rows[id];
      var i := 0;
      while i < |fields|
        invariant 0 <= i <= |fields|
        invariant AssignAll(row, fields[i..], assign) == AssignAll(old(rows)[id], fields, assign)
      {
        assert fields[i..] == [fields[i]] + fields[i + 1..];
        row := assign(row, fields[i].0, fields[i].1);
        i := i + 1;
      }
      assert fields[i..] == [];
      rows := rows[id := row];
      return Some(row);
    }

    /** `delete(id)`: False for a missing id, otherwise the row is removed. */
    method Delete(id: Uuid) returns (deleted: bool)
      modifies this
      ensures deleted <==> id in old(rows)
      ensures rows == old(rows) - {id}
      ensures id !in rows
    {
      if id !in rows {
        return false;
      }
      rows := rows - {id};
      return true;
    }

    /** `soft_delete(id)`: the model's own `soft_delete` when it has one
        (`softDelete`, given the clock reading), otherwise a hard delete. */
    method SoftDelete(id: Uuid, softDelete: Option<(R, Time) -> R>, now: Time) returns (done: bool)
      modifies this
      ensures done <==> id in old(rows)
      ensures !done ==> rows == old(rows)
      ensures done && softDelete.Some? ==> rows == old(rows)[id := softDelete.value(old(rows)[id], now)]
      ensures done && softDelete.None? ==> rows == old(rows) - {id}
    {
      if id !in rows {
        return false;
      }
      match softDelete {
        case Some(f) => rows := rows[id := f(rows[id], now)];
        case None => rows := rows - {id};
      }
      return true;
    }

    /** `paginate(page, page_size, **filters)`: the rows matching `filter`
        in the order the database returns them (`order`, each matching key
        once), sliced at
        `(page - 1) * page_size`. The query set refuses a negative offset,
        then a negative limit; a zero page size reaches `//` and raises.
        Every failure is re-raised as `DatabaseError`. */
    method Paginate(page: int, pageSize: int, filter: R -> bool)
      returns (res: Result<Page<R>, Exception>, ghost order: seq<Uuid>)
      ensures res.Ok? <==> page >= 1 && pageSize > 0
      ensures (page - 1) * pageSize < 0 ==> res == Err(PaginateFailed(NegativeOffsetText))
      ensures (page - 1) * pageSize >= 0 && pageSize < 0 ==> res == Err(PaginateFailed(NegativeLimitText))
      ensures pageSize == 0 ==> res == Err(PaginateFailed(ZeroDivisionText))
      ensures res.Ok? ==>
        var p := res.value;
        && p.totalCount == CountWhere(rows, filter)
        && p.page == page && p.pageSize == pageSize
        && p.totalPages == TotalPages(p.totalCount, pageSize)
        && (p.hasNext <==> page < p.totalPages)
        && (p.hasPrevious <==> page > 1)
        && |p.items| == Max(0, Min(pageSize, p.totalCount - (page - 1) * pageSize))
        && forall x :: x in p.items ==> filter(x) && x in rows.Values
    ensures forall k :: k in order <==> k in rows && filter(rows[k])
    ensures Distinct(order) && |order| == CountWhere(rows, filter)
    ensures res.Ok? ==> res.value.items == Window(RowsAt(rows, order), (page - 1) * pageSize, pageSize)
    {
      var offset := (page - 1) * pageSize;
      var keys := SelectKeys(rows, filter);
      order := keys;
      var matching := RowsAt(rows, keys);
      var total := |keys|;
      if offset < 0 {
        res := Err(PaginateFailed(NegativeOffsetText));
        return;
      }
      if pageSize < 0 {
        res := Err(PaginateFailed(NegativeLimitText));
        return;
      }
      var items := Window(matching, offset, pageSize);
      if pageSize == 0 {
        res := Err(PaginateFailed(ZeroDivisionText));
        return;
      }
      var totalPages := TotalPages(total, pageSize);
      OffsetSign(page, pageSize);
      WindowMatches(rows, filter, keys, offset, pageSize);
      res := Ok(Page(items, total, page, pageSize, totalPages, page < totalPages, page > 1));
    }

    /** Every row of a window of the matching rows matches and is stored. */
    lemma WindowMatches(rows: map<Uuid, R>, filter: R -> bool, keys: seq<Uuid>, offset: nat, size: nat)
      requires forall k :: k in keys <==> k in rows && filter(rows[k])
      ensures forall x :: x in Window(RowsAt(rows, keys), offset, size) ==> filter(x) && x in rows.Values
    {
      var matching := RowsAt(rows, keys);
      var items := Window(matching, offset, size);
      forall x | x in items ensures filter(x) && x in rows.Values {
        var i :| 0 <= i < |items| && items[i] == x;
        var k := keys[offset + i];
        assert k in keys && items[i] == rows[k];
        assert k in rows && rows[k] in rows.Values;
      }
    }

    function PaginateFailed(cause: string): Exception
    {
      DatabaseError("Failed to paginate " + modelName + ": " + cause)
    }
  }

  /** The row after assigning each pair of `fields` in order. */
  function AssignAll<R>(row: R, fields: seq<(string, Json)>, assign: (R, string, Json) -> R): R
    decreases |fields|
  {
    if fields == [] then row else AssignAll(assign(row, fields[0].0, fields[0].1), fields[1..], assign)
  }

  /** The pairs are applied left to right: one more pair at the end is
      applied to the row the earlier pairs produced, so a field named twice
      keeps the later value. */
  lemma {:induction false} LaterAssignmentWins<R>(row: R, fields: seq<(string, Json)>, extra: (string, Json),
                                                  assign: (R, string, Json) -> R)
    ensures AssignAll(row, fields + [extra], assign) == assign(AssignAll(row, fields, assign), extra.0, extra.1)
    decreases |fields|
  {
    if fields != [] {
      assert (fields + [extra])[1..] == fields[1..] + [extra];
      LaterAssignmentWins(assign(row, fields[0].0, fields[0].1), fields[1..], extra, assign);
    }
  }

  /** Every page but the last holds exactly `pageSize` rows, and no page
      up to the last is empty. */
  lemma PagesCoverRows(total: nat, pageSize: int, page: int)
    requires pageSize > 0 && 1 <= page <= TotalPages(total, pageSize)
    ensures page < TotalPages(total, pageSize) ==> Max(0, Min(pageSize, total - (page - 1) * pageSize)) == pageSize
    ensures Max(0, Min(pageSize, total - (page - 1) * pageSize)) > 0
  {
    var n := TotalPages(total, pageSize);
    if page < n {
      assert page * pageSize <= (n - 1) * pageSize;
    }
    assert (page - 1) * pageSize <= (n - 1) * pageSize;
  }

  /** The pages partition the matching rows: row `i` is item `i % size` of
      page `i / size + 1`, that page is one of the `TotalPages`, and no other
      page's slice reaches index `i`. */
  lemma PageOfRow<T>(matching: seq<T>, pageSize: int, i: nat)
    requires pageSize > 0 && i < |matching|
    ensures var page := i / pageSize + 1;
            var items := Window(matching, (page - 1) * pageSize, pageSize);
            && 1 <= page <= TotalPages(|matching|, pageSize)
            && i % pageSize < |items|
            && items[i % pageSize] == matching[i]
    ensures forall q :: (q - 1) * pageSize <= i < q * pageSize ==> q == i / pageSize + 1
  {
    var d, r := i / pageSize, i % pageSize;
    PageSplit(i, pageSize);
    PageWithinCount(|matching|, pageSize, d, r);
    var items := Window(matching, d * pageSize, pageSize);
    assert (d + 1 - 1) * pageSize == d * pageSize;
    assert r < |items|;
    assert items[r] == matching[d * pageSize + r];
    forall q | (q - 1) * pageSize <= i < q * pageSize
      ensures q == d + 1
    {
      OnlyPage(pageSize, d, r, q);
    }
  }

  /** Row `i` sits `i % size` places into the slice that starts at
      `(i / size) * size`. */
  lemma PageSplit(i: nat, pageSize: int)
    requires pageSize > 0
    ensures i == (i / pageSize) * pageSize + i % pageSize && 0 <= i % pageSize < pageSize
    ensures i / pageSize >= 0
  {
  }

  lemma PageWithinCount(total: nat, pageSize: int, d: nat, r: nat)
    requires pageSize > 0 && r < pageSize && d * pageSize + r < total
    ensures d + 1 <= TotalPages(total, pageSize)
  {
    var n := TotalPages(total, pageSize);
    if n <= d {
      MulLe(n, d, pageSize);
    }
  }

  lemma OnlyPage(pageSize: int, d: nat, r: nat, q: int)
    requires pageSize > 0 && r < pageSize
    requires (q - 1) * pageSize <= d * pageSize + r < q * pageSize
    ensures q == d + 1
  {
    if q <= d {
      MulLe(q, d, pageSize);
    } else if q > d + 1 {
      MulLe(d + 1, q - 1, pageSize);
    }
  }

  /** A positive page size gives a non-negative offset exactly from the
      first page on. */
  lemma OffsetSign(page: int, pageSize: int)
    requires pageSize > 0
    ensures (page - 1) * pageSize >= 0 <==> page >= 1
  {
    if page >= 1 {
      assert (page - 1) * pageSize >= 0;
    } else {
      assert (page - 1) * pageSize <= -pageSize;
    }
  }

  lemma MulLe(a: int, b: int, c: nat)
    requires a <= b
    ensures a * c <= b * c
  {
    assert b * c - a * c == (b - a) * c;
  }
}

=== FILE: common.dfy ===
/** Shared vocabulary of the model: optional values, results, clock readings,
    identifiers, JSON values and raised exceptions. */
module Common {

  datatype Option<+T> = None | Some(value: T) {
    function GetOr(default: T): T {
      match this
      case Some(v) => v
      case None => default
    }
  }

  datatype Result<+T, +E> = Ok(value: T) | Err(error: E)

  /** Outcome of an operation that either returns normally or raises. */
  datatype Outcome<+E> = Pass | Fail(error: E)

  /** A reading of `datetime.utcnow()` / `time.time()`, in whole seconds. */
  type Time = int

  /** A primary key (`uuid.uuid4()` in the source). */
  type Uuid = int

  /** The JSON values stored in `JSONField`s and passed as payloads. */
  datatype Json =
    | JNull
    | JBool(b: bool)
    | JInt(i: int)
    | JReal(r: real)
    | JStr(s: string)
    | JList(items: seq<Json>)
    | JObject(fields: map<string, Json>)

  /** A raised Python exception: `type(e).__name__` and `str(e)`. */
  datatype Exception = Exception(kind: string, message: string)

  function ValidationError(message: string): Exception { Exception("ValidationError", message) }
  function DatabaseError(message: string): Exception { Exception("DatabaseError", message) }

  function ConfigurationError(message: string): Exception { Exception("ConfigurationError", message) }
  function PluginError(message: string): Exception { Exception("PluginError", message) }

  /** What a registry accepts as a key: a string, a class (named by its
      `__name__`) or any other object (named by `str(...)`). */
  datatype TypeRef = Text(text: string) | Class(className: string) | Other(repr: string)

  /** The registry key for a `TypeRef` (`_get_service_name`, `_get_event_name`). */
  function RefName(t: TypeRef): string
  {
    match t
    case Text(s) => s
    case Class(n) => n
    case Other(r) => r
  }

  const SecondsPerMinute: int := 60
  const SecondsPerDay: int := 86400

  function Min(a: int, b: int): int { if a <= b then a else b }
  function Max(a: int, b: int): int { if a >= b then a else b }
}

=== FILE: container.dfy ===
/** The dependency-injection container (agaip/core/container.py): four
    dictionaries keyed by service name. Instances registered directly live
    in `singletons` or `services`, classes and functions in `factories`;
    `aliases` maps a second name to a service name, followed one hop. What
    a factory builds (`_create_instance`, which resolves constructor
    arguments by annotation) is an input to `Resolve`. */
module Container {
  import opened Common

  /** A registered implementation: a class, a plain function, or any other
      object, which may itself be callable. */
  datatype Provider =
    | ClassObj(name: string)
    | FunctionObj(name: string)
    | Instance(id: nat, isCallable: bool)

  /** `inspect.isclass(p) or callable(p)`: what `register` files under
      `factories`. */
  predicate IsFactory(p: Provider)
  {
    p.ClassObj? || p.FunctionObj? || (p.Instance? && p.isCallable)
  }

  /** `if alias:` — a given, non-empty alias. */
  predicate HasAlias(alias: Option<string>)
  {
    alias.Some? && alias.value != ""
  }

  function NotRegistered(name: string): (e: Exception)
    ensures e.kind == "ConfigurationError"
  {
    ConfigurationError("Service '" + name + "' is not registered")
  }

  class Container {
    var services: map<string, Provider>
    var factories: map<string, Provider>
    var singletons: map<string, Provider>
    var aliases: map<string, string>

    constructor()
      ensures services == map[] && factories == map[] && singletons == map[] && aliases == map[]
    {
      services, factories, singletons, aliases := map[], map[], map[], map[];
    }

    /** The service name a reference resolves to: at most one alias hop. */
    function Target(t: TypeRef): (name: string)
      reads this
      ensures RefName(t) !in aliases ==> name == RefName(t)
      ensures RefName(t) in aliases ==> name == aliases[RefName(t)]
    {
      var n := RefName(t);
      if n in aliases then aliases[n] else n
    }

    /** `is_registered(service_type)`. */
    predicate IsRegistered(t: TypeRef)
      reads this
    {
      var n := Target(t);
      n in singletons || n in services || n in factories
    }

    /** What `resolve` returns without building anything: the singleton,
        else the directly registered service. */
    function Cached(t: TypeRef): (p: Option<Provider>)
      reads this
      ensures p.Some? ==> IsRegistered(t)
      ensures Target(t) in singletons ==> p == Some(singletons[Target(t)])
      ensures Target(t) !in singletons && Target(t) in services ==> p == Some(services[Target(t)])
      ensures Target(t) !in singletons && Target(t) !in services ==> p.None?
    {
      var n := Target(t);
      if n in singletons then Some(singletons[n])
      else if n in services then Some(services[n])
      else None
    }

    /** `register(service_type, implementation, singleton, alias)`. */
    method Register(t: TypeRef, impl: Provider, singleton: bool, alias: Option<string>)
      modifies this
      ensures IsFactory(impl) ==>
        factories == old(factories)[RefName(t) := impl] && singletons == old(singletons) && services == old(services)
      ensures !IsFactory(impl) && singleton ==>
        singletons == old(singletons)[RefName(t) := impl] && factories == old(factories) && services == old(services)
      ensures !IsFactory(impl) && !singleton ==>
        services == old(services)[RefName(t) := impl] && factories == old(factories) && singletons == old(singletons)
      ensures aliases == if HasAlias(alias) then old(aliases)[alias.value := RefName(t)] else old(aliases)
      ensures RefName(t) !in aliases || aliases[RefName(t)] == RefName(t) ==> IsRegistered(t)
      ensures HasAlias(alias) ==> IsRegistered(Text(alias.value))
    {
      var name := RefName(t);
      if IsFactory(impl) {
        factories := factories[name := impl];
      } else if singleton {
        singletons := singletons[name := impl];
      } else {
        services := services[name := impl];
      }
      if HasAlias(alias) {
        aliases := aliases[alias.value := name];
      }
    }

    /** `register_singleton(...)`. */
    method RegisterSingleton(t: TypeRef, impl: Provider, alias: Option<string>)
      modifies this
      ensures services == old(services)
      ensures IsFactory(impl) ==> factories == old(factories)[RefName(t) := impl] && singletons == old(singletons)
      ensures !IsFactory(impl) ==> singletons == old(singletons)[RefName(t) := impl] && factories == old(factories)
      ensures aliases == if HasAlias(alias) then old(aliases)[alias.value := RefName(t)] else old(aliases)
    {
      Register(t, impl, true, alias);
    }

    /** `register_transient(...)`: a class or function goes to `factories`
        all the same, never to `services`, so what it builds is cached. */
    method RegisterTransient(t: TypeRef, impl: Provider, alias: Option<string>)
      modifies this
      ensures singletons == old(singletons)
      ensures IsFactory(impl) ==> factories == old(factories)[RefName(t) := impl] && services == old(services)
      ensures !IsFactory(impl) ==> services == old(services)[RefName(t) := impl] && factories == old(factories)
      ensures aliases == if HasAlias(alias) then old(aliases)[alias.value := RefName(t)] else old(aliases)
    {
      Register(t, impl, false, alias);
    }

    /** `register_instance(service_type, instance, alias)`: stored as the
        singleton whatever it is. */
    method RegisterInstance(t: TypeRef, instance: Provider, alias: Option<string>)
      modifies this
      ensures singletons == old(singletons)[RefName(t) := instance]
      ensures services == old(services) && factories == old(factories)
      ensures aliases == if HasAlias(alias) then old(aliases)[alias.value := RefName(t)] else old(aliases)
      ensures RefName(t) !in aliases || aliases[RefName(t)] == RefName(t) ==> Cached(t) == Some(instance)
    {
      var name := RefName(t);
      singletons := singletons[name := instance];
      if HasAlias(alias) {
        aliases := aliases[alias.value := name];
      }
    }

    /** `resolve(service_type)`; `built` is what the factory call yields,
        an instance or the exception it raises. */
    method Resolve(t: TypeRef, built: Result<Provider, Exception>) returns (res: Result<Provider, Exception>)
      modifies this
      ensures services == old(services) && factories == old(factories) && aliases == old(aliases)
      ensures old(Cached(t)).Some? ==> res == Ok(old(Cached(t)).value) && singletons == old(singletons)
      ensures old(Cached(t)).None? && old(Target(t)) in factories ==>
        && res == built
        && singletons == if built.Ok? then old(singletons)[old(Target(t)) := built.value] else old(singletons)
      ensures !old(IsRegistered(t)) ==> res == Err(NotRegistered(old(Target(t)))) && singletons == old(singletons)
      ensures res.Ok? <==> old(IsRegistered(t)) && (old(Cached(t)).Some? || built.Ok?)
      ensures res.Ok? ==> Cached(t) == Some(res.value)
    {
      var name := RefName(t);
      if name in aliases {
        name := aliases[name];
      }
      if name in singletons {
        return Ok(singletons[name]);
      }
      if name in services {
        return Ok(services[name]);
      }
      if name in factories {
        if built.Err? {
          return built;
        }
        if name !in services {
          singletons := singletons[name := built.value];
        }
        return built;
      }
      return Err(NotRegistered(name));
    }

    /** `unregister(service_type)`: drops the alias used and the entries
        of the service it names; True iff there was an entry. */
    method Unregister(t: TypeRef) returns (removed: bool)
      modifies this
      ensures aliases == old(aliases) - {RefName(t)}
      ensures singletons == old(singletons) - {old(Target(t))}
      ensures services == old(services) - {old(Target(t))}
      ensures factories == old(factories) - {old(Target(t))}
      ensures removed <==> old(IsRegistered(t))
    {
      var name := RefName(t);
      if name in aliases {
        var actual := aliases[name];
        aliases := aliases - {name};
        name := actual;
      }
      removed := false;
      if name in singletons {
        singletons := singletons - {name};
        removed := true;
      }
      if name in services {
        services := services - {name};
        removed := true;
      }
      if name in factories {
        factories := factories - {name};
        removed := true;
      }
    }

    /** `clear()`. */
    method Clear()
      modifies this
      ensures services == map[] && factories == map[] && singletons == map[] && aliases == map[]
      ensures forall t :: !IsRegistered(t)
    {
      services, factories, singletons, aliases := map[], map[], map[], map[];
    }
  }

  /** Services are keyed by name alone: a class and the string of its name,
      or two classes that share a name, reach the same entry, so each
      registers over and resolves to whatever the other registered. */
  lemma NameIsTheKey(c: Container, t: TypeRef, u: TypeRef)
    requires RefName(t) == RefName(u)
    ensures c.Target(t) == c.Target(u)
    ensures c.IsRegistered(t) <==> c.IsRegistered(u)
    ensures c.Cached(t) == c.Cached(u)
  {
  }
}

=== FILE: events.dfy ===
/** The event bus (agaip/core/events.py): a table from event names to the
    list of handlers subscribed under them, a middleware chain applied to
    each event before its handlers, a queue of published events and the
    flag that says whether the worker runs. The worker itself, and the
    concurrent dispatch to handlers, are not part of this model. */
module Events {
  import opened Common
  import Lists

  /** An event: its type name (the dataclass name) and its payload. */
  datatype Event = Event(eventType: string, source: Option<string>, data: map<string, Json>)

  /** What `subscribe` is given: a plain callable, or an `EventHandler`
      object, identified by its identity. */
  datatype Subscriber = Callable(id: nat) | HandlerObject(id: nat)

  /** What the table stores: the callable itself, or the bound `handle`
      method of an `EventHandler` (equal for the same object). */
  datatype Handler = Function(id: nat) | BoundHandle(owner: nat)

  function HandlerOf(s: Subscriber): (h: Handler)
    ensures s.Callable? <==> h.Function?
    ensures s.Callable? ==> h == Function(s.id)
    ensures s.HandlerObject? ==> h == BoundHandle(s.id)
  {
    match s
    case Callable(f) => Function(f)
    case HandlerObject(o) => BoundHandle(o)
  }

  /** A middleware: the (possibly modified) event, or None to stop. */
  type Middleware = Event -> Option<Event>

  /** `handlers.get(name, [])`. */
  function Listed(handlers: map<string, seq<Handler>>, name: string): (hs: seq<Handler>)
    ensures name in handlers ==> hs == handlers[name]
    ensures name !in handlers ==> hs == []
  {
    if name in handlers then handlers[name] else []
  }

  /** The event after the middleware `ms` in order, or None once one of
      them has stopped it. */
  function Chain(ms: seq<Middleware>, e: Event): Option<Event>
  {
    if ms == [] then Some(e)
    else
      match Chain(ms[..|ms| - 1], e)
      case None => None
      case Some(x) => ms[|ms| - 1](x)
  }

  /** Once a prefix of the chain has stopped the event, the whole chain
      has: no later middleware sees it. */
  lemma {:induction false} ChainStops(ms: seq<Middleware>, k: nat, e: Event)
    requires k <= |ms|
    requires Chain(ms[..k], e).None?
    ensures Chain(ms, e).None?
    decreases |ms| - k
  {
    if k < |ms| {
      assert ms[..k + 1][..k] == ms[..k];
      assert Chain(ms[..k + 1], e).None?;
      ChainStops(ms, k + 1, e);
    } else {
      assert ms[..k] == ms;
    }
  }

  /** The chain is applied in order: running `ms` then `more` is running
      `ms + more`. */
  lemma {:induction false} ChainAppend(ms: seq<Middleware>, more: seq<Middleware>, e: Event)
    ensures Chain(ms + more, e) == (match Chain(ms, e) case None => None case Some(x) => Chain(more, x))
    decreases |more|
  {
    if more == [] {
      assert ms + more == ms;
    } else {
      var front := more[..|more| - 1];
      assert (ms + more)[..|ms + more| - 1] == ms + front;
      ChainAppend(ms, front, e);
    }
  }

  class EventBus {
    var handlers: map<string, seq<Handler>>
    var middleware: seq<Middleware>
    var running: bool
    var queue: seq<Event>

    constructor()
      ensures handlers == map[] && middleware == [] && !running && queue == []
    {
      handlers, middleware, running, queue := map[], [], false, [];
    }

    /** `get_handler_count(event_type)`. */
    function HandlerCount(t: TypeRef): (n: nat)
      reads this
      ensures RefName(t) !in handlers ==> n == 0
      ensures RefName(t) in handlers ==> n == |handlers[RefName(t)]|
    {
      |Listed(handlers, RefName(t))|
    }

    /** `subscribe(event_type, handler)`: appends, duplicates allowed. */
    method Subscribe(t: TypeRef, s: Subscriber)
      modifies this
      ensures handlers == old(handlers)[RefName(t) := Listed(old(handlers), RefName(t)) + [HandlerOf(s)]]
      ensures middleware == old(middleware) && running == old(running) && queue == old(queue)
      ensures HandlerCount(t) == old(HandlerCount(t)) + 1
      ensures HandlerOf(s) in handlers[RefName(t)]
    {
      var name := RefName(t);
      if name !in handlers {
        handlers := handlers[name := []];
      }
      handlers := handlers[name := handlers[name] + [HandlerOf(s)]];
    }

    /** `unsubscribe(event_type, handler)`: removes the first occurrence. */
    method Unsubscribe(t: TypeRef, s: Subscriber) returns (removed: bool)
      modifies this
      ensures removed <==> RefName(t) in old(handlers) && HandlerOf(s) in old(handlers)[RefName(t)]
      ensures removed ==> handlers == old(handlers)[RefName(t) := Lists.RemoveFirst(old(handlers)[RefName(t)], HandlerOf(s))]
      ensures removed ==> HandlerCount(t) == old(HandlerCount(t)) - 1
      ensures !removed ==> handlers == old(handlers)
      ensures middleware == old(middleware) && running == old(running) && queue == old(queue)
    {
      var name := RefName(t);
      if name !in handlers {
        return false;
      }
      var h := HandlerOf(s);
      if h !in handlers[name] {
        return false;
      }
      handlers := handlers[name := Lists.RemoveFirst(handlers[name], h)];
      return true;
    }

    /** `add_middleware(middleware)`. */
    method AddMiddleware(m: Middleware)
      modifies this
      ensures middleware == old(middleware) + [m]
      ensures handlers == old(handlers) && running == old(running) && queue == old(queue)
    {
      middleware := middleware + [m];
    }

    /** `start()`: sets the flag; a second start changes nothing. */
    method Start()
      modifies this
      ensures running
      ensures handlers == old(handlers) && middleware == old(middleware) && queue == old(queue)
    {
      if running {
        return;
      }
      running := true;
    }

    /** `stop()`: clears the flag; a no-op when the bus is not running. */
    method Stop()
      modifies this
      ensures !running
      ensures handlers == old(handlers) && middleware == old(middleware) && queue == old(queue)
    {
      if !running {
        return;
      }
      running := false;
    }

    /** `publish(event)`: starts the bus if needed, then enqueues. */
    method Publish(e: Event)
      modifies this
      ensures running
      ensures queue == old(queue) + [e]
      ensures handlers == old(handlers) && middleware == old(middleware)
    {
      if !running {
        Start();
      }
      queue := queue + [e];
    }

    /** `clear_handlers(event_type)`: everything for None, else one name. */
    method ClearHandlers(t: Option<TypeRef>)
      modifies this
      ensures t.None? ==> handlers == map[]
      ensures t.Some? ==> handlers == old(handlers) - {RefName(t.value)}
      ensures t.Some? ==> HandlerCount(t.value) == 0
      ensures middleware == old(middleware) && running == old(running) && queue == old(queue)
    {
      if t.None? {
        handlers := map[];
      } else {
        handlers := handlers - {RefName(t.value)};
      }
    }

    /** The middleware loop of `_process_event`: each middleware in turn,
        stopping as soon as one returns None. */
    method RunMiddleware(e: Event) returns (res: Option<Event>)
      ensures res == Chain(middleware, e)
    {
      var current := e;
      var i := 0;
      while i < |middleware|
        invariant 0 <= i <= |middleware|
        invariant Chain(middleware[..i], e) == Some(current)
      {
        assert middleware[..i + 1][..i] == middleware[..i];
        var next := middleware[i](current);
        if next.None? {
          ChainStops(middleware, i + 1, e);
          return None;
        }
        current := next.value;
        i := i + 1;
      }
      assert middleware[..i] == middleware;
      return Some(current);
    }
  }
}

=== FILE: lists.dfy ===
/** Python list helpers shared by the tag and permission lists. */
module Lists {

  predicate NoDuplicates<T(==)>(s: seq<T>)
  {
    forall i, j :: 0 <= i < j < |s| ==> s[i] != s[j]
  }

  /** `list.index(x)`: the position of the first occurrence of `x`. */
  function FirstIndex<T(==)>(s: seq<T>, x: T): (i: nat)
    requires x in s
    ensures i < |s| && s[i] == x && x !in s[..i]
  {
    if s[0] == x then 0
    else
      var j := FirstIndex(s[1..], x);
      assert s[..j + 1] == [s[0]] + s[1..][..j];
      j + 1
  }

  /** `list.remove(x)`: drops the first occurrence of `x`, keeping what
      comes before and after it in order. */
  function RemoveFirst<T(==)>(s: seq<T>, x: T): (r: seq<T>)
    requires x in s
    ensures |r| == |s| - 1
    ensures multiset(r) == multiset(s) - multiset{x}
    ensures r == s[..FirstIndex(s, x)] + s[FirstIndex(s, x) + 1..]
  {
    if s[0] == x then
      assert s == [s[0]] + s[1..];
      s[1..]
    else
      var rest := RemoveFirst(s[1..], x);
      RemoveBehindHead(s, x, rest);
      [s[0]] + rest
  }

  /** Removing `x` behind a head that is not `x`: the head stays in front of
      what removal from the tail leaves. */
  lemma RemoveBehindHead<T>(s: seq<T>, x: T, rest: seq<T>)
    requires x in s && s[0] != x
    requires x in s[1..]
    requires multiset(rest) == multiset(s[1..]) - multiset{x}
    requires rest == s[1..][..FirstIndex(s[1..], x)] + s[1..][FirstIndex(s[1..], x) + 1..]
    ensures multiset([s[0]] + rest) == multiset(s) - multiset{x}
    ensures [s[0]] + rest == s[..FirstIndex(s, x)] + s[FirstIndex(s, x) + 1..]
  {
    assert s == [s[0]] + s[1..];
    var j := FirstIndex(s[1..], x);
    assert FirstIndex(s, x) == j + 1;
    ConsCut(s[0], s[1..], j);
    ConsMinus(s[0], s[1..], x, rest);
  }

  /** Taking `x` out of a tail that holds it commutes with adding a head. */
  lemma ConsMinus<T>(a: T, t: seq<T>, x: T, rest: seq<T>)
    requires x in t
    requires multiset(rest) == multiset(t) - multiset{x}
    ensures multiset([a] + rest) == multiset([a] + t) - multiset{x}
  {
    assert multiset([a] + rest) == multiset{a} + multiset(rest);
    assert multiset([a] + t) == multiset{a} + multiset(t);
    assert x in multiset(t);
  }

  /** Cutting position `j` out of a tail is cutting `j + 1` out of the whole. */
  lemma ConsCut<T>(a: T, t: seq<T>, j: nat)
    requires j < |t|
    ensures [a] + (t[..j] + t[j + 1..]) == ([a] + t)[..j + 1] + ([a] + t)[j + 2..]
  {
    assert ([a] + t)[..j + 1] == [a] + t[..j];
    assert ([a] + t)[j + 2..] == t[j + 1..];
  }

  /** In a list without duplicates, removing an element removes it for good. */
  lemma {:induction false} RemoveFirstFromDistinct<T>(s: seq<T>, x: T)
    requires NoDuplicates(s) && x in s
    ensures x !in RemoveFirst(s, x)
    ensures NoDuplicates(RemoveFirst(s, x))
  {
    DistinctTail(s);
    if s[0] != x {
      var rest := RemoveFirst(s[1..], x);
      RemoveFirstFromDistinct(s[1..], x);
      assert s[0] !in rest by {
        assert s[0] !in multiset(s[1..]);
        assert multiset(rest) <= multiset(s[1..]);
      }
      DistinctCons(s[0], rest);
    }
  }

  lemma DistinctTail<T>(s: seq<T>)
    requires NoDuplicates(s) && s != []
    ensures NoDuplicates(s[1..]) && s[0] !in s[1..]
  {
    forall i, j | 0 <= i < j < |s[1..]| ensures s[1..][i] != s[1..][j] {
      assert s[1..][i] == s[i + 1] && s[1..][j] == s[j + 1];
    }
    forall j | 0 <= j < |s[1..]| ensures s[1..][j] != s[0] {
      assert s[1..][j] == s[j + 1];
    }
  }

  lemma DistinctCons<T>(a: T, rest: seq<T>)
    requires NoDuplicates(rest) && a !in rest
    ensures NoDuplicates([a] + rest)
  {
    var r := [a] + rest;
    forall i, j | 0 <= i < j < |r| ensures r[i] != r[j] {
      assert r[j] == rest[j - 1];
      if i > 0 {
        assert r[i] == rest[i - 1];
      }
    }
  }
}

=== FILE: ordering.dfy ===
/** The ordering the database applies for `order_by(...)` followed by
    `limit(n)`: rows are compared by a key (a sequence of integers compared
    lexicographically, a proper prefix first, the way strings are compared),
    sorted ascending, and the first `n` are returned. A descending column is
    encoded by negating it in the key. */
module Ordering {
  import opened Common

  /** Lexicographic `<=` on integer sequences. */
  predicate LexLe(a: seq<int>, b: seq<int>)
    decreases |a|
  {
    if |a| == 0 then true
    else if |b| == 0 then false
    else if a[0] != b[0] then a[0] < b[0]
    else LexLe(a[1..], b[1..])
  }

  lemma {:induction false} LexLeTotal(a: seq<int>, b: seq<int>)
    ensures LexLe(a, b) || LexLe(b, a)
    decreases |a|
  {
    if |a| > 0 && |b| > 0 && a[0] == b[0] {
      LexLeTotal(a[1..], b[1..]);
    }
  }

  lemma {:induction false} LexLeTransitive(a: seq<int>, b: seq<int>, c: seq<int>)
    requires LexLe(a, b) && LexLe(b, c)
    ensures LexLe(a, c)
    decreases |a|
  {
    if |a| > 0 && |b| > 0 && |c| > 0 && a[0] == b[0] && b[0] == c[0] {
      LexLeTransitive(a[1..], b[1..], c[1..]);
    }
  }

  /** Python and SQL compare strings this way: "ab" < "abc" < "b". */
  function CharCodes(s: string): (r: seq<int>)
    ensures |r| == |s|
    ensures forall i :: 0 <= i < |s| ==> r[i] == s[i] as int
  {
    if s == [] then [] else [s[0] as int] + CharCodes(s[1..])
  }

  ghost predicate SortedBy<T>(s: seq<T>, key: T -> seq<int>)
  {
    forall i, j :: 0 <= i < j < |s| ==> LexLe(key(s[i]), key(s[j]))
  }

  /** Inserts `x` after every element whose key is strictly smaller. */
  function Insert<T>(x: T, s: seq<T>, key: T -> seq<int>): (r: seq<T>)
    requires SortedBy(s, key)
    ensures multiset(r) == multiset(s) + multiset{x}
    ensures SortedBy(r, key)
  {
    if s == [] then [x]
    else if LexLe(key(x), key(s[0])) then
      FrontBelowSorted(x, s, key);
      [x] + s
    else
      var tail := Insert(x, s[1..], key);
      LexLeTotal(key(x), key(s[0]));
      assert s == [s[0]] + s[1..];
      HeadBelowInserted(x, s, tail, key);
      ConsSorted(s[0], tail, key);
      [s[0]] + tail
  }

  /** An element no greater than the head of a sorted sequence can lead it. */
  lemma FrontBelowSorted<T>(x: T, s: seq<T>, key: T -> seq<int>)
    requires SortedBy(s, key) && s != [] && LexLe(key(x), key(s[0]))
    ensures SortedBy([x] + s, key)
  {
    forall j | 0 <= j < |s| ensures LexLe(key(x), key(s[j])) {
      if j > 0 { LexLeTransitive(key(x), key(s[0]), key(s[j])); }
    }
    ConsSorted(x, s, key);
  }

  /** The head of a sorted sequence is no greater than anything in the
      sorted insertion of a larger element into its tail. */
  lemma HeadBelowInserted<T>(x: T, s: seq<T>, tail: seq<T>, key: T -> seq<int>)
    requires SortedBy(s, key) && s != [] && LexLe(key(s[0]), key(x))
    requires multiset(tail) == multiset(s[1..]) + multiset{x}
    ensures forall e :: e in tail ==> LexLe(key(s[0]), key(e))
  {
    forall e | e in tail ensures LexLe(key(s[0]), key(e)) {
      assert e in multiset(tail);
      if e != x {
        assert e in multiset(s[1..]);
        var j :| 0 <= j < |s[1..]| && s[1..][j] == e;
        assert s[j + 1] == e;
      }
    }
  }

  lemma ConsSorted<T>(h: T, tail: seq<T>, key: T -> seq<int>)
    requires SortedBy(tail, key)
    requires forall e :: e in tail ==> LexLe(key(h), key(e))
    ensures SortedBy([h] + tail, key)
  {
    var r := [h] + tail;
    forall i, j | 0 <= i < j < |r| ensures LexLe(key(r[i]), key(r[j])) {
      assert r[j] == tail[j - 1];
      if i > 0 {
        assert r[i] == tail[i - 1];
      } else {
        assert tail[j - 1] in tail;
      }
    }
  }

  /** Insertion sort: a stable ascending sort by `key`. */
  function SortByKey<T>(s: seq<T>, key: T -> seq<int>): (r: seq<T>)
    ensures multiset(r) == multiset(s)
    ensures SortedBy(r, key)
  {
    if s == [] then []
    else
      assert s == [s[0]] + s[1..];
      Insert(s[0], SortByKey(s[1..], key), key)
  }

  /** `order_by(...).limit(n)`: the `n` smallest rows, in key order. */
  function OrderedLimit<T>(s: seq<T>, key: T -> seq<int>, limit: nat): (r: seq<T>)
    ensures |r| == Min(limit, |s|)
    ensures SortedBy(r, key)
    ensures multiset(r) <= multiset(s)
    ensures forall x, y :: x in r && y in multiset(s) - multiset(r) ==> LexLe(key(x), key(y))
  {
    var sorted := SortByKey(s, key);
    var k := Min(limit, |s|);
    assert sorted == sorted[..k] + sorted[k..];
    assert multiset(sorted) == multiset(sorted[..k]) + multiset(sorted[k..]);
    forall x, y | x in sorted[..k] && y in multiset(s) - multiset(sorted[..k])
      ensures LexLe(key(x), key(y))
    {
      assert y in sorted[k..];
      var i :| 0 <= i < k && sorted[i] == x;
      var j :| k <= j < |sorted| && sorted[j] == y;
    }
    sorted[..k]
  }
}

=== FILE: plugin_base.dfy ===
/** The plugin base class (agaip/plugins/base.py). A plugin class is a
    value: its name, whether it derives from `BasePlugin`, the metadata
    attributes it may define, and its `validate_config` override. A plugin
    instance is an object whose `is_loaded` flag follows its lifecycle.
    What a subclass's `load_model` does is an input to `Initialize`. */
module PluginBase {
  import opened Common

  /** A `validate_config` override: a verdict on the instance's config. */
  type ConfigCheck = map<string, Json> -> bool

  datatype PluginClass = PluginClass(
    className: string,
    derivesFromBase: bool,
    version: Option<string>,
    description: Option<string>,
    author: Option<string>,
    validator: Option<ConfigCheck>)

  /** The dictionary returned by `health_check`. */
  datatype Health = Health(status: string, pluginName: string, isLoaded: bool)

  /** The dictionary returned by `get_info`. */
  datatype Info = Info(
    name: string,
    version: string,
    description: string,
    author: string,
    isLoaded: bool,
    config: map<string, Json>)

  const DefaultVersion: string := "1.0.0"
  const DefaultDescription: string := "No description available"
  const DefaultAuthor: string := "Unknown"

  function InvalidConfiguration(name: string): (e: Exception)
    ensures e.kind == "ValueError"
  {
    Exception("ValueError", "Invalid configuration for plugin " + name)
  }

  class BasePlugin {
    const cls: PluginClass
    var config: map<string, Json>
    var isLoaded: bool
    var name: string

    /** `__init__(config)`: `config or {}` (an empty dict and None both
        give {}), not loaded, named after the class. */
    constructor(cls: PluginClass, config: Option<map<string, Json>>)
      ensures this.cls == cls
      ensures this.config == config.GetOr(map[])
      ensures !isLoaded
      ensures name == cls.className
    {
      this.cls := cls;
      this.config := config.GetOr(map[]);
      isLoaded := false;
      name := cls.className;
    }

    /** `validate_config()`: True unless the class overrides it. */
    predicate ValidateConfig()
      reads this
    {
      cls.validator.None? || cls.validator.value(config)
    }

    /** `health_check()`. */
    function HealthCheck(): (h: Health)
      reads this
      ensures h.status == "healthy" <==> isLoaded
      ensures h.status == "not_loaded" <==> !isLoaded
      ensures h.pluginName == name && h.isLoaded == isLoaded
    {
      Health(if isLoaded then "healthy" else "not_loaded", name, isLoaded)
    }

    /** `get_info()`: metadata attributes the class does not define take
        their defaults. */
    function GetInfo(): (i: Info)
      reads this
      ensures cls.version.None? ==> i.version == DefaultVersion
      ensures cls.description.None? ==> i.description == DefaultDescription
      ensures cls.author.None? ==> i.author == DefaultAuthor
      ensures cls.version.Some? ==> i.version == cls.version.value
      ensures cls.description.Some? ==> i.description == cls.description.value
      ensures cls.author.Some? ==> i.author == cls.author.value
      ensures i.name == name && i.isLoaded == isLoaded && i.config == config
    {
      Info(name, cls.version.GetOr(DefaultVersion), cls.description.GetOr(DefaultDescription),
           cls.author.GetOr(DefaultAuthor), isLoaded, config)
    }

    /** `initialize()`: validates, then `load_model` (whose outcome is
        `loadModel`), then marks the plugin loaded. */
    method Initialize(loadModel: Outcome<Exception>) returns (outcome: Outcome<Exception>)
      modifies this
      ensures !ValidateConfig() ==> outcome == Fail(InvalidConfiguration(name))
      ensures ValidateConfig() ==> outcome == loadModel
      ensures outcome.Pass? <==> ValidateConfig() && loadModel.Pass?
      ensures isLoaded == (old(isLoaded) || outcome.Pass?)
      ensures config == old(config) && name == old(name)
    {
      if !ValidateConfig() {
        return Fail(InvalidConfiguration(name));
      }
      if loadModel.Fail? {
        return loadModel;
      }
      isLoaded := true;
      return Pass;
    }

    /** `unload_model()` as `BasePlugin` defines it. */
    method UnloadModel()
      modifies this
      ensures !isLoaded
      ensures config == old(config) && name == old(name)
    {
      isLoaded := false;
    }

    /** `shutdown()`: `unload_model`, then clears the flag. */
    method Shutdown()
      modifies this
      ensures !isLoaded
      ensures config == old(config) && name == old(name)
      ensures HealthCheck().status == "not_loaded"
    {
      UnloadModel();
      isLoaded := false;
    }
  }
}

=== FILE: plugin_loader.dfy ===
/** The plugin registry and the loader functions around it
    (agaip/plugins/loader.py). `_plugins` maps names to plugin classes and
    `_instances` caches one instance per name. Importing a module and
    picking the plugin class in it are inputs to `LoadPlugin`. */
module PluginLoader {
  import opened Common
  import opened PluginBase
  import Tables

  function NotAPlugin(name: string): (e: Exception)
    ensures e.kind == "PluginError"
  {
    PluginError("Plugin " + name + " must inherit from BasePlugin")
  }

  function NoPluginClass(name: string): (e: Exception)
    ensures e.kind == "PluginError"
  {
    PluginError("No valid plugin class found in module agaip.plugins.builtin." + name)
  }

  /** `PluginError(f"Failed to load plugin {name}: {e}")`. */
  function LoadFailed(name: string, cause: Exception): (e: Exception)
    ensures e.kind == "PluginError"
  {
    PluginError("Failed to load plugin " + name + ": " + cause.message)
  }

  class PluginRegistry {
    var plugins: map<string, PluginClass>
    var instances: map<string, BasePlugin>

    /** Every cached instance belongs to a registered name. */
    predicate Valid()
      reads this
    {
      instances.Keys <= plugins.Keys
    }

    constructor()
      ensures plugins == map[] && instances == map[]
      ensures Valid()
    {
      plugins, instances := map[], map[];
    }

    /** `is_registered(name)`. */
    predicate IsRegistered(name: string)
      reads this
    {
      name in plugins
    }

    /** `get_plugin_class(name)`. */
    function GetPluginClass(name: string): (c: Option<PluginClass>)
      reads this
      ensures c.Some? <==> IsRegistered(name)
      ensures c.Some? ==> c.value == plugins[name]
    {
      if name in plugins then Some(plugins[name]) else None
    }

    /** `register(name, cls)`: inserts or overwrites; a class that does not
        derive from `BasePlugin` is refused and nothing changes. */
    method Register(name: string, cls: PluginClass) returns (outcome: Outcome<Exception>)
      requires Valid()
      modifies this
      ensures Valid()
      ensures outcome.Pass? <==> cls.derivesFromBase
      ensures outcome.Fail? ==> outcome.error == NotAPlugin(name) && plugins == old(plugins)
      ensures outcome.Pass? ==> plugins == old(plugins)[name := cls]
      ensures instances == old(instances)
    {
      if !cls.derivesFromBase {
        return Fail(NotAPlugin(name));
      }
      plugins := plugins[name := cls];
      return Pass;
    }

    /** `unregister(name)`: drops the class and any cached instance. */
    method Unregister(name: string) returns (removed: bool)
      requires Valid()
      modifies this
      ensures Valid()
      ensures removed <==> old(IsRegistered(name))
      ensures plugins == old(plugins) - {name}
      ensures instances == old(instances) - {name}
    {
      if name in plugins {
        plugins := plugins - {name};
        if name in instances {
          instances := instances - {name};
        }
        return true;
      }
      return false;
    }

    /** `get_plugin_instance(name, config)`: the cached instance whatever
        the config, else a new instance of the registered class, cached. */
    method GetPluginInstance(name: string, config: Option<map<string, Json>>) returns (p: BasePlugin?)
      requires Valid()
      modifies this
      ensures Valid()
      ensures plugins == old(plugins)
      ensures name in old(instances) ==> p == old(instances)[name] && instances == old(instances)
      ensures name !in old(instances) && name in plugins ==>
        && p != null && fresh(p)
        && p.cls == plugins[name] && p.config == config.GetOr(map[]) && !p.isLoaded
        && instances == old(instances)[name := p]
      ensures p == null <==> !IsRegistered(name)
      ensures p == null ==> instances == old(instances)
    {
      if name in instances {
        return instances[name];
      }
      var cls := GetPluginClass(name);
      if cls.Some? {
        p := new BasePlugin(cls.value, config);
        instances := instances[name := p];
        return p;
      }
      return null;
    }

    /** `list_plugins()`: every registered name, once. */
    method ListPlugins() returns (names: seq<string>)
      ensures forall n :: n in names <==> IsRegistered(n)
      ensures Tables.Distinct(names)
      ensures |names| == |plugins|
    {
      var every := (c: PluginClass) => true;
      names := Tables.SelectKeys(plugins, every);
      Tables.CountByKeys(plugins, every, plugins.Keys);
      assert plugins.Keys * plugins.Keys == plugins.Keys;
    }

    /** `clear()`. */
    method Clear()
      modifies this
      ensures plugins == map[] && instances == map[]
      ensures Valid()
    {
      plugins, instances := map[], map[];
    }
  }

  /** The search found a class that `register` accepts. */
  predicate Usable(found: Result<Option<PluginClass>, Exception>)
  {
    found.Ok? && found.value.Some? && found.value.value.derivesFromBase
  }

  /** Module-level `load_plugin(name)` on the global registry. A name
      already registered returns its class without importing. Otherwise
      `found` is what importing the module and searching it gave: the
      exception raised, no plugin class, or the class found; every failure
      is wrapped as "Failed to load plugin". */
  method LoadPlugin(registry: PluginRegistry, name: string, found: Result<Option<PluginClass>, Exception>)
    returns (res: Result<PluginClass, Exception>)
    requires registry.Valid()
    modifies registry
    ensures registry.Valid()
    ensures registry.instances == old(registry.instances)
    ensures old(registry.IsRegistered(name)) ==>
      res == Ok(old(registry.plugins)[name]) && registry.plugins == old(registry.plugins)
    ensures !old(registry.IsRegistered(name)) && found.Err? ==>
      res == Err(LoadFailed(name, found.error)) && registry.plugins == old(registry.plugins)
    ensures !old(registry.IsRegistered(name)) && found == Ok(None) ==>
      res == Err(LoadFailed(name, NoPluginClass(name))) && registry.plugins == old(registry.plugins)
    ensures res.Ok? <==> old(registry.IsRegistered(name)) || Usable(found)
    ensures res.Ok? ==> registry.IsRegistered(name) && registry.plugins[name] == res.value
    ensures res.Ok? && !old(registry.IsRegistered(name)) ==>
      found == Ok(Some(res.value)) && registry.plugins == old(registry.plugins)[name := res.value]
    ensures res.Err? ==> res.error.kind == "PluginError" && registry.plugins == old(registry.plugins)
  {
    if registry.IsRegistered(name) {
      return Ok(registry.plugins[name]);
    }
    if found.Err? {
      return Err(LoadFailed(name, found.error));
    }
    if found.value.None? {
      return Err(LoadFailed(name, NoPluginClass(name)));
    }
    var cls := found.value.value;
    var registered := registry.Register(name, cls);
    if registered.Fail? {
      return Err(LoadFailed(name, registered.error));
    }
    return Ok(cls);
  }

  /** `create_plugin_instance(name, config)`: loads the plugin when it is
      not registered (a load failure propagates), then gets or creates
      its instance, which cannot then be missing. */
  method CreatePluginInstance(registry: PluginRegistry, name: string, config: Option<map<string, Json>>,
                              found: Result<Option<PluginClass>, Exception>)
    returns (res: Result<BasePlugin, Exception>)
    requires registry.Valid()
    modifies registry
    ensures registry.Valid()
    ensures res.Ok? <==> old(registry.IsRegistered(name)) || Usable(found)
    ensures res.Err? ==> res.error.kind == "PluginError" && registry.plugins == old(registry.plugins)
    ensures res.Ok? ==> registry.IsRegistered(name) && name in registry.instances && registry.instances[name] == res.value
    ensures old(name in registry.instances) ==> res == Ok(old(registry.instances)[name])
  {
    if !registry.IsRegistered(name) {
      var loaded := LoadPlugin(registry, name, found);
      if loaded.Err? {
        return Err(loaded.error);
      }
    }
    var p := registry.GetPluginInstance(name, config);
    if p == null {
      assert false;
    }
    return Ok(p);
  }

  /** Module-level `unload_plugin(name)`. */
  method UnloadPlugin(registry: PluginRegistry, name: string) returns (removed: bool)
    requires registry.Valid()
    modifies registry
    ensures registry.Valid()
    ensures removed <==> old(registry.IsRegistered(name))
    ensures !registry.IsRegistered(name) && name !in registry.instances
  {
    removed := registry.Unregister(name);
  }
}

=== FILE: plugin_service.dfy ===
/** The plugin service (agaip/services/plugin_service.py): the classes it
    has loaded and the configuration given to each plugin, two maps keyed by
    plugin name. Loading and unloading announce themselves on the event bus.
    Importing a plugin module is an input: the module's attributes, or the
    exception the import raised. */
module PluginService {
  import opened Common
  import opened PluginBase
  import Events
  import Tables
  import PluginLoader

  predicate IsUpper(c: char) { 'A' <= c <= 'Z' }
  predicate IsLower(c: char) { 'a' <= c <= 'z' }
  predicate IsCased(c: char) { IsUpper(c) || IsLower(c) }

  function Upper(c: char): char
  {
    if IsLower(c) then (c as int - 32) as char else c
  }

  function Lower(c: char): char
  {
    if IsUpper(c) then (c as int + 32) as char else c
  }

  /** What `str.title()` makes of the character at `i`: upper case at the
      start of a word (after no letter), lower case inside one. */
  function TitleAt(s: string, i: nat): char
    requires i < |s|
  {
    if i > 0 && IsCased(s[i - 1]) then Lower(s[i]) else Upper(s[i])
  }

  /** `str.title()` over ASCII letters. */
  function Title(s: string): (t: string)
    ensures |t| == |s|
    ensures forall i :: 0 <= i < |s| ==> t[i] == TitleAt(s, i)
  {
    if s == [] then []
    else
      var front := s[..|s| - 1];
      assert forall i :: 0 <= i < |front| ==> TitleAt(front, i) == TitleAt(s, i);
      Title(front) + [TitleAt(s, |s| - 1)]
  }

  /** The class `load_plugin` takes from a module: `<Name>Plugin` where
      `<Name>` is the title-cased plugin name, else `Plugin`. */
  function PluginClassIn(name: string, attributes: map<string, PluginClass>): (c: Option<PluginClass>)
    ensures Title(name) + "Plugin" in attributes ==> c == Some(attributes[Title(name) + "Plugin"])
    ensures Title(name) + "Plugin" !in attributes && "Plugin" in attributes ==> c == Some(attributes["Plugin"])
    ensures c.None? <==> Title(name) + "Plugin" !in attributes && "Plugin" !in attributes
  {
    var primary := Title(name) + "Plugin";
    if primary in attributes then Some(attributes[primary])
    else if "Plugin" in attributes then Some(attributes["Plugin"])
    else None
  }

  function ClassNotFound(name: string): Exception
  {
    PluginError("Plugin class not found in " + name)
  }

  /** `PluginLoadedEvent(plugin_name=name)`. The dataclass fields
      `plugin_name` and `plugin_version` (the latter left at its default "")
      are folded into the event's `data` map, under their own names, since
      `Events.Event` has no per-subclass fields; the source's own `data`
      stays empty. */
  function LoadedEvent(name: string): Events.Event
  {
    Events.Event("PluginLoadedEvent", None, map["plugin_name" := JStr(name), "plugin_version" := JStr("")])
  }

  /** `PluginUnloadedEvent(plugin_name=name)`, its field folded into `data`
      the same way. */
  function UnloadedEvent(name: string): Events.Event
  {
    Events.Event("PluginUnloadedEvent", None, map["plugin_name" := JStr(name)])
  }

  /** The plugins `initialize` tries to load, in order. */
  const BuiltinPlugins: seq<string> := ["dummy_model", "openai_plugin", "huggingface_plugin"]

  /** What importing a module gives: its attributes, or what it raised. */
  type Import = Result<map<string, PluginClass>, Exception>

  /** The class a load with this import outcome stores, if any. */
  function Found(name: string, imported: Import): (c: Option<PluginClass>)
    ensures imported.Err? ==> c.None?
  {
    if imported.Err? then None else PluginClassIn(name, imported.value)
  }

  class PluginService {
    var loadedPlugins: map<string, PluginClass>
    var pluginConfigs: map<string, map<string, Json>>
    const bus: Events.EventBus

    constructor(bus: Events.EventBus)
      ensures loadedPlugins == map[] && pluginConfigs == map[] && this.bus == bus
    {
      loadedPlugins, pluginConfigs := map[], map[];
      this.bus := bus;
    }

    /** `load_plugin(name)`: the cached class, else the class the module
        names, stored and announced; failures become "Failed to load". */
    method LoadPlugin(name: string, imported: Import) returns (res: Result<PluginClass, Exception>)
      modifies this, bus
      ensures pluginConfigs == old(pluginConfigs)
      ensures name in old(loadedPlugins) ==>
        res == Ok(old(loadedPlugins)[name]) && loadedPlugins == old(loadedPlugins) && bus.queue == old(bus.queue)
      ensures name !in old(loadedPlugins) && imported.Err? ==>
        res == Err(PluginLoader.LoadFailed(name, imported.error))
      ensures name !in old(loadedPlugins) && imported.Ok? && Found(name, imported).None? ==>
        res == Err(PluginLoader.LoadFailed(name, ClassNotFound(name)))
      ensures name !in old(loadedPlugins) && Found(name, imported).Some? ==>
        && res == Ok(Found(name, imported).value)
        && loadedPlugins == old(loadedPlugins)[name := res.value]
        && bus.queue == old(bus.queue) + [LoadedEvent(name)]
      ensures res.Err? ==> loadedPlugins == old(loadedPlugins) && bus.queue == old(bus.queue)
      ensures res.Ok? ==> name in loadedPlugins && loadedPlugins[name] == res.value
      ensures bus.handlers == old(bus.handlers) && bus.middleware == old(bus.middleware)
    {
      if name in loadedPlugins {
        return Ok(loadedPlugins[name]);
      }
      if imported.Err? {
        return Err(PluginLoader.LoadFailed(name, imported.error));
      }
      var cls := PluginClassIn(name, imported.value);
      if cls.None? {
        return Err(PluginLoader.LoadFailed(name, ClassNotFound(name)));
      }
      loadedPlugins := loadedPlugins[name := cls.value];
      bus.Publish(LoadedEvent(name));
      return Ok(cls.value);
    }

    /** `unload_plugin(name)`: False when not loaded; otherwise forgets
        the class and its configuration and announces it. */
    method UnloadPlugin(name: string) returns (removed: bool)
      modifies this, bus
      ensures removed <==> name in old(loadedPlugins)
      ensures loadedPlugins == old(loadedPlugins) - {name}
      ensures removed ==> pluginConfigs == old(pluginConfigs) - {name} && bus.queue == old(bus.queue) + [UnloadedEvent(name)]
      ensures !removed ==> pluginConfigs == old(pluginConfigs) && bus.queue == old(bus.queue)
      ensures bus.handlers == old(bus.handlers) && bus.middleware == old(bus.middleware)
    {
      if name !in loadedPlugins {
        return false;
      }
      loadedPlugins := loadedPlugins - {name};
      if name in pluginConfigs {
        pluginConfigs := pluginConfigs - {name};
      }
      bus.Publish(UnloadedEvent(name));
      return true;
    }

    /** `reload_plugin(name)`: unload, then load afresh; True iff the load succeeds. */
    method ReloadPlugin(name: string, imported: Import) returns (ok: bool)
      modifies this, bus
      ensures ok <==> Found(name, imported).Some?
      ensures ok ==> loadedPlugins == (old(loadedPlugins) - {name})[name := Found(name, imported).value]
      ensures !ok ==> loadedPlugins == old(loadedPlugins) - {name}
      ensures pluginConfigs == if name in old(loadedPlugins) then old(pluginConfigs) - {name} else old(pluginConfigs)
      ensures bus.queue == old(bus.queue) + (if name in old(loadedPlugins) then [UnloadedEvent(name)] else [])
                                          + (if ok then [LoadedEvent(name)] else [])
      ensures bus.handlers == old(bus.handlers) && bus.middleware == old(bus.middleware)
    {
      var _ := UnloadPlugin(name);
      var res := LoadPlugin(name, imported);
      return res.Ok?;
    }

    /** `get_plugin(name)`. */
    function GetPlugin(name: string): (c: Option<PluginClass>)
      reads this
      ensures c.Some? <==> IsPluginLoaded(name)
      ensures c.Some? ==> c.value == loadedPlugins[name]
    {
      if name in loadedPlugins then Some(loadedPlugins[name]) else None
    }

    /** `is_plugin_loaded(name)`. */
    predicate IsPluginLoaded(name: string)
      reads this
    {
      name in loadedPlugins
    }

    /** `list_loaded_plugins()`: every loaded name, once. */
    method ListLoadedPlugins() returns (names: seq<string>)
      ensures forall n :: n in names <==> IsPluginLoaded(n)
      ensures Tables.Distinct(names)
      ensures |names| == |loadedPlugins|
    {
      var every := (c: PluginClass) => true;
      names := Tables.SelectKeys(loadedPlugins, every);
      Tables.CountByKeys(loadedPlugins, every, loadedPlugins.Keys);
      assert loadedPlugins.Keys * loadedPlugins.Keys == loadedPlugins.Keys;
    }

    /** `check_for_updates()`: visits every loaded plugin and reports none. */
    method CheckForUpdates() returns (updated: seq<string>)
      ensures updated == []
    {
      updated := [];
      var rest := loadedPlugins.Keys;
      while rest != {}
        invariant updated == []
        decreases |rest|
      {
        var name :| name in rest;
        rest := rest - {name};
      }
    }

    /** `get_plugin_config(name)`: {} for a plugin never configured. */
    function GetPluginConfig(name: string): (c: map<string, Json>)
      reads this
      ensures name !in pluginConfigs ==> c == map[]
      ensures name in pluginConfigs ==> c == pluginConfigs[name]
    {
      if name in pluginConfigs then pluginConfigs[name] else map[]
    }

    /** `configure_plugin(name, config)`. */
    method ConfigurePlugin(name: string, config: map<string, Json>)
      modifies this
      ensures pluginConfigs == old(pluginConfigs)[name := config]
      ensures loadedPlugins == old(loadedPlugins)
      ensures GetPluginConfig(name) == config
      ensures forall other :: other != name ==> GetPluginConfig(other) == old(GetPluginConfig(other))
    {
      pluginConfigs := pluginConfigs[name := config];
    }

    /** `_load_builtin_plugins()`: tries each built-in plugin, ignoring
        failures; `modules` gives each one's import outcome. */
    method LoadBuiltinPlugins(modules: string -> Import)
      modifies this, bus
      ensures pluginConfigs == old(pluginConfigs)
      ensures forall n :: n in old(loadedPlugins) ==> n in loadedPlugins && loadedPlugins[n] == old(loadedPlugins)[n]
      ensures forall n :: n !in old(loadedPlugins) ==>
        (n in loadedPlugins <==> n in BuiltinPlugins && Found(n, modules(n)).Some?)
      ensures forall n :: n in loadedPlugins && n !in old(loadedPlugins) ==> loadedPlugins[n] == Found(n, modules(n)).value
    {
      var i := 0;
      while i < |BuiltinPlugins|
        invariant 0 <= i <= |BuiltinPlugins|
        invariant pluginConfigs == old(pluginConfigs)
        invariant forall n :: n in old(loadedPlugins) ==> n in loadedPlugins && loadedPlugins[n] == old(loadedPlugins)[n]
        invariant forall n :: n !in old(loadedPlugins) ==>
          (n in loadedPlugins <==> n in BuiltinPlugins[..i] && Found(n, modules(n)).Some?)
        invariant forall n :: n in loadedPlugins && n !in old(loadedPlugins) ==> loadedPlugins[n] == Found(n, modules(n)).value
      {
        var name := BuiltinPlugins[i];
        assert BuiltinPlugins[..i + 1] == BuiltinPlugins[..i] + [name];
        var _ := LoadPlugin(name, modules(name));
        i := i + 1;
      }
      assert BuiltinPlugins[..i] == BuiltinPlugins;
    }
  }
}

=== FILE: queries.dfy ===
/** `filter(...).order_by(...).limit(n)` over a table: the matching rows,
    sorted by the ordering key, the first `n` of them (or all of them when
    no limit is given). */
module Queries {
  import opened Common
  import opened Tables
  import opened Ordering

  /** The size of the answer: every matching row, capped by the limit. */
  function Capped(count: nat, limit: Option<nat>): nat
  {
    match limit
    case None => count
    case Some(l) => Min(l, count)
  }

  method Query<K, V(==)>(m: map<K, V>, p: V -> bool, key: V -> seq<int>, limit: Option<nat>)
    returns (r: seq<V>)
    ensures |r| == Capped(CountWhere(m, p), limit)
    ensures SortedBy(r, key)
    ensures forall x :: x in r ==> p(x) && x in m.Values
    ensures forall x, k :: x in r && k in m && p(m[k]) && m[k] !in r ==> LexLe(key(x), key(m[k]))
    ensures limit.None? ==> forall k :: k in m && p(m[k]) ==> m[k] in r
    ensures Injective(m) ==> Distinct(r)
  {
    var ks := SelectKeys(m, p);
    var rs := RowsAt(m, ks);
    MatchingRows(m, p, ks);
    var n := if limit.Some? then limit.value else |rs|;
    r := OrderedLimit(rs, key, n);
    NoRowTwice(m, ks, r);
    forall x | x in r ensures x in rs {
      assert x in multiset(rs);
    }
    if limit.None? {
      SameSizeSubMultiset(multiset(r), multiset(rs));
      forall k | k in m && p(m[k]) ensures m[k] in r {
        assert m[k] in multiset(rs);
      }
    }
  }

  /** An answer drawn from the rows at distinct keys repeats no row of an
      injective table. */
  lemma NoRowTwice<K, V>(m: map<K, V>, ks: seq<K>, r: seq<V>)
    requires forall k :: k in ks ==> k in m
    requires Distinct(ks) && multiset(r) <= multiset(RowsAt(m, ks))
    ensures Injective(m) ==> Distinct(r)
  {
    if Injective(m) {
      RowsAtDistinct(m, ks);
      SubMultisetDistinct(r, RowsAt(m, ks));
    }
  }

  /** The rows a complete key listing names are exactly the matching rows. */
  lemma MatchingRows<K, V>(m: map<K, V>, p: V -> bool, ks: seq<K>)
    requires forall k :: k in ks <==> k in m && p(m[k])
    ensures forall x :: x in RowsAt(m, ks) ==> p(x) && x in m.Values
    ensures forall k :: k in m && p(m[k]) ==> m[k] in RowsAt(m, ks)
  {
    var rs := RowsAt(m, ks);
    forall x | x in rs ensures p(x) && x in m.Values {
      var i :| 0 <= i < |rs| && rs[i] == x;
      assert ks[i] in ks;
    }
    forall k | k in m && p(m[k]) ensures m[k] in rs {
      var i :| 0 <= i < |ks| && ks[i] == k;
      assert rs[i] == m[k];
    }
  }

  lemma SameSizeSubMultiset<T>(a: multiset<T>, b: multiset<T>)
    requires a <= b && |a| == |b|
    ensures a == b
  {
    assert b == a + (b - a);
  }
}

=== FILE: rate_limit.dfy ===
/** The fixed-window rate limiter (`RateLimitMiddleware` in
    agaip/api/middleware.py). Requests are counted per client and per
    minute window `⌊time / 60⌋`; entries older than the previous window are
    dropped on every request. Clock readings are real seconds, exact (the
    float rounding of `time.time()` is not modelled), and the downstream
    handler `call_next` is not modelled: an accepted request yields only
    the rate-limit headers it is given. */
module RateLimit {
  import opened Common

  /** The client host, or "unknown" for a request without one. */
  function ClientOf(client: Option<string>): (ip: string)
    ensures client.None? ==> ip == "unknown"
    ensures client.Some? ==> ip == client.value
  {
    client.GetOr("unknown")
  }

  /** `int(t // 60)`. */
  function Window(now: real): (w: int)
    ensures 60.0 * (w as real) <= now < 60.0 * ((w + 1) as real)
  {
    (now / 60.0).Floor
  }

  /** Python's `t % 60` on a float: the offset into the current minute. */
  function Offset(now: real): (r: real)
    ensures 0.0 <= r < 60.0
  {
    now - 60.0 * (Window(now) as real)
  }

  /** `int(x)`: truncation toward zero. */
  function Truncate(x: real): int
  {
    if x >= 0.0 then x.Floor else -((-x).Floor)
  }

  /** The `X-RateLimit-Reset` value: `int(t + (60 - t % 60))`. */
  function ResetAt(now: real): int
  {
    Truncate(now + (60.0 - Offset(now)))
  }

  /** The reset time is the first second of the next window, strictly
      after `now`, and the retry delay is what separates them. */
  lemma ResetIsNextWindow(now: real)
    ensures ResetAt(now) == 60 * (Window(now) + 1)
    ensures now < ResetAt(now) as real
    ensures 0.0 < 60.0 - Offset(now) <= 60.0
    ensures now + (60.0 - Offset(now)) == ResetAt(now) as real
  {
    var w := Window(now);
    var x := now + (60.0 - Offset(now));
    assert x == 60.0 * ((w + 1) as real);
    assert ((w + 1) * 60) as real == x;
    if x >= 0.0 {
      assert x.Floor == (w + 1) * 60;
    } else {
      assert (-x) == (-(w + 1) * 60) as real;
      assert (-x).Floor == -(w + 1) * 60;
    }
  }

  type Counts = map<(string, int), int>

  /** The dictionary comprehension that drops entries from windows
      before `window - 1`. */
  function Pruned(counts: Counts, window: int): (kept: Counts)
    ensures forall k :: k in kept <==> k in counts && k.1 >= window - 1
    ensures forall k :: k in kept ==> kept[k] == counts[k]
  {
    map k | k in counts && k.1 >= window - 1 :: counts[k]
  }

  /** `client_requests.get(key, 0)`. */
  function Get(counts: Counts, key: (string, int)): int
  {
    if key in counts then counts[key] else 0
  }

  /** What `dispatch` answers. Header values are kept as numbers. */
  datatype Response =
    | TooManyRequests(limit: int, retryAfter: real, reset: int)
    | Forwarded(limit: int, remaining: int, reset: int)
  {
    /** The `X-RateLimit-Remaining` header ("0" on a rejection). */
    function Remaining(): int
    {
      if TooManyRequests? then 0 else remaining
    }
  }

  const TooManyRequestsStatus: int := 429

  datatype Request = Request(client: Option<string>, now: real)

  function KeyOf(r: Request): (string, int)
  {
    (ClientOf(r.client), Window(r.now))
  }

  /** One request through the limiter: the new counts and the answer. */
  function Step(counts: Counts, limit: int, r: Request): (res: (Counts, Response))
    ensures var kept := Pruned(counts, Window(r.now));
            var seen := Get(kept, KeyOf(r));
            && (seen >= limit ==> res.0 == kept && res.1.TooManyRequests?)
            && (seen < limit ==> res.0 == kept[KeyOf(r) := seen + 1] && res.1.Forwarded?)
            && res.1.limit == limit
            && res.1.Remaining() == Max(0, limit - (seen + 1))
  {
    var kept := Pruned(counts, Window(r.now));
    var key := KeyOf(r);
    var seen := Get(kept, key);
    if seen >= limit then
      (kept, TooManyRequests(limit, 60.0 - Offset(r.now), ResetAt(r.now)))
    else
      (kept[key := seen + 1], Forwarded(limit, Max(0, limit - (seen + 1)), ResetAt(r.now)))
  }

  /** Every stored count is between 1 and the limit. */
  predicate Bounded(counts: Counts, limit: int)
  {
    forall k :: k in counts ==> 1 <= counts[k] <= limit
  }

  lemma StepBounded(counts: Counts, limit: int, r: Request)
    requires Bounded(counts, limit)
    ensures Bounded(Step(counts, limit, r).0, limit)
  {
  }

  /** The counts after a sequence of requests. */
  function Run(counts: Counts, limit: int, rs: seq<Request>): Counts
    decreases |rs|
  {
    if rs == [] then counts else Run(Step(counts, limit, rs[0]).0, limit, rs[1..])
  }

  /** How many of the requests with key `key` are let through. */
  function AcceptedFor(counts: Counts, limit: int, rs: seq<Request>, key: (string, int)): nat
    decreases |rs|
  {
    if rs == [] then 0
    else
      var step := Step(counts, limit, rs[0]);
      var here := if KeyOf(rs[0]) == key && step.1.Forwarded? then 1 else 0;
      here + AcceptedFor(step.0, limit, rs[1..], key)
  }

  /** Requests arrive in clock order. */
  predicate Chronological(rs: seq<Request>)
  {
    forall i, j :: 0 <= i < j < |rs| ==> rs[i].now <= rs[j].now
  }

  lemma WindowMonotone(a: real, b: real)
    requires a <= b
    ensures Window(a) <= Window(b)
  {
  }

  /** Requests from a later window never count against `key`. */
  lemma {:induction false} NoneAcceptedAfter(counts: Counts, limit: int, rs: seq<Request>, key: (string, int))
    requires forall i :: 0 <= i < |rs| ==> Window(rs[i].now) > key.1
    ensures AcceptedFor(counts, limit, rs, key) == 0
    decreases |rs|
  {
    if rs != [] {
      NoneAcceptedAfter(Step(counts, limit, rs[0]).0, limit, rs[1..], key);
    }
  }

  /** However the requests of a client are spread over time, no window
      lets through more than the limit: what is already counted plus
      what is accepted later stays within it. */
  lemma {:induction false} AtMostLimitPerWindow(counts: Counts, limit: int, rs: seq<Request>, key: (string, int))
    requires Bounded(counts, limit)
    requires Chronological(rs)
    ensures Get(counts, key) + AcceptedFor(counts, limit, rs, key) <= Max(limit, 0)
    decreases |rs|
  {
    if rs != [] {
      var r := rs[0];
      var next := Step(counts, limit, r).0;
      StepBounded(counts, limit, r);
      assert Chronological(rs[1..]) by {
        forall i, j | 0 <= i < j < |rs[1..]| ensures rs[1..][i].now <= rs[1..][j].now {
          assert rs[1..][i] == rs[i + 1] && rs[1..][j] == rs[j + 1];
        }
      }
      if Window(r.now) > key.1 + 1 && key in counts {
        assert key !in next;
        forall i | 0 <= i < |rs[1..]| ensures Window(rs[1..][i].now) > key.1 {
          assert rs[1..][i] == rs[i + 1];
          WindowMonotone(r.now, rs[i + 1].now);
        }
        NoneAcceptedAfter(next, limit, rs[1..], key);
      } else {
        AtMostLimitPerWindow(next, limit, rs[1..], key);
        if KeyOf(r) != key {
          assert Get(next, key) == Get(counts, key);
        }
      }
    }
  }

  /** From a fresh limiter: at most `limit` requests per client and window. */
  lemma AtMostLimitFromStart(limit: int, rs: seq<Request>, key: (string, int))
    requires Chronological(rs)
    ensures AcceptedFor(map[], limit, rs, key) <= Max(limit, 0)
  {
    AtMostLimitPerWindow(map[], limit, rs, key);
  }

  class RateLimitMiddleware {
    const requestsPerMinute: int
    var clientRequests: Counts

    constructor(requestsPerMinute: int)
      ensures this.requestsPerMinute == requestsPerMinute
      ensures clientRequests == map[]
    {
      this.requestsPerMinute := requestsPerMinute;
      clientRequests := map[];
    }

    predicate Valid()
      reads this
    {
      Bounded(clientRequests, requestsPerMinute)
    }

    /** `dispatch(request, call_next)` for a request from `client` at `now`. */
    method Dispatch(client: Option<string>, now: real) returns (resp: Response)
      requires Valid()
      modifies this
      ensures Valid()
      ensures (clientRequests, resp) == Step(old(clientRequests), requestsPerMinute, Request(client, now))
      ensures resp.TooManyRequests? <==>
        Get(old(clientRequests), (ClientOf(client), Window(now))) >= requestsPerMinute
      ensures resp.TooManyRequests? ==> clientRequests == Pruned(old(clientRequests), Window(now))
      ensures resp.Forwarded? ==>
        clientRequests[(ClientOf(client), Window(now))] == Get(old(clientRequests), (ClientOf(client), Window(now))) + 1
      ensures resp.reset == 60 * (Window(now) + 1)
    {
      var ip := ClientOf(client);
      var window := Window(now);
      clientRequests := map k | k in clientRequests && k.1 >= window - 1 :: clientRequests[k];
      var key := (ip, window);
      var current := if key in clientRequests then clientRequests[key] else 0;
      ResetIsNextWindow(now);
      if current >= requestsPerMinute {
        return TooManyRequests(requestsPerMinute, 60.0 - Offset(now), ResetAt(now));
      }
      clientRequests := clientRequests[key := current + 1];
      var remaining := requestsPerMinute - (current + 1);
      return Forwarded(requestsPerMinute, Max(0, remaining), ResetAt(now));
    }
  }
}

=== FILE: tables.dfy ===
/** Queries over a table held as a map from primary key to row: the
    `filter(...)` of the ORM returns every matching row exactly once, in an
    order the database chooses. */
module Tables {
  import opened Common

  ghost predicate Distinct<T>(s: seq<T>)
  {
    forall i, j :: 0 <= i < j < |s| ==> s[i] != s[j]
  }

  /** `Model.filter(p)`: the keys of exactly the rows satisfying `p`, each once. */
  method SelectKeys<K, V>(m: map<K, V>, p: V -> bool) returns (ks: seq<K>)
    ensures forall k :: k in ks <==> k in m && p(m[k])
    ensures Distinct(ks)
    ensures |ks| == CountWhere(m, p)
  {
    ks := [];
    ghost var chosen: set<K> := {};
    var rest := m.Keys;
    while rest != {}
      invariant rest <= m.Keys
      invariant forall k :: k in ks <==> k in m && k !in rest && p(m[k])
      invariant chosen == set k | k in m && k !in rest && p(m[k])
      invariant |ks| == |chosen|
      invariant Distinct(ks)
      decreases |rest|
    {
      var k :| k in rest;
      if p(m[k]) {
        assert k !in chosen;
        chosen := chosen + {k};
        ks := ks + [k];
      }
      rest := rest - {k};
    }
    assert chosen == set k | k in m && p(m[k]);
  }

  /** `get(field=value)` on a unique column: a matching key, if any. */
  method FindOne<K, V>(m: map<K, V>, p: V -> bool) returns (k: Option<K>)
    ensures k.None? ==> forall j :: j in m ==> !p(m[j])
    ensures k.Some? ==> k.value in m && p(m[k.value])
  {
    var ks := SelectKeys(m, p);
    if ks == [] {
      return None;
    }
    assert ks[0] in ks;
    return Some(ks[0]);
  }

  /** The rows stored under the given keys, in the same order. */
  function RowsAt<K, V>(m: map<K, V>, ks: seq<K>): (rows: seq<V>)
    requires forall k :: k in ks ==> k in m
    ensures |rows| == |ks|
    ensures forall i :: 0 <= i < |ks| ==> rows[i] == m[ks[i]]
  {
    seq(|ks|, i requires 0 <= i < |ks| => m[ks[i]])
  }

  /** Distinct keys hold distinct rows: true of every table whose rows
      carry their own primary key. */
  ghost predicate Injective<K, V>(m: map<K, V>)
  {
    forall j, k :: j in m && k in m && m[j] == m[k] ==> j == k
  }

  /** The rows at distinct keys of an injective table are distinct. */
  lemma RowsAtDistinct<K, V>(m: map<K, V>, ks: seq<K>)
    requires forall k :: k in ks ==> k in m
    requires Distinct(ks) && Injective(m)
    ensures Distinct(RowsAt(m, ks))
  {
    var rows := RowsAt(m, ks);
    forall i, j | 0 <= i < j < |rows| ensures rows[i] != rows[j] {
      assert ks[i] != ks[j] && ks[i] in ks && ks[j] in ks;
    }
  }

  /** In a sequence without repeats every value occurs at most once. */
  lemma {:induction false} DistinctOccursOnce<T>(s: seq<T>, x: T)
    requires Distinct(s)
    ensures multiset(s)[x] <= 1
  {
    if s != [] {
      var init, last := s[..|s| - 1], s[|s| - 1];
      assert s == init + [last];
      assert Distinct(init) by {
        forall i, j | 0 <= i < j < |init| ensures init[i] != init[j] {
          assert init[i] == s[i] && init[j] == s[j];
        }
      }
      DistinctOccursOnce(init, x);
      assert last !in init by {
        forall i | 0 <= i < |init| ensures init[i] != last {
          assert init[i] == s[i];
        }
      }
    }
  }

  /** A value found at two positions occurs at least twice. */
  lemma RepeatOccursTwice<T>(s: seq<T>, i: nat, j: nat)
    requires i < j < |s|
    ensures s[i] == s[j] ==> multiset(s)[s[i]] >= 2
  {
    assert s == s[..i] + [s[i]] + s[i + 1..j] + [s[j]] + s[j + 1..];
  }

  /** What a sequence without repeats holds, any sub-collection of it holds
      without repeats too. */
  lemma SubMultisetDistinct<T>(r: seq<T>, s: seq<T>)
    requires multiset(r) <= multiset(s) && Distinct(s)
    ensures Distinct(r)
  {
    forall i, j | 0 <= i < j < |r| ensures r[i] != r[j] {
      DistinctOccursOnce(s, r[i]);
      RepeatOccursTwice(r, i, j);
    }
  }

  /** `Model.filter(p).count()`. */
  function CountWhere<K, V>(m: map<K, V>, p: V -> bool): nat
  {
    |set k | k in m && p(m[k])|
  }

  /** Counting rows of two disjoint kinds counts the rows of either kind. */
  lemma CountSplit<K, V>(m: map<K, V>, p: V -> bool, q: V -> bool, either: V -> bool)
    requires forall v :: either(v) <==> p(v) || q(v)
    requires forall v :: !(p(v) && q(v))
    ensures CountWhere(m, either) == CountWhere(m, p) + CountWhere(m, q)
  {
    var a := set k | k in m && p(m[k]);
    var b := set k | k in m && q(m[k]);
    assert (set k | k in m && either(m[k])) == a + b;
    assert a * b == {};
  }

  /** A narrower filter counts no more rows. */
  lemma CountMonotone<K, V>(m: map<K, V>, p: V -> bool, q: V -> bool)
    requires forall v :: p(v) ==> q(v)
    ensures CountWhere(m, p) <= CountWhere(m, q)
  {
    var a := set k | k in m && p(m[k]);
    var b := set k | k in m && q(m[k]);
    assert b == a + (b - a);
  }

  /** A filter that holds exactly at the keys of `ks` counts the stored
      keys among them. */
  lemma CountByKeys<K, V>(m: map<K, V>, p: V -> bool, ks: set<K>)
    requires forall k :: k in m ==> (p(m[k]) <==> k in ks)
    ensures CountWhere(m, p) == |m.Keys * ks|
  {
    assert (set k | k in m && p(m[k])) == m.Keys * ks;
  }
}

=== FILE: task_model.dfy ===
/** A loaded `Task` object (agaip/database/models/task.py): its fields are
    rewritten in place by the transition methods, which then save the
    object back to the `tasks` table. A transition that raises writes
    neither the object nor the table. */
module TaskModel {
  import opened Common
  import TaskRecord
  import opened BaseRepository
  import Tables

  /** Every stored row carries the key it is stored under. */
  ghost predicate Keyed(rows: map<Uuid, TaskRecord.TaskRow>)
  {
    forall k :: k in rows ==> rows[k].id == k
  }

  /** Rows that carry their keys are distinct rows. */
  lemma KeyedInjective(rows: map<Uuid, TaskRecord.TaskRow>)
    ensures Keyed(rows) ==> Tables.Injective(rows)
  {
    if Keyed(rows) {
      forall j, k | j in rows && k in rows && rows[j] == rows[k] ensures j == k {
        assert rows[j].id == j && rows[k].id == k;
      }
    }
  }

  class Task {
    const id: Uuid
    var name: string
    var description: Option<string>
    var agentId: string
    var payload: Json
    var result: Json
    var errorMessage: Option<string>
    var errorType: Option<string>
    var status: TaskRecord.TaskStatus
    var priority: TaskRecord.TaskPriority
    var queuedAt: Option<Time>
    var startedAt: Option<Time>
    var completedAt: Option<Time>
    var timeoutAt: Option<Time>
    var durationSeconds: Option<int>
    var retryCount: int
    var maxRetries: int
    var parentTask: Option<Uuid>
    var createdBy: Option<Uuid>
    var createdAt: Time

    /** The row this object would store. */
    function Row(): TaskRecord.TaskRow
      reads this
    {
      TaskRecord.TaskRow(id, name, description, agentId, payload, result, errorMessage, errorType,
                         status, priority, queuedAt, startedAt, completedAt, timeoutAt,
                         durationSeconds, retryCount, maxRetries, parentTask, createdBy, createdAt)
    }

    /** The object the ORM builds when it loads `r`. */
    constructor FromRow(r: TaskRecord.TaskRow)
      ensures Row() == r
    {
      id := r.id;
      name, description, agentId, payload, result := r.name, r.description, r.agentId, r.payload, r.result;
      errorMessage, errorType, status, priority := r.errorMessage, r.errorType, r.status, r.priority;
      queuedAt, startedAt, completedAt, timeoutAt := r.queuedAt, r.startedAt, r.completedAt, r.timeoutAt;
      durationSeconds, retryCount, maxRetries := r.durationSeconds, r.retryCount, r.maxRetries;
      parentTask, createdBy, createdAt := r.parentTask, r.createdBy, r.createdAt;
    }

    /** `save()`: the table now stores this object's row. */
    method Save(table: Table<TaskRecord.TaskRow>)
      modifies table
      ensures table.rows == old(table.rows)[id := Row()]
    {
      table.rows := table.rows[id := Row()];
    }

    /** The duration a terminal transition at `now` leaves in the object. */
    method StampDuration(now: Time)
      modifies this
      ensures durationSeconds == TaskRecord.DurationAt(old(Row()), now)
      ensures Row() == old(Row()).(durationSeconds := durationSeconds)
    {
      if startedAt.Some? {
        durationSeconds := Some(now - startedAt.value);
      }
    }

    /** `start_processing()`. */
    method StartProcessing(now: Time, table: Table<TaskRecord.TaskRow>) returns (outcome: Outcome<Exception>)
      modifies this, table
      ensures outcome == TaskRecord.OutcomeOf(TaskRecord.StartProcessing(old(Row()), now))
      ensures Row() == TaskRecord.RowAfter(TaskRecord.StartProcessing(old(Row()), now), old(Row()))
      ensures table.rows == if outcome.Pass? then old(table.rows)[id := Row()] else old(table.rows)
    {
      if status != TaskRecord.Queued {
        return Fail(ValidationError("Task must be queued to start processing"));
      }
      status := TaskRecord.Processing;
      startedAt := Some(now);
      Save(table);
      return Pass;
    }

    /** `complete_successfully(result)`. */
    method CompleteSuccessfully(value: Json, now: Time, table: Table<TaskRecord.TaskRow>)
      returns (outcome: Outcome<Exception>)
      modifies this, table
      ensures outcome == TaskRecord.OutcomeOf(TaskRecord.CompleteSuccessfully(old(Row()), value, now))
      ensures Row() == TaskRecord.RowAfter(TaskRecord.CompleteSuccessfully(old(Row()), value, now), old(Row()))
      ensures table.rows == if outcome.Pass? then old(table.rows)[id := Row()] else old(table.rows)
    {
      if status != TaskRecord.Processing {
        return Fail(ValidationError("Task must be processing to complete"));
      }
      MarkCompleted(value, now);
      Save(table);
      return Pass;
    }

    /** The field writes of `complete_successfully` once its guard has passed. */
    method MarkCompleted(value: Json, now: Time)
      requires status == TaskRecord.Processing
      modifies this
      ensures Row() == TaskRecord.CompleteSuccessfully(old(Row()), value, now).value
    {
      StampDuration(now);
      status := TaskRecord.Completed;
      completedAt := Some(now);
      result := value;
    }

    /** `fail_with_error(error_message, error_type)`. */
    method FailWithError(message: string, kind: Option<string>, now: Time, table: Table<TaskRecord.TaskRow>)
      returns (outcome: Outcome<Exception>)
      modifies this, table
      ensures outcome == TaskRecord.OutcomeOf(TaskRecord.FailWithError(old(Row()), message, kind, now))
      ensures Row() == TaskRecord.RowAfter(TaskRecord.FailWithError(old(Row()), message, kind, now), old(Row()))
      ensures table.rows == if outcome.Pass? then old(table.rows)[id := Row()] else old(table.rows)
    {
      if status != TaskRecord.Processing && status != TaskRecord.Queued {
        return Fail(ValidationError("Task must be processing or queued to fail"));
      }
      MarkFailed(message, kind, now);
      Save(table);
      return Pass;
    }

    /** The field writes of `fail_with_error` once its guard has passed. */
    method MarkFailed(message: string, kind: Option<string>, now: Time)
      requires status == TaskRecord.Processing || status == TaskRecord.Queued
      modifies this
      ensures Row() == TaskRecord.FailWithError(old(Row()), message, kind, now).value
    {
      StampDuration(now);
      status := TaskRecord.Failed;
      completedAt := Some(now);
      errorMessage := Some(message);
      errorType := kind;
    }

    /** `cancel()`. */
    method Cancel(now: Time, table: Table<TaskRecord.TaskRow>) returns (outcome: Outcome<Exception>)
      modifies this, table
      ensures outcome == TaskRecord.OutcomeOf(TaskRecord.Cancel(old(Row()), now))
      ensures Row() == TaskRecord.RowAfter(TaskRecord.Cancel(old(Row()), now), old(Row()))
      ensures table.rows == if outcome.Pass? then old(table.rows)[id := Row()] else old(table.rows)
    {
      if status == TaskRecord.Completed || status == TaskRecord.Failed || status == TaskRecord.Cancelled {
        return Fail(ValidationError("Cannot cancel a finished task"));
      }
      StampDuration(now);
      status := TaskRecord.Cancelled;
      completedAt := Some(now);
      Save(table);
      return Pass;
    }

    /** `queue_for_retry()`: False without a write once the retries are spent. */
    method QueueForRetry(now: Time, table: Table<TaskRecord.TaskRow>) returns (res: Result<bool, Exception>)
      modifies this, table
      ensures var spec := TaskRecord.QueueForRetry(old(Row()), now);
        && (res.Ok? <==> spec.Ok?)
        && (res.Ok? ==> res.value == spec.value.0 && Row() == spec.value.1)
        && (res.Err? ==> res.error == spec.error && Row() == old(Row()))
      ensures table.rows == if res == Ok(true) then old(table.rows)[id := Row()] else old(table.rows)
    {
      if retryCount >= maxRetries {
        return Ok(false);
      }
      if status != TaskRecord.Failed {
        return Err(ValidationError("Only failed tasks can be retried"));
      }
      ghost var before := Row();
      MarkQueued(now);
      assert Row() == TaskRecord.QueueForRetry(before, now).value.1;
      Save(table);
      return Ok(true);
    }

    /** The field writes of `queue_for_retry` once both checks have passed. */
    method MarkQueued(now: Time)
      requires retryCount < maxRetries && status == TaskRecord.Failed
      modifies this
      ensures Row() == old(Row()).(status := TaskRecord.Queued, retryCount := old(retryCount) + 1,
                                   queuedAt := Some(now), errorMessage := None, errorType := None)
    {
      status := TaskRecord.Queued;
      retryCount := retryCount + 1;
      queuedAt := Some(now);
      errorMessage := None;
      errorType := None;
    }
  }

  /** Loads the row stored under `id` as a fresh object, or None. */
  method Load(table: Table<TaskRecord.TaskRow>, id: Uuid) returns (t: Task?)
    ensures t == null <==> id !in table.rows
    ensures t != null ==> fresh(t) && t.Row() == table.rows[id]
    ensures t != null && Keyed(table.rows) ==> t.id == id
  {
    if id !in table.rows {
      return null;
    }
    t := new Task.FromRow(table.rows[id]);
  }
}

=== FILE: task_record.dfy ===
/** The task life cycle (agaip/database/models/task.py) as rules over one
    stored row: each transition either raises before writing anything or
    returns the row with exactly its fields rewritten. */
module TaskRecord {
  import opened Common

  datatype TaskStatus = Pending | Queued | Processing | Completed | Failed | Cancelled | Timeout

  datatype TaskPriority = Low | Normal | High | Critical

  /** One row of the `tasks` table. `result` is `JNull` when unset;
      `durationSeconds` is in whole seconds because clock readings are. */
  datatype TaskRow = TaskRow(
    id: Uuid,
    name: string,
    description: Option<string>,
    agentId: string,
    payload: Json,
    result: Json,
    errorMessage: Option<string>,
    errorType: Option<string>,
    status: TaskStatus,
    priority: TaskPriority,
    queuedAt: Option<Time>,
    startedAt: Option<Time>,
    completedAt: Option<Time>,
    timeoutAt: Option<Time>,
    durationSeconds: Option<int>,
    retryCount: int,
    maxRetries: int,
    parentTask: Option<Uuid>,
    createdBy: Option<Uuid>,
    createdAt: Time)

  /** `is_finished`. */
  predicate IsFinished(s: TaskStatus)
  {
    s == Completed || s == Failed || s == Cancelled || s == Timeout
  }

  /** `is_successful`. */
  predicate IsSuccessful(s: TaskStatus)
  {
    s == Completed
  }

  /** `has_retries_left`. */
  predicate HasRetriesLeft(r: TaskRow)
  {
    r.retryCount < r.maxRetries
  }

  /** The value `duration_seconds` takes at a terminal transition made at
      `completedAt`: recomputed when the task was started, kept otherwise. */
  function DurationAt(r: TaskRow, completedAt: Time): (d: Option<int>)
    ensures r.startedAt.Some? ==> d == Some(completedAt - r.startedAt.value)
    ensures r.startedAt.None? ==> d == r.durationSeconds
  {
    match r.startedAt
    case Some(s) => Some(completedAt - s)
    case None => r.durationSeconds
  }

  /** `start_processing`. */
  function StartProcessing(r: TaskRow, now: Time): (res: Result<TaskRow, Exception>)
    ensures res.Ok? <==> r.status == Queued
    ensures res.Err? ==> res.error == ValidationError("Task must be queued to start processing")
    ensures res.Ok? ==> res.value.status == Processing && res.value.startedAt == Some(now)
    ensures res.Ok? ==> res.value.(status := r.status, startedAt := r.startedAt) == r
  {
    if r.status != Queued then Err(ValidationError("Task must be queued to start processing"))
    else Ok(r.(status := Processing, startedAt := Some(now)))
  }

  /** `complete_successfully(result)`. */
  function CompleteSuccessfully(r: TaskRow, result: Json, now: Time): (res: Result<TaskRow, Exception>)
    ensures res.Ok? <==> r.status == Processing
    ensures res.Err? ==> res.error == ValidationError("Task must be processing to complete")
    ensures res.Ok? ==> res.value.status == Completed && res.value.result == result
                        && res.value.completedAt == Some(now)
                        && res.value.durationSeconds == DurationAt(r, now)
    ensures res.Ok? ==> res.value.(status := r.status, result := r.result, completedAt := r.completedAt,
                                   durationSeconds := r.durationSeconds) == r
  {
    if r.status != Processing then Err(ValidationError("Task must be processing to complete"))
    else Ok(r.(status := Completed, completedAt := Some(now), result := result,
               durationSeconds := DurationAt(r, now)))
  }

  /** `fail_with_error(error_message, error_type)`. */
  function FailWithError(r: TaskRow, message: string, errorType: Option<string>, now: Time)
    : (res: Result<TaskRow, Exception>)
    ensures res.Ok? <==> r.status == Processing || r.status == Queued
    ensures res.Err? ==> res.error == ValidationError("Task must be processing or queued to fail")
    ensures res.Ok? ==> res.value.status == Failed && res.value.completedAt == Some(now)
                        && res.value.errorMessage == Some(message) && res.value.errorType == errorType
                        && res.value.durationSeconds == DurationAt(r, now)
    ensures res.Ok? ==> res.value.(status := r.status, completedAt := r.completedAt,
                                   errorMessage := r.errorMessage, errorType := r.errorType,
                                   durationSeconds := r.durationSeconds) == r
  {
    if r.status != Processing && r.status != Queued then
      Err(ValidationError("Task must be processing or queued to fail"))
    else
      Ok(r.(status := Failed, completedAt := Some(now), errorMessage := Some(message),
            errorType := errorType, durationSeconds := DurationAt(r, now)))
  }

  /** `cancel`: refused only from COMPLETED, FAILED and CANCELLED. */
  function Cancel(r: TaskRow, now: Time): (res: Result<TaskRow, Exception>)
    ensures res.Err? <==> r.status == Completed || r.status == Failed || r.status == Cancelled
    ensures res.Err? ==> res.error == ValidationError("Cannot cancel a finished task")
    ensures res.Ok? ==> res.value.status == Cancelled && res.value.completedAt == Some(now)
                        && res.value.durationSeconds == DurationAt(r, now)
    ensures res.Ok? ==> res.value.(status := r.status, completedAt := r.completedAt,
                                   durationSeconds := r.durationSeconds) == r
  {
    if r.status == Completed || r.status == Failed || r.status == Cancelled then
      Err(ValidationError("Cannot cancel a finished task"))
    else
      Ok(r.(status := Cancelled, completedAt := Some(now), durationSeconds := DurationAt(r, now)))
  }

  /** `queue_for_retry`: exhaustion is checked before the status, so an
      exhausted task answers False whatever its status. */
  function QueueForRetry(r: TaskRow, now: Time): (res: Result<(bool, TaskRow), Exception>)
    ensures r.retryCount >= r.maxRetries ==> res == Ok((false, r))
    ensures r.retryCount < r.maxRetries && r.status != Failed ==>
      res == Err(ValidationError("Only failed tasks can be retried"))
    ensures res.Ok? && res.value.0 <==> r.retryCount < r.maxRetries && r.status == Failed
    ensures res.Ok? && res.value.0 ==>
      var q := res.value.1;
      q.status == Queued && q.retryCount == r.retryCount + 1 && q.queuedAt == Some(now)
      && q.errorMessage == None && q.errorType == None
      && q.(status := r.status, retryCount := r.retryCount, queuedAt := r.queuedAt,
            errorMessage := r.errorMessage, errorType := r.errorType) == r
  {
    if r.retryCount >= r.maxRetries then Ok((false, r))
    else if r.status != Failed then Err(ValidationError("Only failed tasks can be retried"))
    else Ok((true, r.(status := Queued, retryCount := r.retryCount + 1, queuedAt := Some(now),
                      errorMessage := None, errorType := None)))
  }

  /** The repository's `queue_task` on a loaded row: PENDING -> QUEUED only. */
  function QueuePending(r: TaskRow, now: Time): (res: Option<TaskRow>)
    ensures res.Some? <==> r.status == Pending
    ensures res.Some? ==> res.value == r.(status := Queued, queuedAt := Some(now))
  {
    if r.status == Pending then Some(r.(status := Queued, queuedAt := Some(now))) else None
  }

  /** The row after an operation that may have raised: unchanged if it did. */
  function RowAfter(res: Result<TaskRow, Exception>, r: TaskRow): TaskRow
  {
    if res.Ok? then res.value else r
  }

  function OutcomeOf<T>(res: Result<T, Exception>): Outcome<Exception>
  {
    if res.Ok? then Pass else Fail(res.error)
  }

  // ---------------------------------------------------------------------
  // Sequences of life-cycle operations on one task.

  datatype LifecycleOp =
    | QueueOp(at: Time)
    | StartOp(at: Time)
    | CompleteOp(result: Json, at: Time)
    | FailOp(message: string, errorType: Option<string>, at: Time)
    | CancelOp(at: Time)
    | RetryOp(at: Time)

  /** One operation; one that raises or refuses leaves the row as it was. */
  function Step(r: TaskRow, op: LifecycleOp): TaskRow
  {
    match op
    case QueueOp(t) => QueuePending(r, t).GetOr(r)
    case StartOp(t) => RowAfter(StartProcessing(r, t), r)
    case CompleteOp(v, t) => RowAfter(CompleteSuccessfully(r, v, t), r)
    case FailOp(m, e, t) => RowAfter(FailWithError(r, m, e, t), r)
    case CancelOp(t) => RowAfter(Cancel(r, t), r)
    case RetryOp(t) => var q := QueueForRetry(r, t); if q.Ok? then q.value.1 else r
  }

  function Run(r: TaskRow, ops: seq<LifecycleOp>): TaskRow
    decreases |ops|
  {
    if ops == [] then r else Run(Step(r, ops[0]), ops[1..])
  }

  /** How many operations of the run were retries that returned True. */
  function RetriesGranted(r: TaskRow, ops: seq<LifecycleOp>): nat
    decreases |ops|
  {
    if ops == [] then 0
    else
      var granted := ops[0].RetryOp? && r.retryCount < r.maxRetries && r.status == Failed;
      (if granted then 1 else 0) + RetriesGranted(Step(r, ops[0]), ops[1..])
  }

  /** The edges a stored status can move along. */
  predicate Edge(from: TaskStatus, to: TaskStatus)
  {
    || (from == Pending && to == Queued)
    || (from == Queued && to == Processing)
    || (from == Processing && to == Completed)
    || ((from == Processing || from == Queued) && to == Failed)
    || ((from == Pending || from == Queued || from == Processing || from == Timeout) && to == Cancelled)
    || (from == Failed && to == Queued)
  }

  /** Every operation that changes a row moves its status along an edge. */
  lemma StepFollowsEdge(r: TaskRow, op: LifecycleOp)
    ensures Step(r, op) != r ==> Edge(r.status, Step(r, op).status)
  {
  }

  /** A task that reached COMPLETED or CANCELLED is never changed again:
      no late result can overwrite a cancellation. */
  lemma {:induction false} CompletedAndCancelledAreFinal(r: TaskRow, ops: seq<LifecycleOp>)
    requires r.status == Completed || r.status == Cancelled
    ensures Run(r, ops) == r
    decreases |ops|
  {
    if ops != [] {
      assert Step(r, ops[0]) == r;
      CompletedAndCancelledAreFinal(r, ops[1..]);
    }
  }

  /** Retries never push `retry_count` above `max_retries`, and along any
      run the number of granted retries is the growth of `retry_count`. */
  lemma {:induction false} RetriesAreBounded(r: TaskRow, ops: seq<LifecycleOp>)
    requires r.retryCount <= r.maxRetries
    ensures Run(r, ops).maxRetries == r.maxRetries
    ensures Run(r, ops).retryCount == r.retryCount + RetriesGranted(r, ops)
    ensures Run(r, ops).retryCount <= r.maxRetries
    decreases |ops|
  {
    if ops != [] {
      var next := Step(r, ops[0]);
      assert next.maxRetries == r.maxRetries;
      assert next.retryCount == r.retryCount + (if ops[0].RetryOp? && r.retryCount < r.maxRetries && r.status == Failed then 1 else 0);
      RetriesAreBounded(next, ops[1..]);
    }
  }

  /** A fresh task (retry_count 0) is granted at most `max_retries` retries. */
  lemma FreshTaskRetriesAtMostMax(r: TaskRow, ops: seq<LifecycleOp>)
    requires r.retryCount == 0 && r.maxRetries >= 0
    ensures RetriesGranted(r, ops) <= r.maxRetries
  {
    RetriesAreBounded(r, ops);
  }

  /** The finished states are the ones start, completion and failure refuse. */
  lemma FinishedTasksDoNotRun(r: TaskRow, now: Time, v: Json, m: string, e: Option<string>)
    requires IsFinished(r.status)
    ensures StartProcessing(r, now).Err?
    ensures CompleteSuccessfully(r, v, now).Err?
    ensures FailWithError(r, m, e, now).Err?
    ensures Cancel(r, now).Ok? <==> r.status == Timeout
    ensures QueueForRetry(r, now).Ok? && QueueForRetry(r, now).value.0 ==> r.status == Failed
  {
    assert r.status != Queued && r.status != Processing;
  }
}

=== FILE: task_repository.dfy ===
/** The task repository (agaip/database/repositories/task.py): creation,
    the queue step, the ordered getters, the timeout and clean-up sweeps,
    the statistics and the bulk retry, over the `tasks` table. */
module TaskRepository {
  import opened Common
  import opened Tables
  import opened Ordering
  import opened Queries
  import opened Averages
  import opened BaseRepository
  import opened TaskRecord
  import TaskModel

  // ---------------------------------------------------------------------
  // Creation and the queue step.

  /** The row `create_task` stores: PENDING, with a deadline only when
      `timeout_seconds` is truthy (neither None nor 0). */
  function NewTask(id: Uuid, name: string, agentId: string, payload: Json, priority: TaskPriority,
                   maxRetries: int, timeoutSeconds: Option<int>, parent: Option<Uuid>,
                   createdBy: Option<Uuid>, description: Option<string>, now: Time): (r: TaskRow)
    ensures r.id == id && r.name == name && r.agentId == agentId && r.payload == payload
    ensures r.status == Pending && r.priority == priority && r.maxRetries == maxRetries && r.retryCount == 0
    ensures r.timeoutAt.Some? <==> timeoutSeconds.Some? && timeoutSeconds.value != 0
    ensures r.timeoutAt.Some? ==> r.timeoutAt.value == now + timeoutSeconds.value
    ensures r.queuedAt == None && r.startedAt == None && r.completedAt == None && r.durationSeconds == None
    ensures r.parentTask == parent && r.createdBy == createdBy && r.createdAt == now
  {
    var deadline := if timeoutSeconds.Some? && timeoutSeconds.value != 0 then Some(now + timeoutSeconds.value) else None;
    TaskRow(id, name, description, agentId, payload, JNull, None, None, Pending, priority,
            None, None, None, deadline, None, 0, maxRetries, parent, createdBy, now)
  }

  /** A new task must be queued before it can start, and it can be
      queued, failed by nothing and cancelled. */
  lemma NewTaskMustBeQueuedFirst(id: Uuid, name: string, agentId: string, payload: Json, priority: TaskPriority,
                                 maxRetries: int, timeoutSeconds: Option<int>, parent: Option<Uuid>,
                                 createdBy: Option<Uuid>, description: Option<string>, now: Time, later: Time)
    ensures var r := NewTask(id, name, agentId, payload, priority, maxRetries, timeoutSeconds, parent,
                             createdBy, description, now);
      && !IsFinished(r.status)
      && StartProcessing(r, later).Err?
      && QueuePending(r, later).Some?
      && StartProcessing(QueuePending(r, later).value, later).Ok?
      && Cancel(r, later).Ok?
  {
  }

  /** `create_task(...)`: stores the new row under a fresh key. */
  method CreateTask(table: Table<TaskRow>, id: Uuid, name: string, agentId: string, payload: Json,
                    priority: TaskPriority, maxRetries: int, timeoutSeconds: Option<int>,
                    parent: Option<Uuid>, createdBy: Option<Uuid>, description: Option<string>, now: Time)
    returns (task: TaskRow)
    requires id !in table.rows
    modifies table
    ensures task == NewTask(id, name, agentId, payload, priority, maxRetries, timeoutSeconds, parent,
                            createdBy, description, now)
    ensures table.rows == old(table.rows)[id := task]
  {
    task := NewTask(id, name, agentId, payload, priority, maxRetries, timeoutSeconds, parent,
                    createdBy, description, now);
    table.rows := table.rows[id := task];
  }

  /** `queue_task(task_id)`: PENDING -> QUEUED with `queued_at` stamped;
      any other task, or a missing one, answers False and nothing changes. */
  method QueueTask(table: Table<TaskRow>, id: Uuid, now: Time) returns (queued: bool)
    requires TaskModel.Keyed(table.rows)
    modifies table
    ensures queued <==> id in old(table.rows) && old(table.rows)[id].status == Pending
    ensures !queued ==> table.rows == old(table.rows)
    ensures queued ==> table.rows == old(table.rows)[id := QueuePending(old(table.rows)[id], now).value]
  {
    var task := TaskModel.Load(table, id);
    if task != null && task.status == Pending {
      task.status := Queued;
      task.queuedAt := Some(now);
      task.Save(table);
      return true;
    }
    return false;
  }

  // ---------------------------------------------------------------------
  // Filters and orderings.

  /** `if agent_id: queryset.filter(agent_id=agent_id)`: an absent or
      empty agent id filters nothing. */
  predicate AgentMatches(agent: Option<string>, r: TaskRow)
  {
    agent.None? || agent.value == "" || r.agentId == agent.value
  }

  /** The stored priority strings. */
  function PriorityText(p: TaskPriority): string
  {
    match p
    case Low => "low"
    case Normal => "normal"
    case High => "high"
    case Critical => "critical"
  }

  /** The position of the stored priority string in string order:
      "critical" < "high" < "low" < "normal". */
  function StoredRank(p: TaskPriority): int
  {
    match p
    case Critical => 0
    case High => 1
    case Low => 2
    case Normal => 3
  }

  /** `order_by("-priority")` compares the stored strings, so the rank
      above is exactly their order. */
  lemma StoredRankIsStringOrder(a: TaskPriority, b: TaskPriority)
    ensures StoredRank(a) <= StoredRank(b) <==> LexLe(CharCodes(PriorityText(a)), CharCodes(PriorityText(b)))
  {
    var ca, cb := CharCodes(PriorityText(a)), CharCodes(PriorityText(b));
    assert ca[0] == PriorityText(a)[0] as int && cb[0] == PriorityText(b)[0] as int;
    if a == b {
      LexLeReflexive(ca);
    }
  }

  lemma {:induction false} LexLeReflexive(a: seq<int>)
    ensures LexLe(a, a)
    decreases |a|
  {
    if a != [] {
      LexLeReflexive(a[1..]);
    }
  }

  /** An ascending sort key for a nullable time: NULL sorts first, as in
      SQLite, the default database. */
  function Ascending(t: Option<Time>): seq<int>
  {
    match t
    case None => [0]
    case Some(v) => [1, v]
  }

  /** A descending sort key for a nullable time: NULL sorts last. */
  function Descending(t: Option<Time>): seq<int>
  {
    match t
    case None => [1]
    case Some(v) => [0, -v]
  }

  /** `order_by("-priority", "created_at")`. */
  function PendingKey(r: TaskRow): seq<int>
  {
    [-StoredRank(r.priority), r.createdAt]
  }

  /** `order_by("-priority", "queued_at")`. */
  function QueuedKey(r: TaskRow): seq<int>
  {
    [-StoredRank(r.priority)] + Ascending(r.queuedAt)
  }

  function WithStatus(s: TaskStatus, agent: Option<string>): TaskRow -> bool
  {
    (r: TaskRow) => r.status == s && AgentMatches(agent, r)
  }

  /** Among pending tasks of the same creation time, "normal" is served
      before "critical": the order is the stored strings' order. */
  lemma NormalBeforeCritical(a: TaskRow, b: TaskRow)
    requires a.priority == Normal && b.priority == Critical
    ensures LexLe(PendingKey(a), PendingKey(b)) && !LexLe(PendingKey(b), PendingKey(a))
  {
  }

  /** `get_pending_tasks(agent_id, limit)`. */
  method GetPendingTasks(table: Table<TaskRow>, agent: Option<string>, limit: nat) returns (tasks: seq<TaskRow>)
    ensures |tasks| == Min(limit, CountWhere(table.rows, WithStatus(Pending, agent)))
    ensures forall t :: t in tasks ==> t.status == Pending && AgentMatches(agent, t) && t in table.rows.Values
    ensures SortedBy(tasks, PendingKey)
    ensures forall t, k :: (t in tasks && k in table.rows && WithStatus(Pending, agent)(table.rows[k])
                           && table.rows[k] !in tasks) ==> LexLe(PendingKey(t), PendingKey(table.rows[k]))
    ensures TaskModel.Keyed(table.rows) ==> Distinct(tasks)
  {
    tasks := Query(table.rows, WithStatus(Pending, agent), PendingKey, Some(limit));
    TaskModel.KeyedInjective(table.rows);
  }

  /** `get_queued_tasks(agent_id, limit)`. */
  method GetQueuedTasks(table: Table<TaskRow>, agent: Option<string>, limit: nat) returns (tasks: seq<TaskRow>)
    ensures |tasks| == Min(limit, CountWhere(table.rows, WithStatus(Queued, agent)))
    ensures forall t :: t in tasks ==> t.status == Queued && AgentMatches(agent, t) && t in table.rows.Values
    ensures SortedBy(tasks, QueuedKey)
    ensures forall t, k :: (t in tasks && k in table.rows && WithStatus(Queued, agent)(table.rows[k])
                           && table.rows[k] !in tasks) ==> LexLe(QueuedKey(t), QueuedKey(table.rows[k]))
    ensures TaskModel.Keyed(table.rows) ==> Distinct(tasks)
  {
    tasks := Query(table.rows, WithStatus(Queued, agent), QueuedKey, Some(limit));
    TaskModel.KeyedInjective(table.rows);
  }

  function StartedKey(r: TaskRow): seq<int>
  {
    Ascending(r.startedAt)
  }

  /** `get_processing_tasks(agent_id)`: all of them, by `started_at`. */
  method GetProcessingTasks(table: Table<TaskRow>, agent: Option<string>) returns (tasks: seq<TaskRow>)
    ensures |tasks| == CountWhere(table.rows, WithStatus(Processing, agent))
    ensures forall t :: t in tasks ==> t.status == Processing && AgentMatches(agent, t) && t in table.rows.Values
    ensures forall k :: k in table.rows && WithStatus(Processing, agent)(table.rows[k]) ==> table.rows[k] in tasks
    ensures SortedBy(tasks, StartedKey)
    ensures TaskModel.Keyed(table.rows) ==> Distinct(tasks)
  {
    tasks := Query(table.rows, WithStatus(Processing, agent), StartedKey, None);
    TaskModel.KeyedInjective(table.rows);
  }

  function CompletedKey(r: TaskRow): seq<int>
  {
    Descending(r.completedAt)
  }

  /** The exception raised where `models.F` is evaluated: the module never
      imports a name `models`. */
  const UndefinedModels: Exception := Exception("NameError", "name 'models' is not defined")

  /** `get_failed_tasks(agent_id, retryable_only, limit)`, newest first.
      Asking for retryable tasks only evaluates `models.F` and raises. */
  method GetFailedTasks(table: Table<TaskRow>, agent: Option<string>, retryableOnly: bool, limit: nat)
    returns (res: Result<seq<TaskRow>, Exception>)
    ensures res.Err? <==> retryableOnly
    ensures res.Err? ==> res.error == UndefinedModels
    ensures res.Ok? ==> |res.value| == Min(limit, CountWhere(table.rows, WithStatus(Failed, agent)))
    ensures res.Ok? ==> forall t :: t in res.value ==> t.status == Failed && AgentMatches(agent, t) && t in table.rows.Values
    ensures res.Ok? ==> SortedBy(res.value, CompletedKey)
    ensures res.Ok? ==> forall t, k :: (t in res.value && k in table.rows && WithStatus(Failed, agent)(table.rows[k])
                                        && table.rows[k] !in res.value) ==> LexLe(CompletedKey(t), CompletedKey(table.rows[k]))
    ensures res.Ok? && TaskModel.Keyed(table.rows) ==> Distinct(res.value)
  {
    if retryableOnly {
      return Err(UndefinedModels);
    }
    var tasks := Query(table.rows, WithStatus(Failed, agent), CompletedKey, Some(limit));
    TaskModel.KeyedInjective(table.rows);
    return Ok(tasks);
  }

  function NewestFirst(r: TaskRow): seq<int>
  {
    [-r.createdAt]
  }

  function CreatedBy(user: Uuid, status: Option<TaskStatus>): TaskRow -> bool
  {
    (r: TaskRow) => r.createdBy == Some(user) && (status.None? || r.status == status.value)
  }

  /** `get_tasks_by_user(user_id, status, limit)`, newest first. */
  method GetTasksByUser(table: Table<TaskRow>, user: Uuid, status: Option<TaskStatus>, limit: nat)
    returns (tasks: seq<TaskRow>)
    ensures |tasks| == Min(limit, CountWhere(table.rows, CreatedBy(user, status)))
    ensures forall t :: t in tasks ==> t.createdBy == Some(user) && (status.None? || t.status == status.value)
    ensures forall t :: t in tasks ==> t in table.rows.Values
    ensures SortedBy(tasks, NewestFirst)
    ensures forall t, k :: (t in tasks && k in table.rows && CreatedBy(user, status)(table.rows[k])
                           && table.rows[k] !in tasks) ==> table.rows[k].createdAt <= t.createdAt
    ensures TaskModel.Keyed(table.rows) ==> Distinct(tasks)
  {
    tasks := Query(table.rows, CreatedBy(user, status), NewestFirst, Some(limit));
    TaskModel.KeyedInjective(table.rows);
  }

  function OldestFirst(r: TaskRow): seq<int>
  {
    [r.createdAt]
  }

  function ChildOf(parent: Uuid): TaskRow -> bool
  {
    (r: TaskRow) => r.parentTask == Some(parent)
  }

  /** `get_subtasks(parent_task_id)`: every child, oldest first. */
  method GetSubtasks(table: Table<TaskRow>, parent: Uuid) returns (tasks: seq<TaskRow>)
    ensures forall t :: t in tasks ==> t.parentTask == Some(parent) && t in table.rows.Values
    ensures forall k :: k in table.rows && table.rows[k].parentTask == Some(parent) ==> table.rows[k] in tasks
    ensures |tasks| == CountWhere(table.rows, ChildOf(parent))
    ensures forall i, j :: 0 <= i < j < |tasks| ==> tasks[i].createdAt <= tasks[j].createdAt
    ensures TaskModel.Keyed(table.rows) ==> Distinct(tasks)
  {
    tasks := Query(table.rows, ChildOf(parent), OldestFirst, None);
    TaskModel.KeyedInjective(table.rows);
    forall i, j | 0 <= i < j < |tasks| ensures tasks[i].createdAt <= tasks[j].createdAt {
      assert LexLe(OldestFirst(tasks[i]), OldestFirst(tasks[j]));
    }
  }

  // ---------------------------------------------------------------------
  // The timeout and clean-up sweeps.

  /** Selected by `get_timed_out_tasks` at `now`: PROCESSING with a
      deadline already passed (a NULL deadline never compares). */
  predicate TimedOut(r: TaskRow, now: Time)
  {
    r.status == Processing && r.timeoutAt.Some? && r.timeoutAt.value < now
  }

  /** `get_timed_out_tasks()`: exactly the timed-out tasks, each once. */
  method GetTimedOutTasks(table: Table<TaskRow>, now: Time) returns (ids: seq<Uuid>)
    ensures forall k :: k in ids <==> k in table.rows && TimedOut(table.rows[k], now)
    ensures Distinct(ids)
    ensures |ids| == CountWhere(table.rows, TimedOutAt(now))
  {
    ids := SelectKeys(table.rows, TimedOutAt(now));
  }

  function TimedOutAt(now: Time): TaskRow -> bool
  {
    (r: TaskRow) => TimedOut(r, now)
  }

  /** A timed-out task is still running, so it can be failed or cancelled. */
  lemma TimedOutTasksCanBeFailed(r: TaskRow, now: Time, message: string, kind: Option<string>)
    requires TimedOut(r, now)
    ensures FailWithError(r, message, kind, now).Ok? && Cancel(r, now).Ok?
    ensures FailWithError(r, message, kind, now).value.durationSeconds == DurationAt(r, now)
  {
  }

  /** Removed by `cleanup_old_tasks(days_old)`: finished as COMPLETED,
      FAILED or CANCELLED (not TIMEOUT) before the cut-off. */
  predicate OldTask(r: TaskRow, cutoff: Time)
  {
    (r.status == Completed || r.status == Failed || r.status == Cancelled)
    && r.completedAt.Some? && r.completedAt.value < cutoff
  }

  function OldBefore(cutoff: Time): TaskRow -> bool
  {
    (r: TaskRow) => OldTask(r, cutoff)
  }

  /** The keys of the old tasks. */
  function OldKeys(rows: map<Uuid, TaskRow>, cutoff: Time): (s: set<Uuid>)
    ensures forall k :: k in s <==> k in rows && OldTask(rows[k], cutoff)
  {
    set k | k in rows && OldTask(rows[k], cutoff)
  }

  /** `cleanup_old_tasks(days_old)`: deletes the old tasks one by one and
      returns how many there were. Each `delete()` also removes, through
      the `ON DELETE CASCADE` of `parent_task`, every stored subtask below
      the deleted task; a task a previous cascade already removed deletes
      nothing more and still counts. */
  method CleanupOldTasks(table: Table<TaskRow>, days: int, now: Time) returns (count: nat)
    modifies table
    ensures count == CountWhere(old(table.rows), OldBefore(now - days * SecondsPerDay))
    ensures table.rows == Cleaned(old(table.rows), now - days * SecondsPerDay)
    ensures forall k :: k in table.rows <==>
      k in old(table.rows) && !InSubtree(old(table.rows), k, OldKeys(old(table.rows), now - days * SecondsPerDay))
  {
    var cutoff := now - days * SecondsPerDay;
    var stale := SelectKeys(table.rows, OldBefore(cutoff));
    ghost var before := table.rows;
    count := |stale|;
    ghost var done: set<Uuid> := {};
    PrunedNothing(before);
    var i := 0;
    while i < |stale|
      invariant 0 <= i <= |stale|
      invariant forall k :: k in done <==> k in stale[..i]
      invariant table.rows == Pruned(before, done)
    {
      var k := stale[i];
      assert stale[..i + 1] == stale[..i] + [k];
      ghost var current := table.rows;
      table.rows := CascadeDelete(table.rows, k);
      assert table.rows == Pruned(current, {k});
      PruneStep(before, done, k);
      done := done + {k};
      i := i + 1;
    }
    assert stale[..i] == stale;
    SweptAreOld(before, cutoff, stale, done);
  }

  /** The keys the sweep went through are exactly the old tasks. */
  lemma SweptAreOld(rows: map<Uuid, TaskRow>, cutoff: Time, stale: seq<Uuid>, done: set<Uuid>)
    requires forall k :: k in stale <==> k in rows && OldBefore(cutoff)(rows[k])
    requires forall k :: k in done <==> k in stale
    ensures done == OldKeys(rows, cutoff)
  {
    forall k ensures k in done <==> k in rows && OldTask(rows[k], cutoff) {
      assert k in stale <==> k in rows && OldBefore(cutoff)(rows[k]);
    }
  }

  // ---------------------------------------------------------------------
  // The `parent_task` cascade.

  /** The task `n` steps up `j`'s `parent_task` chain, following stored
      rows only: `j` itself for `n == 0`, nothing once the chain leaves
      the table or reaches a root. */
  function Ancestor(rows: map<Uuid, TaskRow>, j: Uuid, n: nat): Option<Uuid>
    decreases n
  {
    if n == 0 then Some(j)
    else if j in rows && rows[j].parentTask.Some? then Ancestor(rows, rows[j].parentTask.value, n - 1)
    else None
  }

  /** `j` is one of `roots` or lies below one of them. */
  ghost predicate InSubtree(rows: map<Uuid, TaskRow>, j: Uuid, roots: set<Uuid>)
  {
    exists n: nat :: Ancestor(rows, j, n).Some? && Ancestor(rows, j, n).value in roots
  }

  /** The table once `roots` and everything below them are gone. */
  ghost function Pruned(rows: map<Uuid, TaskRow>, roots: set<Uuid>): map<Uuid, TaskRow>
  {
    map j | j in rows && !InSubtree(rows, j, roots) :: rows[j]
  }

  /** The table `cleanup_old_tasks` leaves: the old tasks and their
      subtasks, at any depth, removed. */
  ghost function Cleaned(rows: map<Uuid, TaskRow>, cutoff: Time): map<Uuid, TaskRow>
  {
    Pruned(rows, OldKeys(rows, cutoff))
  }

  /** The stored tasks whose parent is in `s`. */
  function Children(rows: map<Uuid, TaskRow>, s: set<Uuid>): (c: set<Uuid>)
    ensures c <= rows.Keys
    ensures forall j :: j in c <==> j in rows && rows[j].parentTask.Some? && rows[j].parentTask.value in s
  {
    set j | j in rows && rows[j].parentTask.Some? && rows[j].parentTask.value in s
  }

  /** `roots` closed under `Children`: what one cascade from `roots`
      removes. */
  function Subtree(rows: map<Uuid, TaskRow>, roots: set<Uuid>): (r: set<Uuid>)
    ensures roots <= r
    decreases |rows.Keys - roots|
  {
    var next := Children(rows, roots);
    if forall j :: j in next ==> j in roots then roots
    else
      Shrinks(rows.Keys, roots, next);
      Subtree(rows, roots + next)
  }

  lemma Shrinks(keys: set<Uuid>, roots: set<Uuid>, next: set<Uuid>)
    requires next <= keys && exists x :: x in next && x !in roots
    ensures |keys - (roots + next)| < |keys - roots|
  {
    var x :| x in next && x !in roots;
    var rest := (keys - roots) - (keys - (roots + next));
    assert x in rest;
    assert keys - roots == (keys - (roots + next)) + rest;
  }

  /** One `task.delete()`: the row at `k` and, by the cascade, every
      stored task below it. */
  function CascadeDelete(rows: map<Uuid, TaskRow>, k: Uuid): (r: map<Uuid, TaskRow>)
    ensures forall j :: j in r <==> j in rows && !InSubtree(rows, j, {k})
    ensures forall j :: j in r ==> r[j] == rows[j]
  {
    SubtreeExact(rows, {k});
    rows - Subtree(rows, {k})
  }

  /** Walking `n` then `m` steps up the chain is walking `n + m`. */
  lemma {:induction false} AncestorAdd(rows: map<Uuid, TaskRow>, j: Uuid, n: nat, m: nat)
    requires Ancestor(rows, j, n).Some?
    ensures Ancestor(rows, j, n + m) == Ancestor(rows, Ancestor(rows, j, n).value, m)
    decreases n
  {
    if n > 0 {
      AncestorAdd(rows, rows[j].parentTask.value, n - 1, m);
    }
  }

  lemma {:induction false} SubtreeClosed(rows: map<Uuid, TaskRow>, roots: set<Uuid>)
    ensures Children(rows, Subtree(rows, roots)) <= Subtree(rows, roots)
    decreases |rows.Keys - roots|
  {
    var next := Children(rows, roots);
    if !(forall j :: j in next ==> j in roots) {
      Shrinks(rows.Keys, roots, next);
      SubtreeClosed(rows, roots + next);
    }
  }

  /** Everything the closure reaches lies below a root. */
  lemma {:induction false} SubtreeSound(rows: map<Uuid, TaskRow>, roots: set<Uuid>, j: Uuid)
    requires j in Subtree(rows, roots)
    ensures InSubtree(rows, j, roots)
    decreases |rows.Keys - roots|
  {
    var next := Children(rows, roots);
    if forall j :: j in next ==> j in roots {
      assert Ancestor(rows, j, 0) == Some(j);
    } else {
      Shrinks(rows.Keys, roots, next);
      SubtreeSound(rows, roots + next, j);
      var n: nat :| Ancestor(rows, j, n).Some? && Ancestor(rows, j, n).value in roots + next;
      var a := Ancestor(rows, j, n).value;
      if a !in roots {
        AncestorAdd(rows, j, n, 1);
        assert Ancestor(rows, a, 1) == Some(rows[a].parentTask.value);
        assert Ancestor(rows, j, n + 1).value in roots;
      }
    }
  }

  /** Everything below a root is reached by the closure. */
  lemma {:induction false} SubtreeComplete(rows: map<Uuid, TaskRow>, roots: set<Uuid>, j: Uuid, n: nat)
    requires Ancestor(rows, j, n).Some? && Ancestor(rows, j, n).value in roots
    ensures j in Subtree(rows, roots)
    decreases n
  {
    if n > 0 {
      var p := rows[j].parentTask.value;
      SubtreeComplete(rows, roots, p, n - 1);
      SubtreeClosed(rows, roots);
      assert j in Children(rows, Subtree(rows, roots));
    }
  }

  /** The closure is exactly the set of tasks at or below a root. */
  lemma SubtreeExact(rows: map<Uuid, TaskRow>, roots: set<Uuid>)
    ensures forall j :: j in Subtree(rows, roots) <==> InSubtree(rows, j, roots)
  {
    forall j
      ensures j in Subtree(rows, roots) <==> InSubtree(rows, j, roots)
    {
      if j in Subtree(rows, roots) {
        SubtreeSound(rows, roots, j);
      }
      if InSubtree(rows, j, roots) {
        var n: nat :| Ancestor(rows, j, n).Some? && Ancestor(rows, j, n).value in roots;
        SubtreeComplete(rows, roots, j, n);
      }
    }
  }

  /** A task outside the pruned subtrees keeps its whole chain. */
  lemma {:induction false} ChainOutside(rows: map<Uuid, TaskRow>, roots: set<Uuid>, j: Uuid, n: nat)
    requires !InSubtree(rows, j, roots)
    ensures Ancestor(Pruned(rows, roots), j, n) == Ancestor(rows, j, n)
    decreases n
  {
    if n > 0 && j in rows && rows[j].parentTask.Some? {
      var p := rows[j].parentTask.value;
      forall m: nat
        ensures !(Ancestor(rows, p, m).Some? && Ancestor(rows, p, m).value in roots)
      {
        assert Ancestor(rows, j, m + 1) == Ancestor(rows, p, m);
      }
      assert j in Pruned(rows, roots);
      ChainOutside(rows, roots, p, n - 1);
    }
  }

  lemma PrunedNothing(rows: map<Uuid, TaskRow>)
    ensures Pruned(rows, {}) == rows
  {
  }

  /** Deleting `k` with its subtasks from the table already pruned at
      `done` prunes at `done + {k}`: the loop's step. */
  lemma PruneStep(rows: map<Uuid, TaskRow>, done: set<Uuid>, k: Uuid)
    ensures Pruned(Pruned(rows, done), {k}) == Pruned(rows, done + {k})
  {
    var current := Pruned(rows, done);
    forall j | j in current
      ensures InSubtree(current, j, {k}) <==> InSubtree(rows, j, {k})
    {
      forall n: nat
        ensures Ancestor(current, j, n) == Ancestor(rows, j, n)
      {
        ChainOutside(rows, done, j, n);
      }
    }
    forall j | j in rows
      ensures InSubtree(rows, j, done + {k}) <==> InSubtree(rows, j, done) || InSubtree(rows, j, {k})
    {
      if InSubtree(rows, j, done + {k}) {
        var n: nat :| Ancestor(rows, j, n).Some? && Ancestor(rows, j, n).value in done + {k};
        assert Ancestor(rows, j, n).value in done || Ancestor(rows, j, n).value in {k};
      }
    }
  }

  /** A stored task survives the clean-up exactly when it is not old and
      its parent, if stored, survives too: a task below an old one goes,
      TIMEOUT or not. */
  lemma CleanupSurvivors(rows: map<Uuid, TaskRow>, cutoff: Time)
    ensures var after := Cleaned(rows, cutoff);
      forall j :: j in after <==>
        && j in rows && !OldTask(rows[j], cutoff)
        && (rows[j].parentTask.None? || rows[j].parentTask.value !in rows || rows[j].parentTask.value in after)
  {
    var olds := OldKeys(rows, cutoff);
    var after := Cleaned(rows, cutoff);
    forall j | j in rows
      ensures j in after <==>
        && !OldTask(rows[j], cutoff)
        && (rows[j].parentTask.None? || rows[j].parentTask.value !in rows || rows[j].parentTask.value in after)
    {
      assert Ancestor(rows, j, 0) == Some(j);
      if rows[j].parentTask.Some? {
        var p := rows[j].parentTask.value;
        if p in rows && p !in after {
          var m: nat :| Ancestor(rows, p, m).Some? && Ancestor(rows, p, m).value in olds;
          assert Ancestor(rows, j, m + 1) == Ancestor(rows, p, m);
        }
        if !OldTask(rows[j], cutoff) && (p !in rows || p in after) {
          forall n: nat
            ensures !(Ancestor(rows, j, n).Some? && Ancestor(rows, j, n).value in olds)
          {
            if n > 0 {
              assert Ancestor(rows, j, n) == Ancestor(rows, p, n - 1);
              if p !in rows && n > 1 {
                assert Ancestor(rows, p, n - 1) == None;
              }
            }
          }
        }
      } else if !OldTask(rows[j], cutoff) {
        forall n: nat
          ensures !(Ancestor(rows, j, n).Some? && Ancestor(rows, j, n).value in olds)
        {
        }
      }
    }
  }

  /** The clean-up leaves no old task behind, and spares, unchanged, every
      task that is not old and hangs below no old task, TIMEOUT ones
      included. */
  lemma CleanupSparesTimeouts(rows: map<Uuid, TaskRow>, cutoff: Time)
    ensures var after := Cleaned(rows, cutoff);
      && (forall k :: k in after ==> k in rows && after[k] == rows[k] && !OldTask(after[k], cutoff))
      && (forall k :: k in rows && !InSubtree(rows, k, OldKeys(rows, cutoff)) ==> k in after)
      && (forall k :: k in rows && rows[k].status == Timeout && rows[k].parentTask.None? ==> k in after)
  {
    forall k | k in Cleaned(rows, cutoff)
      ensures !OldTask(rows[k], cutoff)
    {
      assert Ancestor(rows, k, 0) == Some(k);
    }
    forall k | k in rows && rows[k].status == Timeout && rows[k].parentTask.None?
      ensures k in Cleaned(rows, cutoff)
    {
      CleanupSurvivors(rows, cutoff);
    }
  }

  // ---------------------------------------------------------------------
  // Statistics.

  datatype TaskStatistics = TaskStatistics(
    totalTasks: nat,
    completedTasks: nat,
    failedTasks: nat,
    processingTasks: nat,
    pendingTasks: nat,
    queuedTasks: nat,
    successRate: real,
    averageDurationSeconds: real)

  /** The tasks a report covers: the agent filter and the creation-date
      bounds, both inclusive. */
  predicate InScope(r: TaskRow, agent: Option<string>, start: Option<Time>, end: Option<Time>)
  {
    AgentMatches(agent, r)
    && (start.None? || r.createdAt >= start.value)
    && (end.None? || r.createdAt <= end.value)
  }

  /** The tasks in scope whose status is one of `statuses`. */
  function InScopeWithin(statuses: set<TaskStatus>, agent: Option<string>, start: Option<Time>, end: Option<Time>)
    : TaskRow -> bool
  {
    (r: TaskRow) => InScope(r, agent, start, end) && r.status in statuses
  }

  function InScopeWith(s: TaskStatus, agent: Option<string>, start: Option<Time>, end: Option<Time>): TaskRow -> bool
  {
    InScopeWithin({s}, agent, start, end)
  }

  function InScopeAll(agent: Option<string>, start: Option<Time>, end: Option<Time>): TaskRow -> bool
  {
    (r: TaskRow) => InScope(r, agent, start, end)
  }

  function TimedCompletions(agent: Option<string>, start: Option<Time>, end: Option<Time>): TaskRow -> bool
  {
    (r: TaskRow) => InScope(r, agent, start, end) && r.status == Completed && r.durationSeconds.Some?
  }

  /** `completed / finished * 100`, or 0 with nothing finished. */
  function SuccessRate(completed: nat, failed: nat): (rate: real)
    ensures 0.0 <= rate <= 100.0
    ensures completed + failed == 0 ==> rate == 0.0
    ensures completed + failed > 0 ==> rate * (completed + failed) as real == completed as real * 100.0
    ensures failed == 0 && completed > 0 ==> rate == 100.0
    ensures completed == 0 ==> rate == 0.0
  {
    var finished := completed + failed;
    if finished > 0 then
      var q := completed as real / finished as real;
      assert q * finished as real == completed as real;
      assert 0.0 <= q <= 1.0;
      q * 100.0
    else 0.0
  }

  /** A task's recorded duration as a real; 0 where none is recorded. */
  function Duration(r: TaskRow): real
  {
    match r.durationSeconds
    case None => 0.0
    case Some(d) => d as real
  }

  function Durations(ts: seq<TaskRow>): (ds: seq<real>)
    ensures |ds| == |ts|
    ensures forall i :: 0 <= i < |ts| ==> ds[i] == Duration(ts[i])
  {
    seq(|ts|, i requires 0 <= i < |ts| => Duration(ts[i]))
  }

  /** `get_task_statistics(agent_id, start_date, end_date)`. `timed` holds
      the completed tasks with a duration; the average is their mean. */
  method GetTaskStatistics(table: Table<TaskRow>, agent: Option<string>, start: Option<Time>, end: Option<Time>)
    returns (stats: TaskStatistics, ghost timed: seq<TaskRow>)
    ensures stats.totalTasks == CountWhere(table.rows, InScopeAll(agent, start, end))
    ensures stats.completedTasks == CountWhere(table.rows, InScopeWith(Completed, agent, start, end))
    ensures stats.failedTasks == CountWhere(table.rows, InScopeWith(Failed, agent, start, end))
    ensures stats.processingTasks == CountWhere(table.rows, InScopeWith(Processing, agent, start, end))
    ensures stats.pendingTasks == CountWhere(table.rows, InScopeWith(Pending, agent, start, end))
    ensures stats.queuedTasks == CountWhere(table.rows, InScopeWith(Queued, agent, start, end))
    ensures stats.completedTasks + stats.failedTasks + stats.processingTasks + stats.pendingTasks
            + stats.queuedTasks <= stats.totalTasks
    ensures stats.successRate == SuccessRate(stats.completedTasks, stats.failedTasks)
    ensures |timed| == CountWhere(table.rows, TimedCompletions(agent, start, end))
    ensures forall t :: t in timed ==> TimedCompletions(agent, start, end)(t) && t in table.rows.Values
    ensures forall k :: k in table.rows && TimedCompletions(agent, start, end)(table.rows[k]) ==> table.rows[k] in timed
    ensures stats.averageDurationSeconds == Mean(Durations(timed))
  {
    var total := Count(table, InScopeAll(agent, start, end));
    var completed := Count(table, InScopeWith(Completed, agent, start, end));
    var failed := Count(table, InScopeWith(Failed, agent, start, end));
    var processing := Count(table, InScopeWith(Processing, agent, start, end));
    var pending := Count(table, InScopeWith(Pending, agent, start, end));
    var queued := Count(table, InScopeWith(Queued, agent, start, end));
    StatusCountsWithinTotal(table.rows, agent, start, end);
    var rows := Query(table.rows, TimedCompletions(agent, start, end), OldestFirst, None);
    timed := rows;
    var average := AverageDuration(rows);
    stats := TaskStatistics(total, completed, failed, processing, pending, queued,
                            SuccessRate(completed, failed), average);
  }

  /** The mean of the durations, 0 when there are none. */
  method AverageDuration(rows: seq<TaskRow>) returns (average: real)
    ensures average == Mean(Durations(rows))
  {
    average := 0.0;
    if rows != [] {
      var durations := [];
      var i := 0;
      while i < |rows|
        invariant 0 <= i <= |rows|
        invariant durations == Durations(rows[..i])
      {
        durations := durations + [Duration(rows[i])];
        i := i + 1;
      }
      assert rows[..i] == rows;
      average := Sum(durations) / |durations| as real;
    }
  }

  /** `queryset.count()`. */
  method Count(table: Table<TaskRow>, p: TaskRow -> bool) returns (n: nat)
    ensures n == CountWhere(table.rows, p)
  {
    var ks := SelectKeys(table.rows, p);
    n := |ks|;
  }

  /** Splitting off one status splits the count. */
  lemma CountAddsStatus(rows: map<Uuid, TaskRow>, statuses: set<TaskStatus>, s: TaskStatus,
                        agent: Option<string>, start: Option<Time>, end: Option<Time>)
    requires s !in statuses
    ensures CountWhere(rows, InScopeWithin(statuses + {s}, agent, start, end))
         == CountWhere(rows, InScopeWithin(statuses, agent, start, end)) + CountWhere(rows, InScopeWith(s, agent, start, end))
  {
    CountSplit(rows, InScopeWithin(statuses, agent, start, end), InScopeWith(s, agent, start, end),
               InScopeWithin(statuses + {s}, agent, start, end));
  }

  /** The five per-status counts are disjoint parts of the total. */
  lemma StatusCountsWithinTotal(rows: map<Uuid, TaskRow>, agent: Option<string>, start: Option<Time>, end: Option<Time>)
    ensures CountWhere(rows, InScopeWith(Completed, agent, start, end)) + CountWhere(rows, InScopeWith(Failed, agent, start, end))
            + CountWhere(rows, InScopeWith(Processing, agent, start, end)) + CountWhere(rows, InScopeWith(Pending, agent, start, end))
            + CountWhere(rows, InScopeWith(Queued, agent, start, end))
            <= CountWhere(rows, InScopeAll(agent, start, end))
  {
    CountAddsStatus(rows, {Completed}, Failed, agent, start, end);
    assert {Completed} + {Failed} == {Completed, Failed};
    CountAddsStatus(rows, {Completed, Failed}, Processing, agent, start, end);
    assert {Completed, Failed} + {Processing} == {Completed, Failed, Processing};
    CountAddsStatus(rows, {Completed, Failed, Processing}, Pending, agent, start, end);
    assert {Completed, Failed, Processing} + {Pending} == {Completed, Failed, Processing, Pending};
    CountAddsStatus(rows, {Completed, Failed, Processing, Pending}, Queued, agent, start, end);
    assert {Completed, Failed, Processing, Pending} + {Queued} == {Completed, Failed, Processing, Pending, Queued};
    CountMonotone(rows, InScopeWithin({Completed, Failed, Processing, Pending, Queued}, agent, start, end),
                  InScopeAll(agent, start, end));
  }

  /** The reported average lies between the shortest and the longest
      recorded duration, and is 0 when no completed task has one. */
  lemma AverageDurationWithinBounds(timed: seq<TaskRow>, lo: real, hi: real)
    requires forall t :: t in timed ==> lo <= Duration(t) <= hi
    ensures timed != [] ==> lo <= Mean(Durations(timed)) <= hi
    ensures timed == [] ==> Mean(Durations(timed)) == 0.0
  {
    var ds := Durations(timed);
    forall i | 0 <= i < |ds| ensures lo <= ds[i] <= hi {
      assert timed[i] in timed;
    }
    MeanWithinBounds(ds, lo, hi);
  }

  // ---------------------------------------------------------------------
  // The bulk retry.

  /** `retry_failed_tasks(agent_id, limit)` as written: building the
      filter evaluates `models.F`, and `models` was never imported, so
      every call raises before reading a row. */
  function RetryFailedTasksAsWritten(rows: map<Uuid, TaskRow>, agent: Option<string>, limit: nat)
    : (res: Result<nat, Exception>)
    ensures res == Err(UndefinedModels)
  {
    Err(UndefinedModels)
  }

  /** No table, however many failed tasks with retries left it holds, gets
      a single retry from the method as written. */
  lemma RetryAsWrittenNeverRetries(rows: map<Uuid, TaskRow>, agent: Option<string>, limit: nat)
    requires limit > 0 && exists k :: k in rows && Retryable(agent)(rows[k])
    ensures RetryFailedTasksAsWritten(rows, agent, limit).Err?
  {
  }

  /** The selection `retry_failed_tasks` means to make. */
  function Retryable(agent: Option<string>): TaskRow -> bool
  {
    (r: TaskRow) => r.status == Failed && r.retryCount < r.maxRetries && AgentMatches(agent, r)
  }

  /** The table after retrying the tasks at `ks`. */
  function Requeued(rows: map<Uuid, TaskRow>, ks: set<Uuid>, now: Time): (r: map<Uuid, TaskRow>)
    ensures r.Keys == rows.Keys
  {
    map k | k in rows :: if k in ks then Step(rows[k], RetryOp(now)) else rows[k]
  }

  /** `retry_failed_tasks(agent_id, limit)` as intended: up to `limit`
      retryable tasks are put back in the queue with `queue_for_retry`, and
      the count of those that answered True is returned. Every selected
      task answers True, so the count is the size of the selection. */
  method RetryFailedTasks(table: Table<TaskRow>, agent: Option<string>, limit: nat, now: Time)
    returns (count: nat, ghost retried: set<Uuid>)
    requires TaskModel.Keyed(table.rows)
    modifies table
    ensures count == Min(limit, CountWhere(old(table.rows), Retryable(agent)))
    ensures |retried| == count
    ensures forall k :: k in retried ==> k in old(table.rows) && Retryable(agent)(old(table.rows)[k])
    ensures table.rows == Requeued(old(table.rows), retried, now)
    ensures TaskModel.Keyed(table.rows)
  {
    var ks := SelectKeys(table.rows, Retryable(agent));
    var n := Min(limit, |ks|);
    ghost var before := table.rows;
    ghost var done: set<Uuid> := {};
    count := 0;
    var i := 0;
    while i < n
      invariant 0 <= i <= n && count == i && |done| == i
      invariant forall k :: k in done ==> k in before && Retryable(agent)(before[k]) && k in ks[..i]
      invariant table.rows == Requeued(before, done, now)
      invariant TaskModel.Keyed(table.rows)
    {
      var k := ks[i];
      assert k in ks;
      assert ks[..i + 1] == ks[..i] + [k];
      assert forall j :: 0 <= j < i ==> ks[..i][j] != k;
      assert k !in ks[..i];
      var answered := RetryOne(table, k, before, done, agent, now);
      if answered {
        count := count + 1;
      }
      done := done + {k};
      i := i + 1;
    }
    retried := done;
  }

  /** One pass of the retry loop: the task at `k`, not yet retried, is
      loaded and answers True to `queue_for_retry`. */
  method RetryOne(table: Table<TaskRow>, k: Uuid, ghost before: map<Uuid, TaskRow>, ghost done: set<Uuid>,
                  ghost agent: Option<string>, now: Time)
    returns (answered: bool)
    requires TaskModel.Keyed(table.rows) && table.rows == Requeued(before, done, now)
    requires k in before && Retryable(agent)(before[k]) && k !in done
    modifies table
    ensures answered
    ensures table.rows == Requeued(before, done + {k}, now)
    ensures TaskModel.Keyed(table.rows)
  {
    assert table.rows[k] == before[k];
    var task := TaskModel.Load(table, k);
    var res := task.QueueForRetry(now, table);
    answered := res == Ok(true);
    assert table.rows == Requeued(before, done, now)[k := Step(before[k], RetryOp(now))];
  }

  /** Each retried task is QUEUED again with one more retry counted and its
      error cleared; no task goes past its retry ceiling. */
  lemma RetriedTasksAreQueued(rows: map<Uuid, TaskRow>, ks: set<Uuid>, agent: Option<string>, now: Time)
    requires forall k :: k in ks ==> k in rows && Retryable(agent)(rows[k])
    ensures forall k :: k in ks ==>
      var r := Requeued(rows, ks, now)[k];
      && r.status == Queued && r.retryCount == rows[k].retryCount + 1 && r.retryCount <= r.maxRetries
      && r.errorMessage == None && r.queuedAt == Some(now)
  {
  }
}

=== FILE: task_service.dfy ===
/** The task service (agaip/services/task_service.py): the guards in front
    of the task repository and the hand-over of queued tasks to the
    background worker. A hand-over, `process_task_sync.delay(...)`, is
    modelled as a message appended to `submitted`. */
module TaskService {
  import opened Common
  import opened Tables
  import opened BaseRepository
  import opened TaskRecord
  import TaskModel
  import TaskRepository
  import AgentRecord
  import AgentModel
  import AgentRepository

  /** The arguments of one `process_task_sync.delay(...)` call. */
  datatype Submission = Submission(taskId: Uuid, agentName: string, payload: Json)

  function TaskError(message: string): Exception
  {
    Exception("TaskError", message)
  }

  function AgentNotFound(name: string): (e: Exception)
    ensures e.kind == "TaskError"
  {
    TaskError("Agent '" + name + "' not found")
  }

  function AgentDisabled(name: string): (e: Exception)
    ensures e.kind == "TaskError"
    ensures e != AgentNotFound(name)
  {
    var e := TaskError("Agent '" + name + "' is disabled");
    assert |e.message| != |AgentNotFound(name).message|;
    e
  }

  /** Some stored agent has this name. */
  ghost predicate NamedAgent(rows: map<Uuid, AgentRecord.AgentRow>, name: string)
  {
    exists k :: k in rows && rows[k].name == name
  }

  /** The stored agent with this name is enabled. */
  ghost predicate NamedAgentEnabled(rows: map<Uuid, AgentRecord.AgentRow>, name: string)
  {
    exists k :: k in rows && rows[k].name == name && rows[k].enabled
  }

  /** `if user_id and task.created_by_id != user_id: return False`. */
  predicate MayAct(user: Option<Uuid>, r: TaskRow)
  {
    user.None? || r.createdBy == user
  }

  /** The statuses `cancel_task` accepts; narrower than the model's own
      `cancel`, which also accepts TIMEOUT. */
  predicate Cancellable(s: TaskStatus)
  {
    s == Pending || s == Queued || s == Processing
  }

  /** The filters `list_tasks` builds: each applies only when truthy. */
  predicate HasFilter(user: Option<Uuid>, status: Option<TaskStatus>, agent: Option<string>)
  {
    user.Some? || status.Some? || (agent.Some? && agent.value != "")
  }

  function Listed(user: Option<Uuid>, status: Option<TaskStatus>, agent: Option<string>): TaskRow -> bool
  {
    (r: TaskRow) => (user.None? || r.createdBy == user)
                    && (status.None? || r.status == status.value)
                    && TaskRepository.AgentMatches(agent, r)
  }

  /** How many elements `s[:stop]` keeps of a list of `n`: a negative
      `stop` counts from the end. */
  function SliceEnd(stop: int, n: nat): (j: nat)
    ensures j <= n
    ensures stop >= 0 ==> j == Min(stop, n)
    ensures stop < 0 ==> j == Max(0, n + stop)
  {
    if stop >= 0 then Min(stop, n) else Max(0, n + stop)
  }

  /** A prefix of a sequence without repeats has none. */
  lemma PrefixDistinct<T>(s: seq<T>, n: nat)
    requires n <= |s| && Distinct(s)
    ensures Distinct(s[..n])
  {
    forall i, j | 0 <= i < j < n ensures s[..n][i] != s[..n][j] {
      assert s[..n][i] == s[i] && s[..n][j] == s[j];
    }
  }

  /** `filter(...)` followed by `[:limit]`. */
  method FilteredPrefix(rows: map<Uuid, TaskRow>, p: TaskRow -> bool, limit: int) returns (listed: seq<TaskRow>)
    ensures forall t :: t in listed ==> t in rows.Values && p(t)
    ensures |listed| == SliceEnd(limit, CountWhere(rows, p))
    ensures TaskModel.Keyed(rows) ==> Distinct(listed)
  {
    var ks := SelectKeys(rows, p);
    var all := RowsAt(rows, ks);
    listed := all[..SliceEnd(limit, |all|)];
    assert forall i :: 0 <= i < |listed| ==> listed[i] == rows[ks[i]] && ks[i] in ks;
    TaskModel.KeyedInjective(rows);
    if TaskModel.Keyed(rows) {
      RowsAtDistinct(rows, ks);
      PrefixDistinct(all, |listed|);
    }
  }

  /** `get_all(limit, offset)` with a non-negative limit, then `[:limit]`. */
  method AllWindow(rows: map<Uuid, TaskRow>, limit: nat, offset: int) returns (listed: seq<TaskRow>)
    ensures forall t :: t in listed ==> t in rows.Values
    ensures |listed| == Max(0, Min(limit, |rows| - Max(0, offset)))
    ensures TaskModel.Keyed(rows) ==> Distinct(listed)
  {
    var everything := (r: TaskRow) => true;
    var ks := SelectKeys(rows, everything);
    CountByKeys(rows, everything, rows.Keys);
    assert rows.Keys * rows.Keys == rows.Keys;
    var all := RowsAt(rows, ks);
    var start := if offset > 0 then offset else 0;
    var window := Window(all, start, limit);
    listed := window[..Min(limit, |window|)];
    assert forall i :: 0 <= i < |listed| ==> listed[i] == all[start + i] && listed[i] == rows[ks[start + i]] && ks[start + i] in ks;
    TaskModel.KeyedInjective(rows);
    if TaskModel.Keyed(rows) {
      RowsAtDistinct(rows, ks);
      forall i, j | 0 <= i < j < |listed| ensures listed[i] != listed[j] {
        assert listed[i] == all[start + i] && listed[j] == all[start + j];
      }
    }
  }

  /** The message `handle_timeout_tasks` fails each timed-out task with. */
  const TimeoutMessage: string := "Task timed out"
  const TimeoutType: string := "TimeoutError"

  /** The tasks table after the timeout sweep at `now`. */
  function TimedOutFailed(rows: map<Uuid, TaskRow>, now: Time): (swept: map<Uuid, TaskRow>)
    ensures swept.Keys == rows.Keys
    ensures forall k :: k in swept ==> !TaskRepository.TimedOut(swept[k], now)
    ensures forall k :: k in rows && !TaskRepository.TimedOut(rows[k], now) ==> swept[k] == rows[k]
    ensures forall k :: k in rows && TaskRepository.TimedOut(rows[k], now) ==>
      swept[k].status == Failed && swept[k].errorMessage == Some(TimeoutMessage)
      && swept[k].errorType == Some(TimeoutType) && swept[k].completedAt == Some(now)
  {
    map k | k in rows ::
      if TaskRepository.TimedOut(rows[k], now)
      then FailWithError(rows[k], TimeoutMessage, Some(TimeoutType), now).value
      else rows[k]
  }

  class TaskService {
    const tasks: Table<TaskRow>
    const agents: Table<AgentRecord.AgentRow>
    /** The hand-overs made so far, oldest first. */
    var submitted: seq<Submission>

    constructor(tasks: Table<TaskRow>, agents: Table<AgentRecord.AgentRow>)
      ensures this.tasks == tasks && this.agents == agents && submitted == []
    {
      this.tasks := tasks;
      this.agents := agents;
      submitted := [];
    }

    /** Stored rows carry their keys and agent names are unique. */
    ghost predicate Valid()
      reads this, tasks, agents
    {
      TaskModel.Keyed(tasks.rows) && AgentModel.Keyed(agents.rows) && AgentRepository.UniqueNames(agents.rows)
    }

    /** `create_task(...)`: refused with `TaskError` unless an enabled agent
        has the name; otherwise the task is stored and queued. The row
        returned is the one created, still PENDING: the queue step works on
        a fresh load of it. */
    method CreateTask(id: Uuid, name: string, agentName: string, payload: Json, priority: TaskPriority,
                      maxRetries: int, timeoutSeconds: Option<int>, description: Option<string>,
                      createdBy: Option<Uuid>, now: Time)
      returns (res: Result<TaskRow, Exception>)
      requires Valid() && id !in tasks.rows
      modifies this, tasks
      ensures Valid()
      ensures res == Err(AgentNotFound(agentName)) <==> !NamedAgent(agents.rows, agentName)
      ensures res == Err(AgentDisabled(agentName)) <==> NamedAgent(agents.rows, agentName) && !NamedAgentEnabled(agents.rows, agentName)
      ensures res.Ok? <==> NamedAgentEnabled(agents.rows, agentName)
      ensures res.Err? ==> tasks.rows == old(tasks.rows) && submitted == old(submitted)
      ensures res.Ok? ==>
        var created := TaskRepository.NewTask(id, name, agentName, payload, priority, maxRetries, timeoutSeconds,
                                              None, createdBy, description, now);
        && res.value == created
        && tasks.rows == old(tasks.rows)[id := QueuePending(created, now).value]
        && submitted == old(submitted) + [Submission(id, agentName, payload)]
    {
      var found := FindOne(agents.rows, (r: AgentRecord.AgentRow) => r.name == agentName);
      if found.None? {
        return Err(AgentNotFound(agentName));
      }
      var agent := agents.rows[found.value];
      if !agent.enabled {
        assert agents.rows[found.value].name == agentName;
        assert forall k :: k in agents.rows && agents.rows[k].name == agentName ==> k == found.value;
        return Err(AgentDisabled(agentName));
      }
      var task := TaskRepository.CreateTask(tasks, id, name, agentName, payload, priority, maxRetries,
                                            timeoutSeconds, None, createdBy, description, now);
      var queued := QueueTask(id, now);
      return Ok(task);
    }

    /** `queue_task(task_id)`: hands the task over only after the
        repository moved it from PENDING to QUEUED. */
    method QueueTask(id: Uuid, now: Time) returns (queued: bool)
      requires Valid()
      modifies this, tasks
      ensures Valid()
      ensures queued <==> id in old(tasks.rows) && old(tasks.rows)[id].status == Pending
      ensures !queued ==> tasks.rows == old(tasks.rows) && submitted == old(submitted)
      ensures queued ==>
        && tasks.rows == old(tasks.rows)[id := QueuePending(old(tasks.rows)[id], now).value]
        && submitted == old(submitted) + [Submission(id, old(tasks.rows)[id].agentId, old(tasks.rows)[id].payload)]
    {
      var task := TaskModel.Load(tasks, id);
      if task == null {
        return false;
      }
      var success := TaskRepository.QueueTask(tasks, id, now);
      if !success {
        return false;
      }
      submitted := submitted + [Submission(id, task.agentId, task.payload)];
      return true;
    }

    /** `list_tasks(user_id, status, agent_id, limit, offset)`. With a
        filter, the matching tasks cut by `tasks[:limit]`, whose negative
        `limit` counts from the end, and the offset ignored. Without one,
        `get_all(limit, offset)`: a non-positive offset is skipped and a
        negative limit makes the query set raise, re-raised as
        `DatabaseError`. */
    method ListTasks(user: Option<Uuid>, status: Option<TaskStatus>, agent: Option<string>, limit: int, offset: int)
      returns (res: Result<seq<TaskRow>, Exception>)
      ensures res.Err? <==> !HasFilter(user, status, agent) && limit < 0
      ensures res.Err? ==> res.error == DatabaseError("Failed to get all Task: " + NegativeLimitText)
      ensures res.Ok? ==> forall t :: t in res.value ==> t in tasks.rows.Values && Listed(user, status, agent)(t)
      ensures res.Ok? && TaskModel.Keyed(tasks.rows) ==> Distinct(res.value)
      ensures res.Ok? && limit >= 0 ==> |res.value| <= limit
      ensures HasFilter(user, status, agent) ==>
        res.Ok? && |res.value| == SliceEnd(limit, CountWhere(tasks.rows, Listed(user, status, agent)))
      ensures !HasFilter(user, status, agent) && limit >= 0 ==>
        res.Ok? && |res.value| == Max(0, Min(limit, |tasks.rows| - Max(0, offset)))
    {
      if HasFilter(user, status, agent) {
        var listed := FilteredPrefix(tasks.rows, Listed(user, status, agent), limit);
        res := Ok(listed);
      } else if limit < 0 {
        res := Err(DatabaseError("Failed to get all Task: " + NegativeLimitText));
      } else {
        var listed := AllWindow(tasks.rows, limit, offset);
        assert forall t :: Listed(user, status, agent)(t);
        res := Ok(listed);
      }
    }

    /** `cancel_task(task_id, user_id)`: False without a change unless the
        task exists, the requester (if any) created it, and it is PENDING,
        QUEUED or PROCESSING. */
    method CancelTask(id: Uuid, user: Option<Uuid>, now: Time) returns (cancelled: bool)
      requires Valid()
      modifies tasks
      ensures Valid()
      ensures cancelled <==> (id in old(tasks.rows) && MayAct(user, old(tasks.rows)[id])
                             && Cancellable(old(tasks.rows)[id].status))
      ensures cancelled ==> tasks.rows == old(tasks.rows)[id := Cancel(old(tasks.rows)[id], now).value]
      ensures !cancelled ==> tasks.rows == old(tasks.rows)
    {
      var task := TaskModel.Load(tasks, id);
      if task == null {
        return false;
      }
      if user.Some? && task.createdBy != user {
        return false;
      }
      if !Cancellable(task.status) {
        return false;
      }
      var outcome := task.Cancel(now, tasks);
      return true;
    }

    /** `retry_task(task_id, user_id)`: True, and a new hand-over, exactly
        for an existing FAILED task of the requester with retries left. */
    method RetryTask(id: Uuid, user: Option<Uuid>, now: Time) returns (retried: bool)
      requires Valid()
      modifies this, tasks
      ensures Valid()
      ensures retried <==> (id in old(tasks.rows) && MayAct(user, old(tasks.rows)[id])
                           && old(tasks.rows)[id].status == Failed && HasRetriesLeft(old(tasks.rows)[id]))
      ensures retried ==>
        && tasks.rows == old(tasks.rows)[id := QueueForRetry(old(tasks.rows)[id], now).value.1]
        && submitted == old(submitted) + [Submission(id, old(tasks.rows)[id].agentId, old(tasks.rows)[id].payload)]
      ensures !retried ==> tasks.rows == old(tasks.rows) && submitted == old(submitted)
    {
      var task := TaskModel.Load(tasks, id);
      if task == null {
        return false;
      }
      if user.Some? && task.createdBy != user {
        return false;
      }
      if task.status != Failed {
        return false;
      }
      if task.retryCount >= task.maxRetries {
        return false;
      }
      var res := task.QueueForRetry(now, tasks);
      retried := res == Ok(true);
      if retried {
        submitted := submitted + [Submission(id, task.agentId, task.payload)];
      }
    }

    /** `handle_timeout_tasks()`: fails every timed-out task with the
        timeout message and type and counts them. */
    method HandleTimeoutTasks(now: Time) returns (count: nat)
      requires Valid()
      modifies tasks
      ensures Valid()
      ensures count == CountWhere(old(tasks.rows), TaskRepository.TimedOutAt(now))
      ensures tasks.rows == TimedOutFailed(old(tasks.rows), now)
    {
      var ks := TaskRepository.GetTimedOutTasks(tasks, now);
      ghost var before := tasks.rows;
      count := 0;
      var i := 0;
      while i < |ks|
        invariant 0 <= i <= |ks| && count == i && tasks.rows.Keys == before.Keys
        invariant forall k :: k in tasks.rows ==>
          tasks.rows[k] == if k in ks[..i] then FailWithError(before[k], TimeoutMessage, Some(TimeoutType), now).value
                           else before[k]
        invariant TaskModel.Keyed(tasks.rows)
        invariant Valid()
      {
        var k := ks[i];
        assert k !in ks[..i] && k in ks;
        FailTimedOut(k, now);
        assert ks[..i + 1] == ks[..i] + [k];
        count := count + 1;
        i := i + 1;
      }
      assert ks[..i] == ks;
      SweptPointwise(before, tasks.rows, now);
    }

    /** One iteration of the sweep: `task.fail_with_error(...)` on a
        PROCESSING task, which always succeeds. */
    method FailTimedOut(k: Uuid, now: Time)
      requires Valid() && k in tasks.rows && tasks.rows[k].status == Processing
      modifies tasks
      ensures Valid()
      ensures tasks.rows == old(tasks.rows)[k := FailWithError(old(tasks.rows)[k], TimeoutMessage, Some(TimeoutType), now).value]
    {
      var task := TaskModel.Load(tasks, k);
      var outcome := task.FailWithError(TimeoutMessage, Some(TimeoutType), now, tasks);
    }
  }

  lemma SweptPointwise(before: map<Uuid, TaskRow>, after: map<Uuid, TaskRow>, now: Time)
    requires after.Keys == before.Keys
    requires forall k :: k in after ==>
      after[k] == if TaskRepository.TimedOut(before[k], now)
                  then FailWithError(before[k], TimeoutMessage, Some(TimeoutType), now).value
                  else before[k]
    ensures after == TimedOutFailed(before, now)
  {
    var expected := TimedOutFailed(before, now);
    forall k | k in after
      ensures after[k] == expected[k]
    {
    }
  }
}

=== FILE: user_model.dfy ===
/** A loaded `User` object (agaip/database/models/user.py): the login and
    status methods rewrite its fields and save it to the `users` table; the
    permission and password methods change only the object in memory. */
module UserModel {
  import opened Common
  import UserRecord
  import opened Lists
  import opened BaseRepository
  import BaseModel

  /** Every stored row carries the key it is stored under. */
  ghost predicate Keyed(rows: map<Uuid, UserRecord.UserRow>)
  {
    forall k :: k in rows ==> rows[k].id == k
  }

  function RoleText(role: UserRecord.UserRole): string
  {
    match role
    case Admin => "admin"
    case User => "user"
    case Viewer => "viewer"
    case ApiClient => "api_client"
  }

  function StatusText(status: UserRecord.UserStatus): string
  {
    match status
    case Active => "active"
    case Inactive => "inactive"
    case Suspended => "suspended"
    case Pending => "pending"
  }

  function Text(s: Option<string>): BaseModel.FieldValue
  {
    match s
    case None => BaseModel.PlainValue(JNull)
    case Some(v) => BaseModel.PlainValue(JStr(v))
  }

  function Moment(t: Option<Time>): BaseModel.FieldValue
  {
    match t
    case None => BaseModel.PlainValue(JNull)
    case Some(v) => BaseModel.DateTimeValue(v)
  }

  /** The model's columns as `to_dict` reads them: the user's own, then
      the ones every model inherits from the base model. */
  function Fields(r: UserRecord.UserRow): (fs: seq<(string, BaseModel.FieldValue)>)
    ensures |fs| == |FieldNames| && forall i :: 0 <= i < |fs| ==> fs[i].0 == FieldNames[i]
    ensures BaseModel.DistinctNames(fs)
  {
    var fs := OwnFields(r) + InheritedFields(r.base);
    assert forall i :: 0 <= i < |fs| ==> fs[i].0 == FieldNames[i];
    FieldNamesDistinct();
    fs
  }

  /** The columns of the user table itself, with `id` and `created_at`. */
  function OwnFields(r: UserRecord.UserRow): (fs: seq<(string, BaseModel.FieldValue)>)
    ensures |fs| == |OwnColumns| && forall i :: 0 <= i < |fs| ==> fs[i].0 == OwnColumns[i]
  {
    var perms := match r.permissions
      case None => JNull
      case Some(ps) => JList(seq(|ps|, i requires 0 <= i < |ps| => JStr(ps[i])));
    var fs := [
      ("id", BaseModel.UuidValue(r.id)),
      ("created_at", BaseModel.DateTimeValue(r.createdAt)),
      ("username", BaseModel.PlainValue(JStr(r.username))),
      ("email", BaseModel.PlainValue(JStr(r.email))),
      ("full_name", Text(r.fullName)),
      ("password_hash", BaseModel.PlainValue(JStr(r.passwordHash))),
      ("is_active", BaseModel.PlainValue(JBool(r.isActive))),
      ("is_verified", BaseModel.PlainValue(JBool(r.isVerified))),
      ("role", BaseModel.PlainValue(JStr(RoleText(r.role)))),
      ("permissions", BaseModel.PlainValue(perms)),
      ("status", BaseModel.PlainValue(JStr(StatusText(r.status)))),
      ("last_login", Moment(r.lastLogin)),
      ("login_count", BaseModel.PlainValue(JInt(r.loginCount))),
      ("api_key", Text(r.apiKey)),
      ("api_key_expires_at", Moment(r.apiKeyExpiresAt)),
      ("rate_limit_per_minute", BaseModel.PlainValue(JInt(r.rateLimitPerMinute))),
      ("avatar_url", Text(r.avatarUrl)),
      ("timezone", BaseModel.PlainValue(JStr(r.timezone))),
      ("language", BaseModel.PlainValue(JStr(r.language))),
      ("failed_login_attempts", BaseModel.PlainValue(JInt(r.failedLoginAttempts))),
      ("locked_until", Moment(r.lockedUntil)),
      ("password_changed_at", Moment(r.passwordChangedAt))
    ];
    assert forall i :: 0 <= i < |fs| ==> fs[i].0 == OwnColumns[i];
    fs
  }

  /** The columns every model inherits from the base model. */
  function InheritedFields(b: BaseModel.BaseColumns): (fs: seq<(string, BaseModel.FieldValue)>)
    ensures |fs| == |InheritedColumns| && forall i :: 0 <= i < |fs| ==> fs[i].0 == InheritedColumns[i]
  {
    [("updated_at", BaseModel.DateTimeValue(b.updatedAt)),
     ("is_deleted", BaseModel.PlainValue(JBool(b.isDeleted))),
     ("deleted_at", Moment(b.deletedAt)),
     ("metadata", BaseModel.PlainValue(b.metadata))]
  }

  lemma FieldNamesDistinct()
    ensures forall i, j :: 0 <= i < j < |FieldNames| ==> FieldNames[i] != FieldNames[j]
  {
  }

  const FieldNames: seq<string> := OwnColumns + InheritedColumns

  /** `id`, `created_at` and the columns the user model declares. */
  const OwnColumns: seq<string> := [
    "id", "created_at", "username", "email", "full_name", "password_hash", "is_active",
    "is_verified", "role", "permissions", "status", "last_login", "login_count", "api_key",
    "api_key_expires_at", "rate_limit_per_minute", "avatar_url", "timezone", "language",
    "failed_login_attempts", "locked_until", "password_changed_at"]

  /** The other columns inherited from the base model. */
  const InheritedColumns: seq<string> := ["updated_at", "is_deleted", "deleted_at", "metadata"]

  /** The entries `to_dict` adds to the columns. */
  const ComputedFields: seq<string> := ["is_locked", "is_admin", "can_login", "display_name"]

  /** The fields `to_dict` leaves out unless asked for sensitive data. */
  const SensitiveFields: seq<string> := ["password_hash", "api_key"]

  class User {
    const id: Uuid
    var username: string
    var email: string
    var fullName: Option<string>
    var passwordHash: string
    var isActive: bool
    var isVerified: bool
    var role: UserRecord.UserRole
    var permissions: Option<seq<string>>
    var status: UserRecord.UserStatus
    var lastLogin: Option<Time>
    var loginCount: int
    var apiKey: Option<string>
    var apiKeyExpiresAt: Option<Time>
    var rateLimitPerMinute: int
    var avatarUrl: Option<string>
    var timezone: string
    var language: string
    var failedLoginAttempts: int
    var lockedUntil: Option<Time>
    var passwordChangedAt: Option<Time>
    var createdAt: Time
    var base: BaseModel.BaseColumns

    /** The row this object would store. */
    function Row(): UserRecord.UserRow
      reads this
    {
      UserRecord.UserRow(id, username, email, fullName, passwordHash, isActive, isVerified, role,
                         permissions, status, lastLogin, loginCount, apiKey, apiKeyExpiresAt,
                         rateLimitPerMinute, avatarUrl, timezone, language, failedLoginAttempts,
                         lockedUntil, passwordChangedAt, createdAt, base)
    }

    /** The object the ORM builds when it loads `r`. */
    constructor FromRow(r: UserRecord.UserRow)
      ensures Row() == r
    {
      id := r.id;
      username, email, fullName, passwordHash := r.username, r.email, r.fullName, r.passwordHash;
      isActive, isVerified, role, permissions, status := r.isActive, r.isVerified, r.role, r.permissions, r.status;
      lastLogin, loginCount, apiKey, apiKeyExpiresAt := r.lastLogin, r.loginCount, r.apiKey, r.apiKeyExpiresAt;
      rateLimitPerMinute, avatarUrl, timezone, language := r.rateLimitPerMinute, r.avatarUrl, r.timezone, r.language;
      failedLoginAttempts, lockedUntil, passwordChangedAt := r.failedLoginAttempts, r.lockedUntil, r.passwordChangedAt;
      createdAt, base := r.createdAt, r.base;
    }

    /** `save()`: the table now stores this object's row. */
    method Save(table: Table<UserRecord.UserRow>)
      modifies table
      ensures table.rows == old(table.rows)[id := Row()]
    {
      table.rows := table.rows[id := Row()];
    }

    /** `set_password(password)`, with `hash` its hash: in memory only. */
    method SetPassword(hash: string, now: Time)
      modifies this
      ensures Row() == UserRecord.SetPassword(old(Row()), hash, now)
    {
      passwordHash := hash;
      passwordChangedAt := Some(now);
    }

    /** `record_login()`. */
    method RecordLogin(now: Time, table: Table<UserRecord.UserRow>)
      modifies this, table
      ensures Row() == UserRecord.RecordLogin(old(Row()), now)
      ensures table.rows == old(table.rows)[id := Row()]
    {
      lastLogin := Some(now);
      loginCount := loginCount + 1;
      failedLoginAttempts := 0;
      Save(table);
    }

    /** `record_failed_login()`. */
    method RecordFailedLogin(now: Time, table: Table<UserRecord.UserRow>)
      modifies this, table
      ensures Row() == UserRecord.RecordFailedLogin(old(Row()), now)
      ensures table.rows == old(table.rows)[id := Row()]
    {
      failedLoginAttempts := failedLoginAttempts + 1;
      if failedLoginAttempts >= UserRecord.MaxFailedAttempts {
        lockedUntil := Some(now + UserRecord.LockSeconds);
      }
      Save(table);
    }

    /** `unlock_account()`. */
    method UnlockAccount(table: Table<UserRecord.UserRow>)
      modifies this, table
      ensures Row() == UserRecord.UnlockAccount(old(Row()))
      ensures table.rows == old(table.rows)[id := Row()]
    {
      lockedUntil := None;
      failedLoginAttempts := 0;
      Save(table);
    }

    /** `activate()`. */
    method Activate(table: Table<UserRecord.UserRow>)
      modifies this, table
      ensures Row() == UserRecord.Activate(old(Row()))
      ensures table.rows == old(table.rows)[id := Row()]
    {
      isActive := true;
      status := UserRecord.Active;
      Save(table);
    }

    /** `deactivate()`. */
    method Deactivate(table: Table<UserRecord.UserRow>)
      modifies this, table
      ensures Row() == UserRecord.Deactivate(old(Row()))
      ensures table.rows == old(table.rows)[id := Row()]
    {
      isActive := false;
      status := UserRecord.Inactive;
      Save(table);
    }

    /** `suspend()`. */
    method Suspend(table: Table<UserRecord.UserRow>)
      modifies this, table
      ensures Row() == UserRecord.Suspend(old(Row()))
      ensures table.rows == old(table.rows)[id := Row()]
    {
      status := UserRecord.Suspended;
      Save(table);
    }

    /** `add_permission(permission)`: in memory only. */
    method AddPermission(p: string)
      modifies this
      ensures Row() == old(Row()).(permissions := Some(UserRecord.AddPermission(old(permissions), p)))
    {
      if permissions.None? {
        permissions := Some([]);
      }
      if p !in permissions.value {
        permissions := Some(permissions.value + [p]);
      }
    }

    /** `remove_permission(permission)`: in memory only. */
    method RemovePermission(p: string) returns (removed: bool)
      modifies this
      ensures (removed, permissions) == UserRecord.RemovePermission(old(permissions), p)
      ensures Row() == old(Row()).(permissions := permissions)
    {
      if permissions.None? {
        return false;
      }
      if p in permissions.value {
        permissions := Some(RemoveFirst(permissions.value, p));
        return true;
      }
      return false;
    }

    /** `to_dict(exclude_fields, include_sensitive)`: the columns not
        excluded (the password hash and API key are excluded unless
        `includeSensitive`), plus the four computed entries. An empty or
        absent `exclude` is replaced by a fresh list; a non-empty one is the
        caller's list, which the method extends in place, and `callerList`
        is that list afterwards. */
    method ToDict(exclude: seq<string>, includeSensitive: bool, now: Time,
                  iso: Time -> string, uuidText: Uuid -> string)
      returns (data: map<string, Json>, callerList: seq<string>)
      ensures forall name :: name in data <==>
        name in ComputedFields
        || (name in FieldNames && name !in exclude && (includeSensitive || name !in SensitiveFields))
      ensures forall i :: 0 <= i < |FieldNames| && FieldNames[i] !in exclude
                          && (includeSensitive || FieldNames[i] !in SensitiveFields) ==>
        data[FieldNames[i]] == BaseModel.Render(Fields(Row())[i].1, iso, uuidText)
      ensures "password_hash" in data <==> includeSensitive && "password_hash" !in exclude
      ensures "api_key" in data <==> includeSensitive && "api_key" !in exclude
      ensures "username" in data <==> "username" !in exclude
      ensures "is_locked" in data && "is_admin" in data && "can_login" in data && "display_name" in data
      ensures data["is_locked"] == JBool(UserRecord.IsLocked(Row(), now))
      ensures data["is_admin"] == JBool(UserRecord.IsAdmin(Row()))
      ensures data["can_login"] == JBool(UserRecord.CanLogin(Row(), now))
      ensures data["display_name"] == JStr(UserRecord.DisplayName(Row()))
      ensures callerList == if exclude != [] && !includeSensitive then exclude + SensitiveFields else exclude
    {
      var excluded := if includeSensitive then exclude else exclude + SensitiveFields;
      callerList := if exclude != [] then excluded else exclude;
      var cols := BaseDict(excluded, iso, uuidText);
      var computed := map[
        "is_locked" := JBool(UserRecord.IsLocked(Row(), now)),
        "is_admin" := JBool(UserRecord.IsAdmin(Row())),
        "can_login" := JBool(UserRecord.CanLogin(Row(), now)),
        "display_name" := JStr(UserRecord.DisplayName(Row()))];
      data := cols + computed;
      DictShape(cols, computed, exclude, includeSensitive, excluded);
    }

    /** `super().to_dict(exclude_fields)`: the base model's conversion over
        this user's columns. */
    method BaseDict(excluded: seq<string>, iso: Time -> string, uuidText: Uuid -> string)
      returns (cols: map<string, Json>)
      ensures forall name :: name in cols <==> name in FieldNames && name !in excluded
      ensures forall i :: 0 <= i < |FieldNames| && FieldNames[i] !in excluded ==>
        cols[FieldNames[i]] == BaseModel.Render(Fields(Row())[i].1, iso, uuidText)
    {
      var fs := Fields(Row());
      cols := BaseModel.ToDict(fs, excluded, iso, uuidText);
      forall name
        ensures name in cols <==> name in FieldNames && name !in excluded
      {
        if name in FieldNames {
          var i :| 0 <= i < |FieldNames| && FieldNames[i] == name;
          assert fs[i].0 == name;
        }
      }
    }
  }

  /** The keys `to_dict` ends with: the columns left after the exclusions
      and the computed entries, which override no column. */
  lemma DictShape(cols: map<string, Json>, computed: map<string, Json>, exclude: seq<string>,
                  includeSensitive: bool, excluded: seq<string>)
    requires excluded == if includeSensitive then exclude else exclude + SensitiveFields
    requires forall name :: name in cols <==> name in FieldNames && name !in excluded
    requires computed.Keys == {"is_locked", "is_admin", "can_login", "display_name"}
    ensures forall name :: name in cols + computed <==>
      name in ComputedFields
      || (name in FieldNames && name !in exclude && (includeSensitive || name !in SensitiveFields))
    ensures forall name :: name in cols ==> (cols + computed)[name] == cols[name]
    ensures forall name :: name in excluded <==> name in exclude || (!includeSensitive && name in SensitiveFields)
    ensures "password_hash" in cols + computed <==> includeSensitive && "password_hash" !in exclude
    ensures "api_key" in cols + computed <==> includeSensitive && "api_key" !in exclude
    ensures "username" in cols + computed <==> "username" !in exclude
  {
    ComputedAreNotColumns();
    NamedColumns();
    assert forall name :: name in excluded <==> name in exclude || (!includeSensitive && name in SensitiveFields);
  }

  /** No computed entry shares a name with a column. */
  lemma ComputedAreNotColumns()
    ensures forall name :: name in ComputedFields ==> name !in FieldNames
    ensures "is_locked" in ComputedFields && "is_admin" in ComputedFields
    ensures "can_login" in ComputedFields && "display_name" in ComputedFields
  {
    ComputedAreNotOwn();
    ComputedAreNotInherited();
  }

  lemma ComputedAreNotOwn()
    ensures forall name :: name in ComputedFields ==> name !in OwnColumns
  {
  }

  lemma ComputedAreNotInherited()
    ensures forall name :: name in ComputedFields ==> name !in InheritedColumns
  {
  }

  /** The columns the dedicated clauses of `to_dict` mention. */
  lemma NamedColumns()
    ensures "username" in FieldNames && "password_hash" in FieldNames && "api_key" in FieldNames
    ensures "username" !in SensitiveFields
    ensures "password_hash" in SensitiveFields && "api_key" in SensitiveFields
  {
    assert OwnColumns[2] == "username" && OwnColumns[5] == "password_hash" && OwnColumns[13] == "api_key";
  }

  /** Loads the row stored under `id` as a fresh object, or None. */
  method Load(table: Table<UserRecord.UserRow>, id: Uuid) returns (u: User?)
    ensures u == null <==> id !in table.rows
    ensures u != null ==> fresh(u) && u.Row() == table.rows[id]
    ensures u != null && Keyed(table.rows) ==> u.id == id
  {
    if id !in table.rows {
      return null;
    }
    u := new User.FromRow(table.rows[id]);
  }
}

=== FILE: user_record.dfy ===
/** Accounts, login accounting and permissions
    (agaip/database/models/user.py) as rules over one stored row. */
module UserRecord {
  import opened Common
  import opened Lists
  import BaseModel

  datatype UserRole = Admin | User | Viewer | ApiClient

  datatype UserStatus = Active | Inactive | Suspended | Pending

  /** One row of the `users` table; `passwordHash` is the stored hash. */
  datatype UserRow = UserRow(
    id: Uuid,
    username: string,
    email: string,
    fullName: Option<string>,
    passwordHash: string,
    isActive: bool,
    isVerified: bool,
    role: UserRole,
    permissions: Option<seq<string>>,
    status: UserStatus,
    lastLogin: Option<Time>,
    loginCount: int,
    apiKey: Option<string>,
    apiKeyExpiresAt: Option<Time>,
    rateLimitPerMinute: int,
    avatarUrl: Option<string>,
    timezone: string,
    language: string,
    failedLoginAttempts: int,
    lockedUntil: Option<Time>,
    passwordChangedAt: Option<Time>,
    createdAt: Time,
    base: BaseModel.BaseColumns)

  /** Failed attempts from which the account is locked. */
  const MaxFailedAttempts: int := 5

  /** How long a lock lasts: 30 minutes. */
  const LockSeconds: int := 30 * SecondsPerMinute

  /** `is_locked`, with `now` the clock reading it takes. */
  predicate IsLocked(r: UserRow, now: Time)
  {
    r.lockedUntil.Some? && now < r.lockedUntil.value
  }

  /** `is_admin`. */
  predicate IsAdmin(r: UserRow)
  {
    r.role == Admin
  }

  /** `can_login`. */
  predicate CanLogin(r: UserRow, now: Time)
  {
    r.isActive && !IsLocked(r, now) && (r.status == Active || r.status == Pending)
  }

  /** `display_name`: the full name when it is a non-empty string. */
  function DisplayName(r: UserRow): (name: string)
    ensures r.fullName.Some? && r.fullName.value != "" ==> name == r.fullName.value
    ensures r.fullName.None? || r.fullName.value == "" ==> name == r.username
  {
    if r.fullName.Some? && r.fullName.value != "" then r.fullName.value else r.username
  }

  /** `set_password`, with `hash` the hash of the new password. */
  function SetPassword(r: UserRow, hash: string, now: Time): (q: UserRow)
    ensures q.passwordHash == hash && q.passwordChangedAt == Some(now)
    ensures q.(passwordHash := r.passwordHash, passwordChangedAt := r.passwordChangedAt) == r
  {
    r.(passwordHash := hash, passwordChangedAt := Some(now))
  }

  /** `record_login`. */
  function RecordLogin(r: UserRow, now: Time): (q: UserRow)
    ensures q.lastLogin == Some(now) && q.loginCount == r.loginCount + 1 && q.failedLoginAttempts == 0
    ensures q.(lastLogin := r.lastLogin, loginCount := r.loginCount,
               failedLoginAttempts := r.failedLoginAttempts) == r
  {
    r.(lastLogin := Some(now), loginCount := r.loginCount + 1, failedLoginAttempts := 0)
  }

  /** `record_failed_login`: one more failed attempt; from the fifth on,
      every failure (re)sets the lock to 30 minutes after it. */
  function RecordFailedLogin(r: UserRow, now: Time): (q: UserRow)
    ensures q.failedLoginAttempts == r.failedLoginAttempts + 1
    ensures q.failedLoginAttempts >= MaxFailedAttempts ==> q.lockedUntil == Some(now + LockSeconds)
    ensures q.failedLoginAttempts < MaxFailedAttempts ==> q.lockedUntil == r.lockedUntil
    ensures q.(failedLoginAttempts := r.failedLoginAttempts, lockedUntil := r.lockedUntil) == r
  {
    var attempts := r.failedLoginAttempts + 1;
    if attempts >= MaxFailedAttempts then
      r.(failedLoginAttempts := attempts, lockedUntil := Some(now + LockSeconds))
    else
      r.(failedLoginAttempts := attempts)
  }

  /** `unlock_account`. */
  function UnlockAccount(r: UserRow): (q: UserRow)
    ensures q.lockedUntil == None && q.failedLoginAttempts == 0
    ensures q.(lockedUntil := r.lockedUntil, failedLoginAttempts := r.failedLoginAttempts) == r
  {
    r.(lockedUntil := None, failedLoginAttempts := 0)
  }

  /** `activate`. */
  function Activate(r: UserRow): (q: UserRow)
    ensures q.isActive && q.status == Active
    ensures q.(isActive := r.isActive, status := r.status) == r
  {
    r.(isActive := true, status := Active)
  }

  /** `deactivate`. */
  function Deactivate(r: UserRow): (q: UserRow)
    ensures !q.isActive && q.status == Inactive
    ensures q.(isActive := r.isActive, status := r.status) == r
  {
    r.(isActive := false, status := Inactive)
  }

  /** `suspend`: only the status changes. */
  function Suspend(r: UserRow): (q: UserRow)
    ensures q.status == Suspended && q.(status := r.status) == r
  {
    r.(status := Suspended)
  }

  // ---------------------------------------------------------------------
  // Permissions: a list, None until the first is added; ADMIN has all.

  /** `add_permission`: appended unless already present. */
  function AddPermission(perms: Option<seq<string>>, p: string): (r: seq<string>)
    ensures p in r
    ensures perms.Some? && p in perms.value ==> r == perms.value
    ensures perms.Some? && p !in perms.value ==> r == perms.value + [p]
    ensures perms.None? ==> r == [p]
  {
    var current := perms.GetOr([]);
    if p in current then current else current + [p]
  }

  /** `remove_permission`: whether it was present, and the list after. */
  function RemovePermission(perms: Option<seq<string>>, p: string): (r: (bool, Option<seq<string>>))
    ensures r.0 <==> perms.Some? && p in perms.value
    ensures !r.0 ==> r.1 == perms
    ensures r.0 ==> r.1 == Some(RemoveFirst(perms.value, p))
  {
    match perms
    case None => (false, None)
    case Some(ps) => if p in ps then (true, Some(RemoveFirst(ps, p))) else (false, perms)
  }

  /** `has_permission`. */
  predicate HasPermission(r: UserRow, p: string)
  {
    r.role == Admin || (r.permissions.Some? && p in r.permissions.value)
  }

  /** `has_any_permission`: `any(...)` over the list, left to right. */
  function HasAnyPermission(r: UserRow, ps: seq<string>): (b: bool)
    ensures b <==> exists i :: 0 <= i < |ps| && HasPermission(r, ps[i])
  {
    if ps == [] then false
    else HasPermission(r, ps[0]) || HasAnyPermission(r, ps[1..])
  }

  /** `has_all_permissions`: `all(...)` over the list, left to right. */
  function HasAllPermissions(r: UserRow, ps: seq<string>): (b: bool)
    ensures b <==> forall i :: 0 <= i < |ps| ==> HasPermission(r, ps[i])
  {
    if ps == [] then true
    else HasPermission(r, ps[0]) && HasAllPermissions(r, ps[1..])
  }

  // ---------------------------------------------------------------------
  // Properties.

  /** The failures of one run of attempts, each at its own instant. */
  function FailMany(r: UserRow, times: seq<Time>): UserRow
    decreases |times|
  {
    if times == [] then r else FailMany(RecordFailedLogin(r, times[0]), times[1..])
  }

  /** Counting failures: after `n` failures the counter grew by `n`; once it
      reaches five the lock runs until 30 minutes after the last failure,
      and before that the lock is whatever it was. */
  lemma {:induction false} FailuresLockAccount(r: UserRow, times: seq<Time>)
    requires times != []
    ensures FailMany(r, times).failedLoginAttempts == r.failedLoginAttempts + |times|
    ensures r.failedLoginAttempts + |times| >= MaxFailedAttempts ==>
      FailMany(r, times).lockedUntil == Some(times[|times| - 1] + LockSeconds)
    ensures r.failedLoginAttempts + |times| < MaxFailedAttempts ==>
      FailMany(r, times).lockedUntil == r.lockedUntil
    decreases |times|
  {
    var next := RecordFailedLogin(r, times[0]);
    if |times| > 1 {
      FailuresLockAccount(next, times[1..]);
      assert times[1..][|times[1..]| - 1] == times[|times| - 1];
    }
  }

  /** Five failures in a row lock a fresh account for the 30 minutes after
      the fifth, during which it cannot log in. */
  lemma FiveFailuresLock(r: UserRow, times: seq<Time>, t: Time)
    requires r.failedLoginAttempts == 0 && |times| == 5
    requires times[4] <= t < times[4] + 30 * 60
    ensures IsLocked(FailMany(r, times), t)
    ensures !CanLogin(FailMany(r, times), t)
  {
    FailuresLockAccount(r, times);
  }

  /** Four failures never lock an account that was not locked. */
  lemma FourFailuresDoNotLock(r: UserRow, times: seq<Time>, t: Time)
    requires r.failedLoginAttempts == 0 && r.lockedUntil == None && 1 <= |times| <= 4
    ensures !IsLocked(FailMany(r, times), t)
  {
    FailuresLockAccount(r, times);
  }

  /** `can_login` after the status operations. */
  lemma StatusOperationsAndLogin(r: UserRow, now: Time)
    ensures CanLogin(Activate(r), now) <==> !IsLocked(r, now)
    ensures !CanLogin(Deactivate(r), now)
    ensures !CanLogin(Suspend(r), now)
    ensures CanLogin(UnlockAccount(r), now) <==> r.isActive && (r.status == Active || r.status == Pending)
  {
  }

  /** A lock is lifted by time alone: once `locked_until` has passed the
      account is unlocked, and a lock seen at `now` was seen at every
      earlier instant too. */
  lemma LockExpires(r: UserRow, earlier: Time, now: Time)
    requires earlier <= now
    ensures IsLocked(r, now) ==> IsLocked(r, earlier)
    ensures r.lockedUntil.Some? && now >= r.lockedUntil.value ==> !IsLocked(r, now)
  {
  }

  /** Admins have every permission; other roles exactly those listed.
      `add_permission` grants, keeps the list free of duplicates, and
      `remove_permission` then revokes completely. */
  lemma {:induction false} PermissionsAddAndRemove(r: UserRow, p: string, q: string)
    requires r.permissions.Some? ==> NoDuplicates(r.permissions.value)
    ensures HasPermission(r.(permissions := Some(AddPermission(r.permissions, p))), p)
    ensures NoDuplicates(AddPermission(r.permissions, p))
    ensures q != p ==> (HasPermission(r.(permissions := Some(AddPermission(r.permissions, p))), q)
                        <==> HasPermission(r, q))
    ensures r.role != Admin ==> !HasPermission(r.(permissions := RemovePermission(r.permissions, p).1), p)
    ensures r.role == Admin ==> HasPermission(r, q)
  {
    if r.permissions.Some? && p in r.permissions.value {
      RemoveFirstFromDistinct(r.permissions.value, p);
    }
  }
}

=== FILE: user_repository.dfy ===
/** The user repository (agaip/database/repositories/user.py): account
    creation, the authentication decision sequence, API keys and the
    per-user administrative operations over the `users` table. */
module UserRepository {
  import opened Common
  import opened Tables
  import opened BaseRepository
  import opened UserRecord
  import UserModel
  import BaseModel

  /** The database's unique constraints on usernames and e-mail addresses. */
  ghost predicate Unique(rows: map<Uuid, UserRow>)
  {
    && (forall i, j :: i in rows && j in rows && rows[i].username == rows[j].username ==> i == j)
    && (forall i, j :: i in rows && j in rows && rows[i].email == rows[j].email ==> i == j)
  }

  /** The table's standing invariant. */
  ghost predicate Valid(rows: map<Uuid, UserRow>)
  {
    UserModel.Keyed(rows) && Unique(rows)
  }

  /** The row `create_user` stores: ACTIVE when created active, otherwise
      PENDING; `hash` is the hash of the password, `now` the creation time. */
  function NewUser(id: Uuid, username: string, email: string, hash: string, fullName: Option<string>,
                   role: UserRole, isActive: bool, now: Time): (r: UserRow)
    ensures r.id == id && r.username == username && r.email == email && r.role == role
    ensures r.isActive == isActive && r.status == (if isActive then Active else Pending)
    ensures r.passwordHash == hash && r.passwordChangedAt == Some(now)
    ensures r.failedLoginAttempts == 0 && r.lockedUntil == None && r.apiKey == None
    ensures r.createdAt == now && r.base == BaseModel.BaseColumns(now, false, None, JObject(map[]))
  {
    UserRow(id, username, email, fullName, hash, isActive, false, role, Some([]),
            if isActive then Active else Pending, None, 0, None, None, 100, None, "UTC", "en",
            0, None, Some(now), now, BaseModel.BaseColumns(now, false, None, JObject(map[])))
  }

  /** A new account can log in exactly when it was created active. */
  lemma NewUserCanLoginIffActive(id: Uuid, username: string, email: string, hash: string,
                                 fullName: Option<string>, role: UserRole, isActive: bool, now: Time, t: Time)
    ensures CanLogin(NewUser(id, username, email, hash, fullName, role, isActive, now), t) <==> isActive
  {
  }

  /** The decision `authenticate_user` takes once it has found the account:
      whether it logs in, and the row it leaves behind. `passwordOk` is the
      outcome of `verify_password`. */
  function AuthenticateRow(u: UserRow, passwordOk: bool, now: Time): (r: (bool, UserRow))
    ensures r.0 <==> !IsLocked(u, now) && passwordOk && CanLogin(u, now)
    ensures IsLocked(u, now) ==> r.1 == u
    ensures !IsLocked(u, now) && !passwordOk ==> r.1 == RecordFailedLogin(u, now)
    ensures !IsLocked(u, now) && passwordOk && !CanLogin(u, now) ==> r.1 == u
    ensures r.0 ==> r.1 == RecordLogin(u, now)
  {
    if IsLocked(u, now) then (false, u)
    else if !passwordOk then (false, RecordFailedLogin(u, now))
    else if !CanLogin(u, now) then (false, u)
    else (true, RecordLogin(u, now))
  }

  /** A locked account cannot be opened by guessing: while the lock lasts,
      nothing is recorded and no password gets in. Once unlocked, a run of
      five wrong passwords locks it again. */
  lemma LockedAccountIgnoresAttempts(u: UserRow, passwordOk: bool, now: Time)
    requires IsLocked(u, now)
    ensures AuthenticateRow(u, passwordOk, now) == (false, u)
  {
  }

  /** The fifth consecutive wrong password locks the account for the
      next 30 minutes. */
  lemma FifthWrongPasswordLocks(u: UserRow, now: Time, later: Time)
    requires !IsLocked(u, now) && u.failedLoginAttempts == MaxFailedAttempts - 1
    requires now <= later < now + LockSeconds
    ensures var after := AuthenticateRow(u, false, now).1;
      IsLocked(after, later) && !AuthenticateRow(after, true, later).0
  {
  }

  /** A successful login clears the failure count. */
  lemma LoginClearsFailures(u: UserRow, now: Time)
    requires AuthenticateRow(u, true, now).0
    ensures AuthenticateRow(u, true, now).1.failedLoginAttempts == 0
    ensures AuthenticateRow(u, true, now).1.loginCount == u.loginCount + 1
  {
  }

  /** The account `authenticate_user(login, …)` finds: by username first,
      then by e-mail address. */
  ghost predicate Found(rows: map<Uuid, UserRow>, login: string, k: Uuid)
  {
    k in rows &&
    (rows[k].username == login
     || ((forall j :: j in rows ==> rows[j].username != login) && rows[k].email == login))
  }

  /** `create_user(...)`: the new account is stored under a fresh key.
      Duplicate usernames or addresses are refused by the database. */
  method CreateUser(table: Table<UserRow>, id: Uuid, username: string, email: string, hash: string,
                    fullName: Option<string>, role: UserRole, isActive: bool, now: Time)
    returns (user: UserRow)
    requires Valid(table.rows) && id !in table.rows
    requires forall k :: k in table.rows ==> table.rows[k].username != username && table.rows[k].email != email
    modifies table
    ensures user == NewUser(id, username, email, hash, fullName, role, isActive, now)
    ensures table.rows == old(table.rows)[id := user]
    ensures Valid(table.rows)
  {
    user := NewUser(id, username, email, hash, fullName, role, isActive, now);
    table.rows := table.rows[id := user];
  }

  /** `authenticate_user(login, password)`: the account found by username
      or e-mail goes through `AuthenticateRow`; its row is written back only
      when a login or a failure was recorded. */
  method Authenticate(table: Table<UserRow>, login: string, password: string,
                      verify: (string, string) -> bool, now: Time)
    returns (user: Option<UserRow>)
    requires Valid(table.rows)
    modifies table
    ensures Valid(table.rows)
    ensures (forall k :: !Found(old(table.rows), login, k)) ==> user == None && table.rows == old(table.rows)
    ensures forall k :: Found(old(table.rows), login, k) ==>
      var decision := AuthenticateRow(old(table.rows)[k], verify(password, old(table.rows)[k].passwordHash), now);
      && table.rows == old(table.rows)[k := decision.1]
      && user == (if decision.0 then Some(decision.1) else None)
  {
    var byName := FindOne(table.rows, (r: UserRow) => r.username == login);
    var found := byName;
    if found.None? {
      found := FindOne(table.rows, (r: UserRow) => r.email == login);
    }
    if found.None? {
      return None;
    }
    var k := found.value;
    assert Found(table.rows, login, k);
    assert forall j :: Found(table.rows, login, j) ==> j == k;
    ghost var before := table.rows;
    var u := UserModel.Load(table, k);
    if IsLocked(u.Row(), now) {
      assert before == before[k := before[k]];
      return None;
    }
    if !verify(password, u.passwordHash) {
      u.RecordFailedLogin(now, table);
      return None;
    }
    if !CanLogin(u.Row(), now) {
      assert before == before[k := before[k]];
      return None;
    }
    u.RecordLogin(now, table);
    return Some(u.Row());
  }

  /** `generate_api_key(user_id, expires_in_days)`: `token` is the output
      of `secrets.token_urlsafe(32)`. */
  method GenerateApiKey(table: Table<UserRow>, id: Uuid, days: int, token: string, now: Time,
                        uuidText: Uuid -> string)
    returns (res: Result<string, Exception>)
    modifies table
    ensures res.Err? <==> id !in old(table.rows)
    ensures res.Err? ==> res.error == DatabaseError("User with ID " + uuidText(id) + " not found")
                         && table.rows == old(table.rows)
    ensures res.Ok? ==> res.value == "agaip_" + token
    ensures res.Ok? ==> table.rows == old(table.rows)[id := old(table.rows)[id].(apiKey := Some(res.value),
                          apiKeyExpiresAt := Some(now + days * SecondsPerDay))]
  {
    if id !in table.rows {
      return Err(DatabaseError("User with ID " + uuidText(id) + " not found"));
    }
    var key := "agaip_" + token;
    var row := table.rows[id];
    table.rows := table.rows[id := row.(apiKey := Some(key), apiKeyExpiresAt := Some(now + days * SecondsPerDay))];
    return Ok(key);
  }

  /** A key is present when it is set and not the empty string. */
  predicate HasKey(r: UserRow)
  {
    r.apiKey.Some? && r.apiKey.value != ""
  }

  /** `revoke_api_key(user_id)`. */
  method RevokeApiKey(table: Table<UserRow>, id: Uuid) returns (revoked: bool)
    modifies table
    ensures revoked <==> id in old(table.rows) && HasKey(old(table.rows)[id])
    ensures !revoked ==> table.rows == old(table.rows)
    ensures revoked ==> table.rows == old(table.rows)[id := old(table.rows)[id].(apiKey := None, apiKeyExpiresAt := None)]
  {
    if id in table.rows && HasKey(table.rows[id]) {
      table.rows := table.rows[id := table.rows[id].(apiKey := None, apiKeyExpiresAt := None)];
      return true;
    }
    return false;
  }

  /** `add_user_permission(user_id, permission)`. */
  method AddUserPermission(table: Table<UserRow>, id: Uuid, p: string) returns (found: bool)
    requires UserModel.Keyed(table.rows)
    modifies table
    ensures found <==> id in old(table.rows)
    ensures !found ==> table.rows == old(table.rows)
    ensures found ==> table.rows == old(table.rows)[id := old(table.rows)[id].(permissions :=
                                      Some(AddPermission(old(table.rows)[id].permissions, p)))]
  {
    var u := UserModel.Load(table, id);
    if u == null {
      return false;
    }
    u.AddPermission(p);
    u.Save(table);
    return true;
  }

  /** `remove_user_permission(user_id, permission)`: saved only when
      something was removed. */
  method RemoveUserPermission(table: Table<UserRow>, id: Uuid, p: string) returns (removed: bool)
    requires UserModel.Keyed(table.rows)
    modifies table
    ensures removed <==> id in old(table.rows) && RemovePermission(old(table.rows)[id].permissions, p).0
    ensures !removed ==> table.rows == old(table.rows)
    ensures removed ==> table.rows == old(table.rows)[id := old(table.rows)[id].(permissions :=
                                        RemovePermission(old(table.rows)[id].permissions, p).1)]
  {
    var u := UserModel.Load(table, id);
    if u == null {
      return false;
    }
    removed := u.RemovePermission(p);
    if removed {
      u.Save(table);
    }
  }

  /** `unlock_user(user_id)`: acts only on an account locked at `now`. */
  method UnlockUser(table: Table<UserRow>, id: Uuid, now: Time) returns (unlocked: bool)
    requires UserModel.Keyed(table.rows)
    modifies table
    ensures unlocked <==> id in old(table.rows) && IsLocked(old(table.rows)[id], now)
    ensures !unlocked ==> table.rows == old(table.rows)
    ensures unlocked ==> table.rows == old(table.rows)[id := UnlockAccount(old(table.rows)[id])]
  {
    var u := UserModel.Load(table, id);
    if u == null || !IsLocked(u.Row(), now) {
      return false;
    }
    u.UnlockAccount(table);
    return true;
  }

  /** `suspend_user(user_id)`. */
  method SuspendUser(table: Table<UserRow>, id: Uuid) returns (found: bool)
    requires UserModel.Keyed(table.rows)
    modifies table
    ensures found <==> id in old(table.rows)
    ensures !found ==> table.rows == old(table.rows)
    ensures found ==> table.rows == old(table.rows)[id := Suspend(old(table.rows)[id])]
  {
    var u := UserModel.Load(table, id);
    if u == null {
      return false;
    }
    u.Suspend(table);
    return true;
  }

  /** `activate_user(user_id)`. */
  method ActivateUser(table: Table<UserRow>, id: Uuid) returns (found: bool)
    requires UserModel.Keyed(table.rows)
    modifies table
    ensures found <==> id in old(table.rows)
    ensures !found ==> table.rows == old(table.rows)
    ensures found ==> table.rows == old(table.rows)[id := Activate(old(table.rows)[id])]
  {
    var u := UserModel.Load(table, id);
    if u == null {
      return false;
    }
    u.Activate(table);
    return true;
  }

  /** Whether `cleanup_expired_api_keys` selects a user at `now`: a key is
      stored (even an empty one) and its expiry has passed. */
  predicate KeyExpired(r: UserRow, now: Time)
  {
    r.apiKey.Some? && r.apiKeyExpiresAt.Some? && r.apiKeyExpiresAt.value < now
  }

  /** The table after clearing the keys of the users in `ks`. */
  function ClearKeys(rows: map<Uuid, UserRow>, ks: set<Uuid>): (r: map<Uuid, UserRow>)
    ensures r.Keys == rows.Keys
    ensures forall k :: k in rows ==>
      r[k] == if k in ks then rows[k].(apiKey := None, apiKeyExpiresAt := None) else rows[k]
  {
    map k | k in rows :: if k in ks then rows[k].(apiKey := None, apiKeyExpiresAt := None) else rows[k]
  }

  /** The users whose key has expired at `now`. */
  function ExpiredKeys(rows: map<Uuid, UserRow>, now: Time): set<Uuid>
  {
    set k | k in rows && KeyExpired(rows[k], now)
  }

  /** `cleanup_expired_api_keys()`: clears key and expiry of exactly the
      users whose key has expired, and returns how many there were. */
  method CleanupExpiredApiKeys(table: Table<UserRow>, now: Time) returns (count: nat)
    modifies table
    ensures count == CountWhere(old(table.rows), (r: UserRow) => KeyExpired(r, now))
    ensures table.rows == ClearKeys(old(table.rows), ExpiredKeys(old(table.rows), now))
  {
    var expired := (r: UserRow) => KeyExpired(r, now);
    var ks := SelectKeys(table.rows, expired);
    ghost var before := table.rows;
    var rows, done := ClearEach(table.rows, ks);
    count := |ks|;
    forall k
      ensures k in done <==> k in ExpiredKeys(before, now)
    {
      assert k in ks <==> k in before && expired(before[k]);
    }
    assert done == ExpiredKeys(before, now);
    if |ks| > 0 {
      table.rows := rows;
    }
  }

  /** The loop of `cleanup_expired_api_keys`, on the loaded users. */
  method ClearEach(rows: map<Uuid, UserRow>, ks: seq<Uuid>) returns (cleared: map<Uuid, UserRow>, ghost done: set<Uuid>)
    requires forall k :: k in ks ==> k in rows
    ensures forall k :: k in done <==> k in ks
    ensures cleared == ClearKeys(rows, done)
  {
    done := {};
    cleared := rows;
    var i := 0;
    while i < |ks|
      invariant i <= |ks|
      invariant forall k :: k in done <==> k in ks[..i]
      invariant cleared == ClearKeys(rows, done)
    {
      var k := ks[i];
      assert ks[..i + 1] == ks[..i] + [k];
      cleared := cleared[k := cleared[k].(apiKey := None, apiKeyExpiresAt := None)];
      done := done + {k};
      i := i + 1;
    }
    assert ks[..i] == ks;
  }

  /** After the clean-up no stored user holds an expired key, and every
      other user is untouched. */
  lemma CleanupLeavesNoExpiredKey(rows: map<Uuid, UserRow>, now: Time)
    ensures var after := ClearKeys(rows, ExpiredKeys(rows, now));
      && (forall k :: k in after ==> !KeyExpired(after[k], now))
      && (forall k :: k in rows && !KeyExpired(rows[k], now) ==> after[k] == rows[k])
  {
  }
}

=== FILE: worker_tasks.dfy ===
/** The background jobs (agaip/services/tasks.py): running one task on its
    agent's plugin, the periodic agent health check and the two periodic
    repository jobs. The worker's own retry machinery, the plugin and the
    clock are inputs: `plugin` is what loading the plugin and calling
    `predict(payload)` yields, value or exception. Published events are
    kept, in order, in `published`. */
module WorkerTasks {
  import opened Common
  import opened Tables
  import opened BaseRepository
  import opened TaskRecord
  import opened AgentRecord
  import TaskModel
  import AgentModel
  import TaskRepository
  import AgentRepository
  import AgentService

  /** `TaskStartedEvent`, `TaskCompletedEvent`, `TaskFailedEvent`; task ids
      are the text the job was given. */
  datatype TaskEvent =
    | TaskStarted(taskId: string, agentName: string)
    | TaskCompleted(taskId: string, agentName: string, result: Json, duration: real)
    | TaskFailed(taskId: string, agentName: string, error: string, errorType: string)

  /** How `process_task_async` ends: with the plugin's result, with a
      retry scheduled (`celery_task.retry(countdown=60, exc=e)`), or by
      raising. */
  datatype ProcessResult =
    | Done(result: Json)
    | RetryIn(countdown: nat, cause: Exception)
    | Raised(error: Exception)

  const RetryCountdown: nat := 60

  /** What the job raises when the task id is not a UUID: the handler reads
      `task` before anything was assigned to it. */
  const UnboundTask: Exception :=
    Exception("UnboundLocalError", "cannot access local variable 'task' where it is not associated with a value")

  function NotFound(taskRef: string, agentName: string): (e: Exception)
    ensures e.kind == "Exception"
  {
    Exception("Exception", "Task " + taskRef + " or Agent " + agentName + " not found")
  }

  /** The key of the agent with this name, if any (names are unique). */
  ghost function AgentNamed(rows: map<Uuid, AgentRow>, name: string): (k: Option<Uuid>)
    ensures k.Some? <==> exists j :: j in rows && rows[j].name == name
    ensures k.Some? ==> k.value in rows && rows[k.value].name == name
  {
    if exists j :: j in rows && rows[j].name == name then
      var j :| j in rows && rows[j].name == name; Some(j)
    else None
  }

  /** `task.duration_seconds or 0`. */
  function DurationOrZero(d: Option<int>): (t: real)
    ensures d.Some? ==> t == d.value as real
    ensures d.None? ==> t == 0.0
  {
    if d.Some? then d.value as real else 0.0
  }

  /** A queued task after `start_processing()` at `startAt` and
      `complete_successfully(value)` at `endAt`. */
  function Ran(r: TaskRow, value: Json, startAt: Time, endAt: Time): (q: TaskRow)
    requires r.status == Queued
  {
    CompleteSuccessfully(StartProcessing(r, startAt).value, value, endAt).value
  }

  /** An agent after the handler's `record_task_completion(False, 0)` and
      `set_error(str(e))`. */
  function Faulted(a: AgentRow, message: string): (q: AgentRow)
  {
    SetError(RecordTaskCompletion(a, false, 0.0), message)
  }

  /** The exception the body of the `try` raises, or None when it returns;
      `started` says whether `start_processing()` was reached. */
  function Thrown(task: Option<TaskRow>, named: bool, plugin: Result<Json, Exception>,
                  taskRef: string, agentName: string, startAt: Time): Option<Exception>
  {
    if task.None? || !named then Some(NotFound(taskRef, agentName))
    else if task.value.status != Queued then Some(StartProcessing(task.value, startAt).error)
    else if plugin.Err? then Some(plugin.error)
    else None
  }

  /** The tables, the events and the ending of one `process_task_async`. */
  datatype Run = Run(tasks: map<Uuid, TaskRow>, agents: map<Uuid, AgentRow>, events: seq<TaskEvent>,
                     result: ProcessResult)

  /** `process_task_async(task_id, agent_id, payload)` on the tables
      `tasks` and `agents`; `parse` stands for `UUID(task_id)` (None where
      it raises), `retries` and `maxRetries` for the worker's counters. */
  ghost function Processed(tasks: map<Uuid, TaskRow>, agents: map<Uuid, AgentRow>, taskRef: string,
                           parse: string -> Option<Uuid>, agentName: string, plugin: Result<Json, Exception>,
                           retries: nat, maxRetries: nat, startAt: Time, endAt: Time): Run
  {
    if parse(taskRef).None? then Run(tasks, agents, [], Raised(UnboundTask))
    else Execute(tasks, agents, parse(taskRef).value, AgentNamed(agents, agentName), taskRef, agentName, plugin,
                 retries, maxRetries, startAt, endAt)
  }

  /** The run once the task id is known, with `agent` the key of the agent
      looked up by name. */
  function Execute(tasks: map<Uuid, TaskRow>, agents: map<Uuid, AgentRow>, id: Uuid, agent: Option<Uuid>,
                   taskRef: string, agentName: string, plugin: Result<Json, Exception>,
                   retries: nat, maxRetries: nat, startAt: Time, endAt: Time): Run
    requires agent.Some? ==> agent.value in agents
  {
    var task := if id in tasks then Some(tasks[id]) else None;
    match Thrown(task, agent.Some?, plugin, taskRef, agentName, startAt)
    case None =>
      var done := Ran(tasks[id], plugin.value, startAt, endAt);
      var d := DurationOrZero(done.durationSeconds);
      Run(tasks[id := done],
          agents[agent.value := RecordTaskCompletion(agents[agent.value], true, d)],
          [TaskStarted(taskRef, agentName), TaskCompleted(taskRef, agentName, plugin.value, d)],
          Done(plugin.value))
    case Some(e) =>
      if task.Some? && agent.Some? && task.value.status == Queued then
        var handled := Handled(tasks[id := StartProcessing(task.value, startAt).value], agents, id, agent, e,
                               taskRef, agentName, retries, maxRetries, endAt);
        handled.(events := [TaskStarted(taskRef, agentName)] + handled.events)
      else
        Handled(tasks, agents, id, agent, e, taskRef, agentName, retries, maxRetries, endAt)
  }

  /** The `except` block for `e`: the task, when found, is failed (which
      itself raises unless it is QUEUED or PROCESSING), the agent, when
      found, is charged, and the job retries while it may. */
  function Handled(tasks: map<Uuid, TaskRow>, agents: map<Uuid, AgentRow>, id: Uuid, agent: Option<Uuid>,
                   e: Exception, taskRef: string, agentName: string, retries: nat, maxRetries: nat, endAt: Time): Run
    requires agent.Some? ==> agent.value in agents
  {
    if id in tasks && FailWithError(tasks[id], e.message, Some(e.kind), endAt).Err? then
      Run(tasks, agents, [], Raised(FailWithError(tasks[id], e.message, Some(e.kind), endAt).error))
    else
      Run(if id in tasks then tasks[id := FailWithError(tasks[id], e.message, Some(e.kind), endAt).value] else tasks,
          if agent.Some? then agents[agent.value := Faulted(agents[agent.value], e.message)] else agents,
          [TaskFailed(taskRef, agentName, e.message, e.kind)],
          if retries < maxRetries then RetryIn(RetryCountdown, e) else Raised(e))
  }

  /** A run writes rows only under their own keys and never renames an
      agent. */
  lemma ExecuteKeepsKeys(tasks: map<Uuid, TaskRow>, agents: map<Uuid, AgentRow>, id: Uuid, agent: Option<Uuid>,
                         taskRef: string, agentName: string, plugin: Result<Json, Exception>,
                         retries: nat, maxRetries: nat, startAt: Time, endAt: Time)
    requires agent.Some? ==> agent.value in agents
    requires TaskModel.Keyed(tasks)
    ensures var run := Execute(tasks, agents, id, agent, taskRef, agentName, plugin, retries, maxRetries, startAt, endAt);
      TaskModel.Keyed(run.tasks) && AgentService.SameAgents(agents, run.agents)
  {
    var task := if id in tasks then Some(tasks[id]) else None;
    var thrown := Thrown(task, agent.Some?, plugin, taskRef, agentName, startAt);
    if thrown.Some? {
      if task.Some? && agent.Some? && task.value.status == Queued {
        HandledKeepsKeys(tasks[id := StartProcessing(task.value, startAt).value], agents, id, agent, thrown.value,
                         taskRef, agentName, retries, maxRetries, endAt);
      } else {
        HandledKeepsKeys(tasks, agents, id, agent, thrown.value, taskRef, agentName, retries, maxRetries, endAt);
      }
    }
  }

  lemma HandledKeepsKeys(tasks: map<Uuid, TaskRow>, agents: map<Uuid, AgentRow>, id: Uuid, agent: Option<Uuid>,
                         e: Exception, taskRef: string, agentName: string, retries: nat, maxRetries: nat, endAt: Time)
    requires agent.Some? ==> agent.value in agents
    requires TaskModel.Keyed(tasks)
    ensures var run := Handled(tasks, agents, id, agent, e, taskRef, agentName, retries, maxRetries, endAt);
      TaskModel.Keyed(run.tasks) && AgentService.SameAgents(agents, run.agents)
  {
  }

  // ---------------------------------------------------------------------
  // What one run does.

  /** A queued task whose agent exists and whose plugin returns goes
      QUEUED -> PROCESSING -> COMPLETED, and the agent counts exactly one
      success with the task's duration. */
  lemma ProcessSucceeds(tasks: map<Uuid, TaskRow>, agents: map<Uuid, AgentRow>, taskRef: string,
                        parse: string -> Option<Uuid>, agentName: string, value: Json,
                        retries: nat, maxRetries: nat, startAt: Time, endAt: Time, k: Uuid)
    requires parse(taskRef).Some? && parse(taskRef).value in tasks
    requires tasks[parse(taskRef).value].status == Queued
    requires k in agents && agents[k].name == agentName && AgentRepository.UniqueNames(agents)
    ensures var id := parse(taskRef).value;
            var run := Processed(tasks, agents, taskRef, parse, agentName, Ok(value), retries, maxRetries, startAt, endAt);
      && run.result == Done(value)
      && run.tasks.Keys == tasks.Keys
      && run.tasks[id].status == Completed && run.tasks[id].result == value
      && run.tasks[id].startedAt == Some(startAt) && run.tasks[id].completedAt == Some(endAt)
      && run.tasks[id].durationSeconds == Some(endAt - startAt)
      && (forall j :: j in tasks && j != id ==> run.tasks[j] == tasks[j])
      && run.agents == agents[k := RecordTaskCompletion(agents[k], true, (endAt - startAt) as real)]
      && run.agents[k].successfulTasks == agents[k].successfulTasks + 1
      && run.agents[k].failedTasks == agents[k].failedTasks
      && run.events == [TaskStarted(taskRef, agentName), TaskCompleted(taskRef, agentName, value, (endAt - startAt) as real)]
  {
    assert AgentNamed(agents, agentName) == Some(k);
  }

  /** Once the task or its agent is found and the `try` raises, a task that
      can still fail is FAILED with the exception's text and type, and the
      agent, when found, counts one failure and is put in ERROR. */
  lemma ProcessFailureEffects(tasks: map<Uuid, TaskRow>, agents: map<Uuid, AgentRow>, taskRef: string,
                              parse: string -> Option<Uuid>, agentName: string, plugin: Result<Json, Exception>,
                              retries: nat, maxRetries: nat, startAt: Time, endAt: Time, e: Exception)
    requires parse(taskRef).Some?
    requires var id := parse(taskRef).value;
      Thrown(if id in tasks then Some(tasks[id]) else None, AgentNamed(agents, agentName).Some?, plugin,
             taskRef, agentName, startAt) == Some(e)
    requires var id := parse(taskRef).value;
      id in tasks ==> tasks[id].status == Queued || tasks[id].status == Processing
    requires AgentRepository.UniqueNames(agents)
    ensures var id := parse(taskRef).value;
            var run := Processed(tasks, agents, taskRef, parse, agentName, plugin, retries, maxRetries, startAt, endAt);
      && run.result == (if retries < maxRetries then RetryIn(60, e) else Raised(e))
      && (id in tasks ==> run.tasks == tasks[id := run.tasks[id]]
                          && run.tasks[id].status == Failed && run.tasks[id].completedAt == Some(endAt)
                          && run.tasks[id].errorMessage == Some(e.message) && run.tasks[id].errorType == Some(e.kind))
      && (id !in tasks ==> run.tasks == tasks)
      && (forall k :: k in agents && agents[k].name == agentName ==>
            && run.agents.Keys == agents.Keys
            && run.agents[k].failedTasks == agents[k].failedTasks + 1
            && run.agents[k].successfulTasks == agents[k].successfulTasks
            && run.agents[k].totalTasksProcessed == agents[k].totalTasksProcessed + 1
            && run.agents[k].status == Error && run.agents[k].lastError == Some(e.message)
            && run.agents[k].errorCount == agents[k].errorCount + 1)
      && ((forall k :: k in agents ==> agents[k].name != agentName) ==> run.agents == agents)
      && run.events[|run.events| - 1] == TaskFailed(taskRef, agentName, e.message, e.kind)
  {
  }

  /** A task that is in neither QUEUED nor PROCESSING (a cancelled one, say)
      makes `start_processing()` raise and then the handler's own
      `fail_with_error` raise: nothing is written, the agent is not charged
      and no event goes out. */
  lemma UnstartableTaskRaisesUntouched(tasks: map<Uuid, TaskRow>, agents: map<Uuid, AgentRow>, taskRef: string,
                                       parse: string -> Option<Uuid>, agentName: string,
                                       plugin: Result<Json, Exception>, retries: nat, maxRetries: nat,
                                       startAt: Time, endAt: Time)
    requires parse(taskRef).Some? && parse(taskRef).value in tasks
    requires tasks[parse(taskRef).value].status !in {Queued, Processing}
    ensures var run := Processed(tasks, agents, taskRef, parse, agentName, plugin, retries, maxRetries, startAt, endAt);
      && run.result == Raised(ValidationError("Task must be processing or queued to fail"))
      && run.tasks == tasks && run.agents == agents && run.events == []
  {
  }

  /** A missing task still charges an existing agent with a failure. */
  lemma MissingTaskChargesAgent(tasks: map<Uuid, TaskRow>, agents: map<Uuid, AgentRow>, taskRef: string,
                                parse: string -> Option<Uuid>, agentName: string,
                                plugin: Result<Json, Exception>, retries: nat, maxRetries: nat,
                                startAt: Time, endAt: Time, k: Uuid)
    requires parse(taskRef).Some? && parse(taskRef).value !in tasks
    requires k in agents && agents[k].name == agentName && AgentRepository.UniqueNames(agents)
    ensures var run := Processed(tasks, agents, taskRef, parse, agentName, plugin, retries, maxRetries, startAt, endAt);
            var e := NotFound(taskRef, agentName);
      && run.tasks == tasks
      && run.agents == agents[k := Faulted(agents[k], e.message)]
      && run.agents[k].failedTasks == agents[k].failedTasks + 1 && run.agents[k].status == Error
      && run.events == [TaskFailed(taskRef, agentName, e.message, "Exception")]
      && run.result == (if retries < maxRetries then RetryIn(60, e) else Raised(e))
  {
    assert AgentNamed(agents, agentName) == Some(k);
  }

  /** The agent's counters keep total = successful + failed through a run. */
  lemma ProcessKeepsCounters(tasks: map<Uuid, TaskRow>, agents: map<Uuid, AgentRow>, taskRef: string,
                             parse: string -> Option<Uuid>, agentName: string, plugin: Result<Json, Exception>,
                             retries: nat, maxRetries: nat, startAt: Time, endAt: Time)
    requires forall k :: k in agents ==> CountersConsistent(agents[k])
    ensures var run := Processed(tasks, agents, taskRef, parse, agentName, plugin, retries, maxRetries, startAt, endAt);
      forall k :: k in run.agents ==> CountersConsistent(run.agents[k])
  {
    if parse(taskRef).Some? {
      var key := AgentNamed(agents, agentName);
      if key.Some? {
        UpdatesKeepCounters(agents[key.value]);
      }
    }
  }

  lemma UpdatesKeepCounters(a: AgentRow)
    requires CountersConsistent(a)
    ensures forall success, time :: CountersConsistent(RecordTaskCompletion(a, success, time))
    ensures forall m :: CountersConsistent(Faulted(a, m))
  {
    forall success, time
      ensures CountersConsistent(RecordTaskCompletion(a, success, time))
    {
      CountersStayConsistent(a, success, time, 0, "");
    }
  }

  // ---------------------------------------------------------------------
  // The periodic agent health check.

  const HealthCheckMessage: string := "Health check failed - restarting"

  /** The table after `health_check_agents_async` at `now`: the stale
      agents with `auto_restart` have an error recorded, nothing else. */
  function Flagged(rows: map<Uuid, AgentRow>, now: Time): (r: map<Uuid, AgentRow>)
    ensures r.Keys == rows.Keys
  {
    map k | k in rows :: if AgentService.RestartableAt(now)(rows[k]) then SetError(rows[k], HealthCheckMessage) else rows[k]
  }

  /** The table with the agents at `done` flagged. */
  function Marked(rows: map<Uuid, AgentRow>, done: set<Uuid>): (r: map<Uuid, AgentRow>)
    ensures r.Keys == rows.Keys
  {
    map k | k in rows :: if k in done then SetError(rows[k], HealthCheckMessage) else rows[k]
  }

  /** The check never brings an agent back: every agent it touches is left
      in ERROR, and the others are unchanged. */
  lemma HealthCheckNeverReactivates(rows: map<Uuid, AgentRow>, now: Time)
    ensures forall k :: k in rows && AgentService.RestartableAt(now)(rows[k]) ==>
              Flagged(rows, now)[k].status == Error && Flagged(rows, now)[k].errorCount == rows[k].errorCount + 1
    ensures forall k :: k in rows && !AgentService.RestartableAt(now)(rows[k]) ==> Flagged(rows, now)[k] == rows[k]
    ensures forall k :: k in rows ==> Flagged(rows, now)[k].status != Active || rows[k].status == Active
  {
  }

  /** What the check reports (the job renders it as text). */
  datatype HealthSummary = HealthSummary(checked: nat, restarted: nat)

  class Worker {
    const tasks: Table<TaskRow>
    const agents: Table<AgentRow>
    /** The events published so far, oldest first. */
    var published: seq<TaskEvent>

    constructor(tasks: Table<TaskRow>, agents: Table<AgentRow>)
      ensures this.tasks == tasks && this.agents == agents && published == []
    {
      this.tasks := tasks;
      this.agents := agents;
      published := [];
    }

    ghost predicate Valid()
      reads this, tasks, agents
    {
      && TaskModel.Keyed(tasks.rows)
      && AgentModel.Keyed(agents.rows) && AgentRepository.UniqueNames(agents.rows)
    }

    /** `process_task_async(celery_task, task_id, agent_id, payload)`. */
    method ProcessTask(taskRef: string, parse: string -> Option<Uuid>, agentName: string,
                       plugin: Result<Json, Exception>, retries: nat, maxRetries: nat,
                       startAt: Time, endAt: Time) returns (res: ProcessResult)
      requires Valid()
      modifies this, tasks, agents
      ensures Valid()
      ensures var run := Processed(old(tasks.rows), old(agents.rows), taskRef, parse, agentName, plugin,
                                   retries, maxRetries, startAt, endAt);
        && tasks.rows == run.tasks && agents.rows == run.agents
        && published == old(published) + run.events && res == run.result
    {
      var parsed := parse(taskRef);
      if parsed.None? {
        return Raised(UnboundTask);
      }
      var task := TaskModel.Load(tasks, parsed.value);
      var found := FindOne(agents.rows, (r: AgentRow) => r.name == agentName);
      var agent: AgentModel.Agent? := null;
      if found.Some? {
        agent := AgentModel.Load(agents, found.value);
      }
      assert AgentNamed(agents.rows, agentName) == found;
      ghost var before := agents.rows;
      ExecuteKeepsKeys(tasks.rows, agents.rows, parsed.value, found, taskRef, agentName, plugin,
                       retries, maxRetries, startAt, endAt);
      res := Process(task, agent, parsed.value, found, taskRef, agentName, plugin, retries, maxRetries, startAt, endAt);
      AgentService.SameAgentsValid(before, agents.rows);
    }

    /** The `try` and its `except` on the loaded task and agent. */
    method Process(task: TaskModel.Task?, agent: AgentModel.Agent?, ghost id: Uuid, ghost key: Option<Uuid>,
                   taskRef: string, agentName: string, plugin: Result<Json, Exception>,
                   retries: nat, maxRetries: nat, startAt: Time, endAt: Time) returns (res: ProcessResult)
      requires task == null <==> id !in tasks.rows
      requires task != null ==> task.id == id && task.Row() == tasks.rows[id]
      requires agent == null <==> key.None?
      requires agent != null ==> key.value == agent.id && agent.id in agents.rows && agent.Row() == agents.rows[agent.id]
      modifies this, tasks, agents, task, agent
      ensures var run := Execute(old(tasks.rows), old(agents.rows), id, key, taskRef, agentName, plugin,
                                 retries, maxRetries, startAt, endAt);
        && tasks.rows == run.tasks && agents.rows == run.agents
        && published == old(published) + run.events && res == run.result
    {
      var thrown := Attempt(task, agent, taskRef, agentName, plugin, startAt, endAt);
      if thrown.None? {
        return Done(plugin.value);
      }
      res := Handle(task, agent, id, key, taskRef, agentName, thrown.value, retries, maxRetries, endAt);
    }

    /** The body of the `try`: None when the task completes, else what it
        raised. */
    method Attempt(task: TaskModel.Task?, agent: AgentModel.Agent?, taskRef: string, agentName: string,
                   plugin: Result<Json, Exception>, startAt: Time, endAt: Time)
      returns (thrown: Option<Exception>)
      requires task != null ==> task.id in tasks.rows && task.Row() == tasks.rows[task.id]
      requires agent != null ==> agent.id in agents.rows && agent.Row() == agents.rows[agent.id]
      modifies this, tasks, agents, task, agent
      ensures thrown == Thrown(if task != null then Some(old(task.Row())) else None, agent != null, plugin,
                               taskRef, agentName, startAt)
      ensures var started := task != null && agent != null && old(task.Row()).status == Queued;
        && (thrown.None? ==>
              && tasks.rows == old(tasks.rows)[task.id := Ran(old(task.Row()), plugin.value, startAt, endAt)]
              && agents.rows == old(agents.rows)[agent.id := agent.Row()]
              && agent.Row() == RecordTaskCompletion(old(agent.Row()), true,
                                                     DurationOrZero(Ran(old(task.Row()), plugin.value, startAt, endAt).durationSeconds))
              && published == old(published) + [TaskStarted(taskRef, agentName),
                   TaskCompleted(taskRef, agentName, plugin.value,
                                 DurationOrZero(Ran(old(task.Row()), plugin.value, startAt, endAt).durationSeconds))])
        && (thrown.Some? ==>
              && agents.rows == old(agents.rows) && (agent != null ==> agent.Row() == old(agent.Row()))
              && (started ==> task.Row() == StartProcessing(old(task.Row()), startAt).value
                              && tasks.rows == old(tasks.rows)[task.id := task.Row()]
                              && published == old(published) + [TaskStarted(taskRef, agentName)])
              && (!started ==> tasks.rows == old(tasks.rows) && published == old(published)
                               && (task != null ==> task.Row() == old(task.Row()))))
    {
      if task == null || agent == null {
        return Some(NotFound(taskRef, agentName));
      }
      var outcome := task.StartProcessing(startAt, tasks);
      if outcome.Fail? {
        return Some(outcome.error);
      }
      published := published + [TaskStarted(taskRef, agentName)];
      if plugin.Err? {
        return Some(plugin.error);
      }
      outcome := task.CompleteSuccessfully(plugin.value, endAt, tasks);
      var d := DurationOrZero(task.durationSeconds);
      agent.RecordTaskCompletion(true, d, agents);
      published := published + [TaskCompleted(taskRef, agentName, plugin.value, d)];
      thrown := None;
    }

    /** The `except` block for the exception `e`. */
    method Handle(task: TaskModel.Task?, agent: AgentModel.Agent?, ghost id: Uuid, ghost key: Option<Uuid>,
                  taskRef: string, agentName: string, e: Exception, retries: nat, maxRetries: nat, endAt: Time)
      returns (res: ProcessResult)
      requires task == null <==> id !in tasks.rows
      requires task != null ==> task.id == id && task.Row() == tasks.rows[id]
      requires agent == null <==> key.None?
      requires agent != null ==> key.value == agent.id && agent.id in agents.rows && agent.Row() == agents.rows[agent.id]
      modifies this, tasks, agents, task, agent
      ensures var run := Handled(old(tasks.rows), old(agents.rows), id, key, e, taskRef, agentName,
                                 retries, maxRetries, endAt);
        && tasks.rows == run.tasks && agents.rows == run.agents
        && published == old(published) + run.events && res == run.result
    {
      if task != null {
        var outcome := task.FailWithError(e.message, Some(e.kind), endAt, tasks);
        if outcome.Fail? {
          return Raised(outcome.error);
        }
      }
      if agent != null {
        Charge(agent, e.message);
      }
      published := published + [TaskFailed(taskRef, agentName, e.message, e.kind)];
      if retries < maxRetries {
        return RetryIn(RetryCountdown, e);
      }
      return Raised(e);
    }

    /** The handler's `record_task_completion(False, 0)` and
        `set_error(str(e))` on the agent. */
    method Charge(agent: AgentModel.Agent, message: string)
      modifies agent, agents
      ensures agent.Row() == Faulted(old(agent.Row()), message)
      ensures agents.rows == old(agents.rows)[agent.id := agent.Row()]
    {
      agent.RecordTaskCompletion(false, 0.0, agents);
      agent.SetError(message, agents);
    }

    /** `health_check_agents_async()`: the agents stale for five minutes
        that restart automatically get an error recorded. */
    method HealthCheckAgents(now: Time) returns (summary: HealthSummary)
      requires Valid()
      modifies agents
      ensures Valid()
      ensures agents.rows == Flagged(old(agents.rows), now)
      ensures summary.checked == CountWhere(old(agents.rows), AgentRepository.StaleFor(5, now))
      ensures summary.restarted == CountWhere(old(agents.rows), AgentService.RestartableAt(now))
    {
      var ks := AgentRepository.GetUnhealthyAgents(agents, 5, now);
      ghost var before := agents.rows;
      var restarted, done := FlagEach(ks);
      AgentService.RestartableInListed(before, ks);
      forall k | k in before
        ensures (k in done <==> AgentService.RestartableAt(now)(before[k]))
      {
        assert AgentRepository.StaleFor(5, now)(before[k]) == AgentService.StaleNow(before[k], now);
      }
      forall k | k in done
        ensures k in before
      {
      }
      MarkedIsFlagged(before, done, now);
      CountByKeys(before, AgentService.RestartableAt(now), done);
      assert before.Keys * done == done;
      summary := HealthSummary(|ks|, restarted);
    }

    /** The check's loop over the listed agents. */
    method FlagEach(ks: seq<Uuid>) returns (restarted: nat, ghost done: set<Uuid>)
      requires AgentModel.Keyed(agents.rows) && AgentRepository.UniqueNames(agents.rows) && Distinct(ks)
      requires forall k :: k in ks ==> k in agents.rows
      modifies agents
      ensures AgentModel.Keyed(agents.rows) && AgentRepository.UniqueNames(agents.rows)
      ensures done == AgentService.RestartableIn(old(agents.rows), ks)
      ensures restarted == |done|
      ensures agents.rows == Marked(old(agents.rows), done)
    {
      ghost var before := agents.rows;
      restarted := 0;
      done := {};
      var i := 0;
      while i < |ks|
        invariant 0 <= i <= |ks|
        invariant done == AgentService.RestartableIn(before, ks[..i])
        invariant restarted == AgentService.RestartCount(before, ks[..i])
        invariant agents.rows == Marked(before, done)
      {
        var k := ks[i];
        assert k in ks && k !in ks[..i];
        AgentService.InRestartable(before, ks[..i], k);
        AgentService.NextListed(before, ks, i);
        var agent := AgentModel.Load(agents, k);
        if agent.autoRestart {
          agent.SetError(HealthCheckMessage, agents);
          MarkedStep(before, done, k);
          done := done + {k};
          restarted := restarted + 1;
        }
        i := i + 1;
      }
      assert ks[..i] == ks;
      AgentService.RestartCountIsSize(before, ks);
      MarkedSame(before, done);
      AgentService.SameAgentsValid(before, agents.rows);
    }

    /** `cleanup_old_tasks_async()`: the repository's clean-up with a
        30-day horizon. */
    method CleanupOldTasks(now: Time) returns (count: nat)
      modifies tasks
      ensures count == CountWhere(old(tasks.rows), TaskRepository.OldBefore(now - 30 * SecondsPerDay))
      ensures tasks.rows == TaskRepository.Cleaned(old(tasks.rows), now - 30 * SecondsPerDay)
      ensures forall k :: k in tasks.rows <==>
        k in old(tasks.rows)
        && !TaskRepository.InSubtree(old(tasks.rows), k, TaskRepository.OldKeys(old(tasks.rows), now - 30 * SecondsPerDay))
    {
      count := TaskRepository.CleanupOldTasks(tasks, 30, now);
    }

    /** `retry_failed_tasks_async()` as written: the repository call it
        makes raises NameError before reading a row, so every run ends in
        that error and no task changes. */
    method RetryFailedTasksAsWritten() returns (res: Result<nat, Exception>)
      ensures res == Err(TaskRepository.UndefinedModels)
    {
      res := TaskRepository.RetryFailedTasksAsWritten(tasks.rows, None, 50);
    }

    /** `retry_failed_tasks_async()` over the corrected repository method:
        up to 50 retryable failed tasks are queued again. */
    method RetryFailedTasks(now: Time) returns (count: nat)
      requires Valid()
      modifies tasks
      ensures Valid()
      ensures count == Min(50, CountWhere(old(tasks.rows), TaskRepository.Retryable(None)))
      ensures exists retried: set<Uuid> ::
        && |retried| == count
        && (forall k :: k in retried ==> k in old(tasks.rows) && TaskRepository.Retryable(None)(old(tasks.rows)[k]))
        && tasks.rows == TaskRepository.Requeued(old(tasks.rows), retried, now)
    {
      ghost var retried;
      count, retried := TaskRepository.RetryFailedTasks(tasks, None, 50, now);
    }
  }

  lemma MarkedStep(rows: map<Uuid, AgentRow>, done: set<Uuid>, k: Uuid)
    requires k in rows && k !in done
    ensures Marked(rows, done)[k := SetError(rows[k], HealthCheckMessage)] == Marked(rows, done + {k})
  {
  }

  lemma MarkedSame(rows: map<Uuid, AgentRow>, done: set<Uuid>)
    ensures AgentService.SameAgents(rows, Marked(rows, done))
  {
  }

  lemma MarkedIsFlagged(rows: map<Uuid, AgentRow>, done: set<Uuid>, now: Time)
    requires forall k :: k in rows ==> (k in done <==> AgentService.RestartableAt(now)(rows[k]))
    ensures Marked(rows, done) == Flagged(rows, now)
  {
    forall k | k in rows
      ensures Marked(rows, done)[k] == Flagged(rows, now)[k]
    {
      assert AgentService.RestartableAt(now)(rows[k]) == (AgentService.StaleNow(rows[k], now) && rows[k].autoRestart);
    }
  }
}
